=== FILE: README.md ===
# mamotama: a Dafny model of the WAF gateway's rule, bypass and log logic

mamotama is a reverse proxy. It puts the Coraza web application firewall in
front of an application and has a small admin UI. This project models the parts
of its Go backend and of three admin pages that hold sequential logic:

- **Cache rules (`cacheconf`).** The line language
  `ALLOW|DENY prefix=…|regex=…|exact=… methods=… ttl=… vary=…` and its
  first-match-wins evaluator. The structured form (`RuleDTO`): the validator
  `FromDTO` and the serialisers `ToDTO` and `RulesetToLines`. The
  `/cache-rules` GET, validate and PUT handlers, with the `If-Match`
  conditional write.
- **Bypass list (`bypassconf`).** The line parser (a path and an optional extra
  rule file), the path normaliser (`path.Clean` that keeps a trailing slash),
  the loose equality and the ordered matcher (none, bypass or extra rule). The
  `/bypass-rules` handlers.
- **Log paging.** The byte-offset line index and its incremental extension, the
  `tail`/`cursor`/`dir` window arithmetic of `/logs/read`, and the pager state
  of the Logs page.
- **Small decisions.** API-key admission, the API base path and environment
  flags, the proxy's bypass routing, request-ID reuse, WAF hit headers,
  cacheability headers, `unique`, and the last-100-lines and rule-file views
  of the old admin handlers.
- **Editor pages.** The cache-rule table and the bypass text editor: their
  edits, request bodies, `If-Match` selection and what each reply does to the
  page.

Inputs the program gets from outside become parameters:

- File contents are strings or byte sequences (`None` when missing).
- The JSON decoder's verdict is a `Result`.
- A failed write is an `Option<string>`.
- SHA-256 is a `Hasher` function.
- Go's `regexp` is a `RegexEngine` record: whether a pattern compiles, its
  error text, and whether it matches.
- `url.PathUnescape` is an `Unescaper` function.
- Whether a log line decodes as JSON is a predicate.
- The environment is a map.
- The generated request ID, the WAF's matched rules and its interruption are
  arguments.

Where the project's own description and its code differ, the model follows the
code:

- Changing the Logs page's row count does not reset the paging direction (see
  Findings).
- A rejected cache-rule validation is not shown as the server's messages. The
  JSON helper throws on the 422 status, so the panel shows `HTTP 422`
  (`CacheRulesPanel.CheckedShown`).
- The bypass editor's save button is disabled when nothing changed, but Ctrl/Cmd+S
  saves anyway (`BypassRulesPanel.ShortcutIgnoresButtonGuard`).
- An aborted log load still clears `loading` while the newer load runs
  (`LogsPage.Settle`).
- The bypass validator accepts every text (`BypassRulesHandler.ValidateRaw`).

Files: `wrappers.dfy` (Option, Result, Collect), `text.dfy` (Go `strings` and
`bufio.ScanLines` on ASCII text), `numeric.dfy` (`strconv.Atoi`/`Itoa`),
`quote.dfy` (`%q`), `sorting.dfy` (`sort.Strings`), `etag.dfy`, `cache_loader.dfy`,
`cache_serialize.dfy`, `cache_roundtrip.dfy`, `cache_rules_handler.dfy`,
`bypass_normalize.dfy`, `bypass_loader.dfy`, `bypass_rules_handler.dfy`,
`log_index.dfy`, `logs_read.dfy`, `proxy.dfy`, `api_key.dfy`, `env.dfy`,
`admin.dfy`, `api_client.dfy`, `logs_page.dfy`, `cache_rules_panel.dfy`,
`bypass_rules_panel.dfy`.

## Model

| member | source | states |
|---|---|---|
| Sorting.Sort | coraza/src/internal/cacheconf/serialize.go:142 | `sort.Strings` yields a byte-wise ascending permutation of its input |
| Numeric.Atoi | coraza/src/internal/handler/logs.go:407 | `strconv.Atoi` succeeds exactly for an optionally signed run of digits whose value fits in 64 bits, and returns that value |
| Numeric.AtoiValue | coraza/src/internal/handler/logs.go:407 | the value `Atoi` hands back even with an error, always within the 64-bit range: the parsed value on success; the bound of the text's sign when the digit run passes 2^64−1 before any other character or the value leaves the 64-bit range; 0 for any other syntax error |
| Numeric.DigitRun | coraza/src/internal/handler/logs.go:407 | the length of the leading run of digits: everything before it is a digit and the character after it is not |
| Numeric.ScanUintRun | coraza/src/internal/handler/logs.go:407 | the unsigned scan reports a range error when the leading digit run passes 2^64−1, otherwise a syntax error when a non-digit follows the run, otherwise the value |
| Numeric.OverflowBeforeSyntax | coraza/src/internal/handler/logs.go:407 | twenty nines followed by `x` is not a number, yet `Atoi` hands back the largest 64-bit value, because the range error comes first |
| Numeric.NegativeOverflowBeforeSyntax | coraza/src/internal/handler/logs.go:407 | the same text with a minus sign hands back the smallest 64-bit value |
| Numeric.SyntaxErrorIsZero | coraza/src/internal/handler/logs.go:407 | a syntax error reached before any overflow hands back 0 |
| Numeric.AtoiOfItoa | coraza/src/internal/cacheconf/serialize.go:147 | a 64-bit integer written in decimal (`ttl=%d`) parses back to itself |
| Text.Fields | coraza/src/internal/cacheconf/loader.go:98 | `strings.Fields` yields only non-empty pieces free of whitespace |
| Text.TrimSpace | coraza/src/internal/cacheconf/loader.go:93 | the result is trimmed and no longer than the input |
| Text.TrimSpaceCuts | coraza/src/internal/cacheconf/loader.go:93 | the trimmed line is one slice of the line with only whitespace cut before and after it |
| Text.FieldsOfJoin | coraza/src/internal/cacheconf/loader.go:98 | words joined by single spaces split back into the same words |
| Text.FieldsAtSpace | coraza/src/internal/cacheconf/loader.go:98 | a whitespace character separates fields: the fields of `a`, the space and `b` are the fields of `a` followed by those of `b` |
| Text.SplitCount | coraza/src/internal/cacheconf/loader.go:123 | `strings.Split` yields one more piece than there are separators |
| Text.Split | coraza/src/internal/cacheconf/loader.go:123 | `strings.Split` yields at least one piece and no piece holds the separator |
| Text.SplitOfJoin | coraza/src/internal/cacheconf/serialize.go:143 | separator-free pieces joined by the separator split back into the same pieces |
| Text.ScanLinesOfTerminated | coraza/src/internal/cacheconf/loader.go:80-92 | the line scanner gives back newline-terminated lines that hold no newline and no trailing carriage return |
| Text.ScanLines | coraza/src/internal/cacheconf/loader.go:90-92 | no scanned line holds a newline |
| Text.ScanLinesOfText | coraza/src/internal/cacheconf/loader.go:80-92 | the scanner yields every newline-terminated line and a final unterminated line when there is one, never an empty piece after the last newline, each line losing one trailing carriage return |
| Text.Upper | coraza/src/internal/cacheconf/loader.go:103 | upper-casing keeps the length and maps each character on its own |
| CacheLoader.SplitTrim | coraza/src/internal/cacheconf/loader.go:160-175 | `splitTrim` yields nothing for `""`; every piece it keeps is non-empty, trimmed and comma-free |
| CacheLoader.SplitTrimOfJoin | coraza/src/internal/cacheconf/loader.go:160-175 | non-empty, trimmed, comma-free entries survive a comma join followed by `splitTrim` unchanged |
| Text.SplitAppend | coraza/src/internal/cacheconf/loader.go:165 | `strings.Split` at one separator gives the pieces before it followed by the pieces after it |
| CacheLoader.SplitTrimAppend | coraza/src/internal/cacheconf/loader.go:160-175 | the entries of `a,b` are the entries of `a` followed by those of `b` |
| CacheLoader.SplitTrimOfPiece | coraza/src/internal/cacheconf/loader.go:160-175 | a comma-free piece gives its trim as the one entry, or nothing when it is blank |
| CacheLoader.MethodKeys | coraza/src/internal/cacheconf/loader.go:121-125 | the `methods=` map holds each trimmed, upper-cased comma piece (the empty one included) exactly once |
| CacheLoader.KeyOf | coraza/src/internal/cacheconf/loader.go:110-112 | option keys are case-insensitive; a key is unknown exactly when its lower-case form is none of the six option names |
| CacheLoader.TokenOf | coraza/src/internal/cacheconf/loader.go:105-111 | a token is split at its first `=`; a token without `=` says nothing |
| CacheLoader.ApplyOption | coraza/src/internal/cacheconf/loader.go:104-108 | a token without `=` leaves the rule unchanged, and no option changes the kind |
| CacheLoader.ParseLine | coraza/src/internal/cacheconf/loader.go:93-103 | a line yields a rule exactly when, trimmed, it is not blank, not a `#` comment and has two or more fields; the kind is the upper-cased first field |
| CacheLoader.ParseLinesSingle | coraza/src/internal/cacheconf/loader.go:92-134 | each scanned line contributes exactly one rule if it is a rule line and none otherwise |
| CacheLoader.ParseLinesAppend | coraza/src/internal/cacheconf/loader.go:92-134 | the rules of two runs of lines are the rules of the first followed by those of the second, so rules keep line order |
| CacheLoader.LoadFromString | coraza/src/internal/cacheconf/loader.go:80-134 | never more rules than lines, and every rule is what some rule line of the text parses to |
| CacheLoader.NoRuleLines | coraza/src/internal/cacheconf/loader.go:93-101 | lines that are blank, comments or single words add no rules |
| CacheLoader.LastTtlWins | coraza/src/internal/cacheconf/loader.go:126-129 | the TTL comes from the last `ttl=` whose value parses as an integer, else it stays at the line's default of 600 |
| CacheLoader.LastRegexWins | coraza/src/internal/cacheconf/loader.go:115-118 | the regex comes from the last `regex=` whose pattern compiles; patterns that do not compile are dropped silently |
| CacheLoader.LastMethodsWins | coraza/src/internal/cacheconf/loader.go:121-125 | the methods come from the last `methods=` token alone, which replaces the whole set |
| CacheLoader.OptionsLastWins | coraza/src/internal/cacheconf/loader.go:103-132 | every field of a parsed rule comes from the last token that sets it (only compiling regexes and parsing TTLs count), otherwise from the base rule |
| CacheLoader.Match | coraza/src/internal/cacheconf/loader.go:139-157 | the result is the first rule whose method set is empty or holds the upper-cased method and whose exact, prefix or regex selector matches; it allows exactly when that rule's kind is `ALLOW`; there is no hit exactly when no rule applies |
| CacheLoader.MatchIgnoresLaterRules | coraza/src/internal/cacheconf/loader.go:141-155 | once a rule hits, rules after it never change the answer |
| CacheSerialize.Message | coraza/src/internal/cacheconf/serialize.go:55-104 | every error text starts `rules[`; its index and a quoted method read back (see the next two rows) |
| CacheSerialize.MessageIndexOf | coraza/src/internal/cacheconf/serialize.go:55-104 | every error text names, between `rules[` and `]`, the position of the rule it is about |
| CacheSerialize.MethodProblemQuotes | coraza/src/internal/cacheconf/serialize.go:98 | the complaint about a method quotes it as `%q` does, and the quoted text reads back as exactly that method |
| Quote.EscapeChar | coraza/src/internal/cacheconf/serialize.go:98 | a character is written as itself exactly when it is not `"`, `\` or a control character; otherwise it becomes an escape starting with a backslash, and no quote is left bare |
| Quote.Escape | coraza/src/internal/cacheconf/serialize.go:98 | escaping never shortens the text and leaves text without special characters unchanged |
| Quote.Quoted | coraza/src/internal/cacheconf/serialize.go:98 | the literal is the escaped text between double quotes |
| Quote.UnescapeChar | coraza/src/internal/cacheconf/serialize.go:98 | reading an escaped character back gives the character, and the rest of the text is read on from there |
| Quote.UnescapeEscape | coraza/src/internal/cacheconf/serialize.go:98 | escaped text reads back as the original text |
| Quote.UnquoteQuoted | coraza/src/internal/cacheconf/serialize.go:98 | a `%q` literal reads back as the string it quotes |
| Quote.QuotedInjective | coraza/src/internal/cacheconf/serialize.go:98 | different strings get different literals |
| Quote.QuotedNul | coraza/src/internal/cacheconf/serialize.go:98 | a control character without a short escape takes the `\x` form: a NUL is written `"\x00"` |
| CacheSerialize.DTOMethods | coraza/src/internal/cacheconf/serialize.go:84-101 | an empty list becomes {GET, HEAD}; otherwise the method set is the trimmed, upper-cased entries that are GET or HEAD, each once |
| CacheSerialize.RuleFromDTO | coraza/src/internal/cacheconf/serialize.go:53-101 | the built rule has the upper-cased kind and the submitted TTL and vary list |
| CacheSerialize.MethodsProblems | coraza/src/internal/cacheconf/serialize.go:88-100 | there is no method complaint exactly when every non-blank entry is GET or HEAD, and each complaint names an offending upper-cased entry |
| CacheSerialize.RuleProblemsIff | coraza/src/internal/cacheconf/serialize.go:53-105 | a submitted rule draws no complaint exactly when its kind is ALLOW/DENY, its match type is prefix/regex/exact with a non-empty value (a compiling pattern for regex), its methods are GET/HEAD and its TTL is not negative |
| CacheSerialize.RuleFromValidDTO | coraza/src/internal/cacheconf/serialize.go:53-101 | a rule built from a valid submission has one selector, GET/HEAD methods only and a non-negative TTL |
| CacheSerialize.ErrorsFrom | coraza/src/internal/cacheconf/serialize.go:52-108 | errors come in rule order, each one a complaint about the rule it names; every complaint of every rule is reported, one error per complaint, and there are none exactly when no rule draws a complaint |
| CacheSerialize.FromDTO | coraza/src/internal/cacheconf/serialize.go:49-115 | success exactly when every rule is valid, then one well-formed rule per submission in order; a failure holds one error per complaint, covering every complaint of every rule, and every error names an invalid rule |
| CacheSerialize.ErrorsNameInvalid | coraza/src/internal/cacheconf/serialize.go:52-111 | no error ever names a valid rule |
| CacheSerialize.SelectorOf | coraza/src/internal/cacheconf/serialize.go:19-27 | the shown match type is `exact` when an exact path is set, else `prefix` when a prefix is set, else `regex` when a pattern is set, else empty |
| CacheSerialize.ShownMethods | coraza/src/internal/cacheconf/serialize.go:28-36 | the shown methods are the rule's methods upper-cased and sorted, and `GET, HEAD` when the rule has none |
| CacheSerialize.ToDTO | coraza/src/internal/cacheconf/serialize.go:12-47 | one structured rule per rule, in order, with the kind upper-cased and TTL and vary copied |
| CacheSerialize.RuleToDTO | coraza/src/internal/cacheconf/serialize.go:37-44 | the shown rule has the upper-cased kind and the rule's TTL and vary list |
| CacheSerialize.RulePartsOptions | coraza/src/internal/cacheconf/serialize.go:124-152 | each of `exact=`, `prefix=`, `regex=`, `methods=`, `ttl=` and `vary=` is on a rule's line exactly when its field is set, with the field's value written after the `=` |
| CacheSerialize.RuleLine | coraza/src/internal/cacheconf/serialize.go:123-154 | a rule's line starts with its upper-cased kind |
| CacheSerialize.RulesetToLines | coraza/src/internal/cacheconf/serialize.go:117-158 | one line per rule, in rule order |
| CacheRoundTrip.TtlReparse | coraza/src/internal/cacheconf/serialize.go:146-148 | a written positive TTL parses back to itself |
| CacheRoundTrip.MethodsReparse | coraza/src/internal/cacheconf/serialize.go:137-144 | written methods read back as the same set of upper-cased methods |
| CacheRoundTrip.VaryReparse | coraza/src/internal/cacheconf/serialize.go:150-152 | a written vary list reads back unchanged |
| CacheRoundTrip.OptionsReparse | coraza/src/internal/cacheconf/serialize.go:125-152 | the written options of a space-free rule read back as the same selectors, vary list and method set, and as the same TTL or 600 when it was not positive |
| CacheRoundTrip.RuleLineRoundTrip | coraza/src/internal/cacheconf/serialize.go:123-154 | a serialisable rule's line is one rule line that parses back to the rule with its kind upper-cased |
| CacheRoundTrip.WellFormedSerializable | coraza/src/internal/cacheconf/serialize.go:49-154 | a rule the validator accepts can be saved and read back, provided its selector has no whitespace, its TTL fits 64 bits and its vary entries are non-empty words without commas |
| CacheRoundTrip.LinesRoundTrip | coraza/src/internal/cacheconf/serialize.go:117-158 | parsing the lines of a ruleset gives one rule per rule, in order, each reading back as its original |
| CacheRoundTrip.SelectorRoundTrip | coraza/src/internal/cacheconf/serialize.go:19-27 | the shown match of a well-formed rule is valid and rebuilds the same exact, prefix and regex fields |
| CacheRoundTrip.DTORoundTrip | coraza/src/internal/cacheconf/serialize.go:12-47 | a well-formed rule shown as a structured rule is valid and converts back to the same kind, selectors, TTL, vary and method set; an empty method set comes back as GET/HEAD |
| ETag.HexRoundTrip | coraza/src/internal/cacheconf/serialize.go:162 | the lower-case hex encoding of a digest decodes back to the digest |
| ETag.ComputeETag | coraza/src/internal/cacheconf/serialize.go:160-163 | an entity tag is `W/"sha256:`, then two lower-case hex digits per digest byte, then `"` |
| ETag.ETagDeterminesDigest | coraza/src/internal/bypassconf/etag.go:8-11 | two texts get the same entity tag exactly when their digests are equal |
| CacheRulesHandler.Get | coraza/src/internal/handler/cache_rules.go:20-30 | GET returns the file text with the entity tag of exactly that text, and rules only when a ruleset is loaded |
| CacheRulesHandler.Validate | coraza/src/internal/handler/cache_rules.go:32-60 | an undecodable body is a bad request; a checked body is ok exactly when it has no messages; raw text is always ok |
| CacheRulesHandler.Output | coraza/src/internal/handler/cache_rules.go:77-105 | raw mode writes the submitted text; structured mode writes only when every rule is valid, and otherwise reports at least one message |
| CacheRulesHandler.Put | coraza/src/internal/handler/cache_rules.go:62-114 | a conflict (with the current tag) exactly when `If-Match` is set and differs from the file's tag; a bad request exactly when there is no conflict and the body does not decode; a save answers the tag of the text written |
| CacheRulesHandler.Messages | coraza/src/internal/handler/cache_rules.go:88-91 | one message per error, in order |
| CacheRulesHandler.RenderFile | coraza/src/internal/handler/cache_rules.go:96-104 | a structured save's file text ends in a newline |
| CacheRulesHandler.PutWritesOnlyValid | coraza/src/internal/handler/cache_rules.go:62-107 | nothing is written unless `If-Match` is empty or current, the body decodes, and the body is raw or every rule is valid |
| CacheRulesHandler.PutRawVerbatim | coraza/src/internal/handler/cache_rules.go:78-84 | a raw save writes the submitted text byte for byte and answers its tag |
| CacheRulesHandler.PutRejectsInvalid | coraza/src/internal/handler/cache_rules.go:86-94 | a structured save with an invalid rule is refused with one message per validation error |
| CacheRulesHandler.PutStructuredOutput | coraza/src/internal/handler/cache_rules.go:96-104 | a valid structured save writes the header and the rule lines, newline-terminated |
| CacheRulesHandler.PutThenGet | coraza/src/internal/handler/cache_rules.go:112-113 | the tag a save answers is the tag a following GET computes over the written file |
| CacheRulesHandler.ValidateAgreesWithPut | coraza/src/internal/handler/cache_rules.go:32-60 | validation accepts exactly what an unconditional PUT saves and refuses with the same messages |
| CacheRulesHandler.HeaderIsComments | coraza/src/internal/handler/cache_rules.go:96-101 | the four header lines are comments or blank |
| CacheRulesHandler.CommentsYieldNothing | coraza/src/internal/handler/cache_rules.go:96-101 | comment and blank lines add no rules when the file is loaded |
| CacheRulesHandler.RenderFileLines | coraza/src/internal/handler/cache_rules.go:103-104 | scanning a saved file gives back the header lines followed by the rule lines |
| CacheRulesHandler.SavedFileReloads | coraza/src/internal/handler/cache_rules.go:96-104 | loading a structured save gives one rule per saved rule, in order, each reading back as its original |
| BypassNormalize.Resolve | coraza/src/internal/bypassconf/normalize.go:22 | cleaning leaves only proper segments (not empty, `.` or `..`), each taken from the input |
| BypassNormalize.ResolveProper | coraza/src/internal/bypassconf/normalize.go:22 | segments that are all proper are kept as they are |
| BypassNormalize.Clean | coraza/src/internal/bypassconf/normalize.go:22 | `path.Clean` of a rooted path starts with `/` |
| BypassNormalize.CleanIsClean | coraza/src/internal/bypassconf/normalize.go:22 | `path.Clean` of a rooted path is `/` or `/` followed by proper segments |
| BypassNormalize.CleanOfClean | coraza/src/internal/bypassconf/normalize.go:22 | cleaning a clean path changes nothing |
| BypassNormalize.CleanEndsInSegment | coraza/src/internal/bypassconf/normalize.go:22 | a clean path other than the root does not end in `/` |
| BypassNormalize.Rooted | coraza/src/internal/bypassconf/normalize.go:18-20 | the path starts with `/` afterwards, and ends in `/` exactly when it was empty or already did |
| BypassNormalize.CleanKeepSlash | coraza/src/internal/bypassconf/normalize.go:22-27 | the cleaned path, with its trailing slash put back, is in normal form |
| BypassNormalize.Normalize | coraza/src/internal/bypassconf/normalize.go:9-28 | `""` becomes `/`; every result starts with `/` and is a clean path, optionally followed by one trailing slash |
| BypassNormalize.NormalizeTrailingSlash | coraza/src/internal/bypassconf/normalize.go:23-25 | the result ends in `/` exactly when it is the root or the unescaped input ended in `/` |
| BypassNormalize.NormalizeIdempotent | coraza/src/internal/bypassconf/normalize.go:9-28 | normalising a normalised path changes nothing, when unescaping leaves it alone |
| BypassNormalize.EqLoosely | coraza/src/internal/bypassconf/normalize.go:30-40 | equal paths are loosely equal, and loosely equal paths that differ differ by one trailing slash |
| BypassNormalize.EqLooselyIff | coraza/src/internal/bypassconf/normalize.go:30-40 | two paths are loosely equal exactly when they are equal or one is the other plus a slash, that other being the root or not already ending in a slash |
| BypassNormalize.EqLooselyEquivalence | coraza/src/internal/bypassconf/normalize.go:30-40 | loose equality is reflexive, symmetric and transitive |
| BypassLoader.FirstExtra | coraza/src/internal/bypassconf/loader.go:104-111 | the extra rule is the first field starting `rules/` or ending `.conf`, and is empty exactly when there is none |
| BypassLoader.ParseLine | coraza/src/internal/bypassconf/loader.go:93-111 | a line gives an entry exactly when, trimmed, it is neither blank nor a `#` comment; the path is its first field and the extra rule the first later field naming a rule file |
| BypassLoader.Parse | coraza/src/internal/bypassconf/loader.go:88-117 | never more entries than lines, and every entry is what some line of the text parses to |
| BypassLoader.ParseLineListable | coraza/src/internal/bypassconf/loader.go:93-111 | a parsed entry has a non-empty, space-free path not starting with `#`, and an extra rule that is empty or a rule-file name |
| BypassLoader.EntryLineRoundTrip | coraza/src/internal/bypassconf/loader.go:93-111 | an entry written as `path [extra]` parses back to itself |
| BypassLoader.ParseOfWritten | coraza/src/internal/bypassconf/loader.go:88-117 | a bypass file written entry by entry parses back to the same entries in order |
| BypassLoader.ParseOfRewritten | coraza/src/internal/bypassconf/loader.go:88-117 | rewriting a parsed file one entry per line keeps its entries |
| BypassLoader.Decision | coraza/src/internal/bypassconf/loader.go:47-51 | a hit gives an extra-rule action carrying the rule when the entry has one, else a plain bypass |
| BypassLoader.FirstHit | coraza/src/internal/bypassconf/loader.go:45-66 | the decision of the first entry that hits, and no action exactly when none hits |
| BypassLoader.Match | coraza/src/internal/bypassconf/loader.go:41-67 | an entry hits when its normalised path loosely equals the normalised request path, or when it is written with a trailing slash and the request path starts with its normalised form; the first hit decides |
| BypassLoader.MatchIgnoresLater | coraza/src/internal/bypassconf/loader.go:45-64 | entries after the first hit never change the answer |
| BypassLoader.EntryMatchesItsPath | coraza/src/internal/bypassconf/loader.go:42-52 | a request for an entry's own path is decided by that entry |
| BypassRulesHandler.Get | coraza/src/internal/handler/bypass_rules.go:16-23 | GET returns the file text and the entity tag of exactly that text |
| BypassRulesHandler.ValidateRaw | coraza/src/internal/handler/bypass_rules.go:75-88 | `validateRaw` accepts every text and counts no entries |
| BypassRulesHandler.Validate | coraza/src/internal/handler/bypass_rules.go:25-42 | an undecodable body is a bad request; a checked one is ok exactly when it has no messages |
| BypassRulesHandler.Put | coraza/src/internal/handler/bypass_rules.go:44-73 | a conflict exactly when `If-Match` is set and stale; a bad request exactly when there is no conflict and the body does not decode; a save writes the text, reloads its entries and answers its tag, and nothing changes otherwise |
| BypassRulesHandler.ValidateAcceptsAll | coraza/src/internal/handler/bypass_rules.go:36-41 | any decodable body is answered ok with no messages |
| BypassRulesHandler.PutSavesVerbatim | coraza/src/internal/handler/bypass_rules.go:65-72 | an accepted save writes exactly the submitted text and answers its tag |
| BypassRulesHandler.PutThenGet | coraza/src/internal/handler/bypass_rules.go:69-72 | after a save, GET shows the answered tag and a save conditioned on it is not a conflict |
| BypassRulesHandler.ValidateAgreesWithPut | coraza/src/internal/handler/bypass_rules.go:25-63 | validation accepts exactly what an unconditional PUT saves |
| LogIndex.NextNewline | coraza/src/internal/handler/logs.go:198 | `ReadBytes` stops at the first newline from the position, or reads to the end when there is none |
| LogIndex.PiecesFacts | coraza/src/internal/handler/logs.go:197-211 | the pieces `ReadBytes` returns concatenate back to the file, and all but the last end in a newline |
| LogIndex.PiecesOfConcat | coraza/src/internal/handler/logs.go:197-211 | reading back well-cut pieces gives the same pieces |
| LogIndex.Offsets | coraza/src/internal/handler/logs.go:194-201 | mark k is the byte length of the first k pieces |
| LogIndex.Index | coraza/src/internal/handler/logs.go:193-213 | a file's index has one mark per line plus one, starting at 0 and ending at the file length |
| LogIndex.BuildIndex | coraza/src/internal/handler/logs.go:193-213 | the loop computes the offset of every line start plus the end of the file |
| LogIndex.IndexShape | coraza/src/internal/handler/logs.go:193-213 | the index starts at 0, ends at the file length, is strictly increasing and has one mark per line plus one |
| LogIndex.InnerMarksFollowNewline | coraza/src/internal/handler/logs.go:193-213 | every mark between the first and the last follows a newline |
| LogIndex.SliceOfPieces | coraza/src/internal/handler/logs.go:300-302 | the bytes between marks s and e are exactly lines s to e-1 |
| LogIndex.Extend | coraza/src/internal/handler/logs.go:219-250 | extending adds one mark per piece of the new bytes |
| LogIndex.ExtendMatchesRebuild | coraza/src/internal/handler/logs.go:219-250 | extending an index after growth equals a full rebuild exactly when the old bytes were empty or ended in a newline |
| LogIndex.NotAStart | coraza/src/internal/handler/logs.go:219-250 | a position not after a newline is never a mark of a full rebuild, so an extension from it is wrong |
| LogIndex.UpdateIndex | coraza/src/internal/handler/logs.go:185-252 | the cached index is rebuilt when absent, when the file shrank or when it was modified; otherwise it is extended from the old size over the new bytes when the file grew, and kept as it is when the size is unchanged |
| LogIndex.UpdateAfterAppend | coraza/src/internal/handler/logs.go:219-250 | after lines are appended to a newline-terminated file, the updated index equals a rebuild |
| LogsRead.ClampInt | coraza/src/internal/handler/logs.go:362-372 | the result always lies within the bounds; a value in range is kept, one below the lower bound becomes that bound and one above the upper bound becomes that bound |
| LogsRead.MustAtoiDefault | coraza/src/internal/handler/logs.go:402-413 | an empty text, zero, or a non-number whose digits stay within 2^64−1 gives the default; a non-zero number within 64 bits is kept; an overflowing text gives the bound of its sign, even when a non-digit follows |
| LogsRead.TailParam | coraza/src/internal/handler/logs.go:65 | `tail` is between 1 and 200: 30 when missing, zero or a non-overflowing non-number; as given when in range; 200 above the range and 1 below it; 200 or 1, by sign, for an overflowing text |
| LogsRead.CursorParam | coraza/src/internal/handler/logs.go:67-71 | there is a cursor exactly when the parameter is non-empty; a number that parses is kept; an overflowing text gives the bound of its sign; any other non-number gives 0 |
| LogsRead.OverflowingParams | coraza/src/internal/handler/logs.go:65-71 | twenty nines followed by `x` gives `tail` 200 and the largest 64-bit cursor |
| LogsRead.StartCursor | coraza/src/internal/handler/logs.go:268-283 | without a cursor, reading starts `tail` lines before the end (or at 0); a given cursor is clamped into the file |
| LogsRead.ReadWindow | coraza/src/internal/handler/logs.go:285-298 | `prev` reads up to `tail` lines before the cursor, `next` or no direction up to `tail` lines from it, anything else fails; the returned cursor is the window start for `prev` and its end otherwise; `has_prev`/`has_next` say whether lines exist before/after, also for an empty window |
| LogsRead.WindowsTile | coraza/src/internal/handler/logs.go:337-342 | paging with the returned cursor continues exactly where the window ended (or began, for `prev`) |
| LogsRead.LatestWindow | coraza/src/internal/handler/logs.go:268-290 | without a cursor, `next` reads the last `tail` lines and reports nothing after them |
| LogsRead.TrimLastNewline | coraza/src/internal/handler/logs.go:462-468 | exactly one trailing newline, if any, is removed |
| LogsRead.Decoded | coraza/src/internal/handler/logs.go:319-328 | only lines that decode are returned, each the body of a piece read, never more than were read, and exactly the bodies of all pieces in order when all decode |
| LogsRead.DecodedAppend | coraza/src/internal/handler/logs.go:319-328 | pieces are decoded one at a time and in order: the lines of two runs of pieces are those of the first followed by those of the second |
| LogsRead.WindowLinesAreLines | coraza/src/internal/handler/logs.go:300-328 | the bytes read for a window are exactly its lines, so at most end − start lines come back |
| LogsRead.ReadByLine | coraza/src/internal/handler/logs.go:255-346 | `readByLine` fails exactly for an unknown direction and otherwise returns the decodable lines among those of the window, in order, never more than its width |
| LogsRead.LogsRead | coraza/src/internal/handler/logs.go:57-98 | an unknown source is refused; a missing file is an empty page without a cursor; an unknown direction is a server error; otherwise the page holds the decodable lines of the window its clamped parameters select, with that window's next cursor and flags, and `has_more` is `has_prev` for `prev` and `has_next` otherwise |
| LogsRead.PageWithinTail | coraza/src/internal/handler/logs.go:65-73 | a page never holds more lines than the clamped `tail` |
| Proxy.Unique | coraza/src/internal/handler/proxy.go:175-186 | the loop computes the reference de-duplication |
| Proxy.UniqueRef | coraza/src/internal/handler/proxy.go:175-186 | the de-duplicated list holds only non-empty strings taken from the input |
| Proxy.UniqueFacts | coraza/src/internal/handler/proxy.go:175-186 | `unique` drops empty strings and duplicates, keeps every other input element, outputs only input elements, and keeps first-occurrence order |
| Proxy.RequestId | coraza/src/internal/handler/proxy.go:105-110 | an incoming `X-Request-ID` is reused, and a generated one is used otherwise |
| Proxy.RequestIdStable | coraza/src/internal/handler/proxy.go:105-109 | a request that already carries the ID keeps it on a second pass |
| Proxy.RouteFor | coraza/src/internal/handler/proxy.go:113-120 | the WAF is skipped exactly for a bypass decision; an extra-rule decision is still inspected |
| Proxy.SkipWafIff | coraza/src/internal/handler/proxy.go:112-120 | a request skips the WAF exactly when the first bypass entry it hits has no extra rule |
| Proxy.RuleIdTexts | coraza/src/internal/handler/proxy.go:137-145 | one non-empty ID per matched rule that has one; none exactly when no match has a rule |
| Proxy.RuleIdsEmptyIff | coraza/src/internal/handler/proxy.go:137-150 | the joined rule-ID list is empty exactly when no matched rule has an ID |
| Proxy.RuleIdsSplitBack | coraza/src/internal/handler/proxy.go:137-150 | a non-empty joined rule-ID list splits at commas back into the distinct IDs in match order |
| Proxy.ProxyHandler | coraza/src/internal/handler/proxy.go:102-169 | a bypassed request is forwarded uninspected; an inspected one is blocked with the interruption's status exactly when there is one, and otherwise forwarded marked as a hit exactly when some rule matched; its recorded rule IDs are empty exactly when no matched rule has an ID, and otherwise split at commas into the distinct IDs in match order |
| Proxy.WafHeaders | coraza/src/internal/handler/proxy.go:50-56 | on a hit, `X-WAF-Hit: 1` and a non-empty rule-ID list are set; without a hit the headers are unchanged; other headers are never touched |
| Proxy.EffectiveTtl | coraza/src/internal/handler/proxy.go:86-89 | the rule's TTL when positive, 600 otherwise |
| Proxy.CacheHeaders | coraza/src/internal/handler/proxy.go:74-97 | cache headers are set exactly for a GET or HEAD response, with a loaded ruleset, whose path the rules allow: `X-Mamotama-Cacheable: 1`, `X-Accel-Expires` the effective TTL, and `Vary` the `", "`-joined list exactly when it is non-empty |
| Proxy.ExpiresReadsBack | coraza/src/internal/handler/proxy.go:93 | the `X-Accel-Expires` value is a positive integer in decimal |
| Proxy.ModifyResponse | coraza/src/internal/handler/proxy.go:47-99 | a hit event is logged exactly on a WAF hit, with the request's ID, path and status; response headers are the WAF and cache headers over the originals |
| Proxy.HitEventOnlyOnMatch | coraza/src/internal/handler/proxy.go:50-70 | for a forwarded request, `X-WAF-Hit` and the hit event appear exactly when it was inspected and some rule matched |
| ApiKey.Admit | coraza/src/internal/middleware/api_key.go:11-30 | everything passes when auth is disabled; with no key configured everything is refused; otherwise only a trimmed header equal to one of the keys passes |
| ApiKey.ConfiguredKeyPasses | coraza/src/internal/middleware/api_key.go:24-27 | a configured key sent exactly as configured is admitted |
| ApiKey.OtherKeyRefused | coraza/src/internal/middleware/api_key.go:24-28 | a header naming neither key is refused |
| ApiKey.BlankKeyAdmittedIff | coraza/src/internal/middleware/api_key.go:17-26 | a blank header passes exactly when the primary key is empty and the secondary is set |
| ApiKey.BlankKeyCounterexample | coraza/src/internal/middleware/api_key.go:17-26 | with only a secondary key configured, a request without a key is admitted, which the intended check refuses |
| ApiKey.AdmitIntended | coraza/src/internal/middleware/api_key.go:19-24 | the intended check: only a non-empty trimmed header equal to a configured key passes |
| ApiKey.IntendedAgrees | coraza/src/internal/middleware/api_key.go:19-27 | the intended check agrees with the code whenever the primary key is set or no key is set |
| Env.Getenv | coraza/src/internal/config/env.go:26-30 | an unset variable reads as empty |
| Env.BasePath | coraza/src/internal/config/env.go:32-38 | an empty base path becomes `/mamotama-api`, a missing leading `/` is added, and the result starts with `/` |
| Env.BasePathRootIff | coraza/src/internal/config/env.go:36-41 | the base path is the forbidden root exactly when `/` was configured |
| Env.BasePathIdempotent | coraza/src/internal/config/env.go:32-38 | normalising the base path twice changes nothing |
| Env.LoadEnv | coraza/src/internal/config/env.go:23-46 | loading fails exactly for a base path of `/`; otherwise the base path is the normalised setting, both keys are the trimmed settings, the strict flag is set only by `true`, auth is disabled only by `1`, and the other settings are copied as they are |
| Env.LoadedPrimaryKeyPasses | coraza/src/internal/config/env.go:43 | a client sending the configured primary key, whitespace aside, passes both the written and the intended key check |
| Admin.LogTail | coraza/src/internal/handler/admin.go:36-42 | the view keeps the last min(n, 100) lines in order |
| Admin.LogsHandler | coraza/src/internal/handler/admin.go:25-46 | an unreadable log is an error; otherwise the last min(n, 100) scanned lines in order |
| Admin.RulesMap | coraza/src/internal/handler/admin.go:50-60 | one key per path, mapped to its content or `[読込失敗]` |
| Admin.RulesHandler | coraza/src/internal/handler/admin.go:48-62 | the keys are exactly the untrimmed comma pieces of the rules setting, each mapped to its file's content or `[読込失敗]` |
| Admin.RepeatedPathCollapses | coraza/src/internal/handler/admin.go:50-59 | a repeated path adds no key |
| Admin.RulesKeysAreDistinctPieces | coraza/src/internal/handler/admin.go:49-60 | there are no more keys than comma pieces |
| ApiClient.ErrorMessage | web/mamotama-admin/src/lib/api.ts:38-40 | a failed status throws the body's `error` when it has one, else `HTTP <status>`, whose number reads back as the status |
| ApiClient.Receive | web/mamotama-admin/src/lib/api.ts:27-43 | the body is handed over exactly for a 2xx status |
| LogsPage.SourceText | web/mamotama-admin/src/pages/Logs.tsx:25-29 | every source the page names is one the endpoint accepts |
| LogsPage.SourcesMatchEndpoint | web/mamotama-admin/src/pages/Logs.tsx:25-29 | the page's sources and the endpoint's are the same three, one to one |
| LogsPage.DirText | web/mamotama-admin/src/pages/Logs.tsx:46-48 | the `dir` text is empty, `prev` or `next` exactly for no direction, back or forward |
| LogsPage.CursorText | web/mamotama-admin/src/pages/Logs.tsx:42-44 | a cursor is sent exactly when one is set |
| LogsPage.ReadLogsQuery | web/mamotama-admin/src/pages/Logs.tsx:38-48 | the query always has `src` and `tail` first, then `cursor` and `dir` only when set |
| LogsPage.QueryReadsBack | web/mamotama-admin/src/pages/Logs.tsx:38-48 | the server reads back exactly the source, tail, cursor and direction the page sent |
| LogsPage.CursorReadsBack | web/mamotama-admin/src/pages/Logs.tsx:42-44 | the server's cursor parameter reads back the page's cursor |
| LogsPage.RequestFor | web/mamotama-admin/src/pages/Logs.tsx:111-122 | the direction is the requested one or the page's current one; no cursor on reset or without direction; otherwise an explicit cursor, else the page start for `prev` and the page end for `next` |
| LogsPage.StaleResetMissesLatest | web/mamotama-admin/src/pages/Logs.tsx:111-122 | a reset after a `prev` load still sends `dir=prev`, and the server returns the window before the latest lines |
| LogsPage.StaleResetExample | web/mamotama-admin/src/pages/Logs.tsx:276-278 | with 100 lines and 30 rows, "Reload latest" after one "next ▶" shows lines 40–69 instead of 70–99 |
| LogsPage.StaleRowsChangeExample | web/mamotama-admin/src/pages/Logs.tsx:189-191 | in the same state, switching Rows from 30 to 50 shows lines 0–49 instead of 50–99 |
| LogsPage.RequestForIntended | web/mamotama-admin/src/pages/Logs.tsx:111-122 | the corrected request: a reset sends neither cursor nor direction, and the rest is as written |
| LogsPage.IntendedResetReadsLatest | web/mamotama-admin/src/pages/Logs.tsx:111-122 | with the corrected request, a reset shows the last `tail` lines and nothing newer |
| LogsPage.PageOf | web/mamotama-admin/src/pages/Logs.tsx:134-153 | for `prev` the page is n lines from the returned cursor; otherwise it ends at the cursor (0 when missing) and is min(n, cursor) wide |
| LogsPage.Flags | web/mamotama-admin/src/pages/Logs.tsx:156-170 | with boolean flags, "next ▶" follows `has_prev` and "◀ prev" follows `has_next`; without them a reset or a read with no direction disables "◀ prev" and enables "next ▶" by `has_more`, a `next` read enables "◀ prev" and sets "next ▶" by `has_more`, and a `prev` read sets "◀ prev" by `has_more` and enables "next ▶" |
| LogsPage.Loaded | web/mamotama-admin/src/pages/Logs.tsx:132-170 | a reply sets the data, the direction used, the page bounds and the cursor at the end the direction reads from |
| LogsPage.Settle | web/mamotama-admin/src/pages/Logs.tsx:171-184 | a failed or aborted load leaves the page as it was, reports only a non-abort, and always clears `loading` |
| LogsPage.Load | web/mamotama-admin/src/pages/Logs.tsx:96-187 | a successful load stores the reply and uses the requested direction, else the page's current one, so a reset after `prev` keeps `prev` and starts the page at the returned cursor; a failure changes nothing but `loading` |
| LogsPage.LoadIntended | web/mamotama-admin/src/pages/Logs.tsx:111-122 | with the corrected request, a successful reset leaves no direction and ends the page at the returned cursor; a failure changes nothing but `loading` |
| LogsPage.LoadAgreesWithoutStaleDir | web/mamotama-admin/src/pages/Logs.tsx:111-122 | the load as written and the corrected one agree unless a reset is made from a page that has a direction |
| LogsPage.SelectSource | web/mamotama-admin/src/pages/Logs.tsx:228-232 | choosing a source clears cursor and direction, so a reset load from there requests the latest lines |
| LogsPage.NewerRequest | web/mamotama-admin/src/pages/Logs.tsx:288-290 | "◀ prev" reads forward from the page end |
| LogsPage.OlderRequest | web/mamotama-admin/src/pages/Logs.tsx:296-298 | "next ▶" reads back from the page start |
| LogsPage.EndpointPage | coraza/src/internal/handler/logs.go:84-95 | for a known source and direction, the endpoint's reply reports exactly the window its parameters select |
| LogsPage.EndpointReportsWindow | web/mamotama-admin/src/pages/Logs.tsx:38-52 | the page's request makes the endpoint report the window of the page's own tail, cursor and direction |
| LogsPage.LoadedOnWindow | web/mamotama-admin/src/pages/Logs.tsx:134-158 | after a reply the page bounds are the server's window, and the buttons follow whether lines exist after and before it |
| LogsPage.PageIsServerWindow | web/mamotama-admin/src/pages/Logs.tsx:124-158 | end to end, for any request the page sends, the page shown is exactly the server's window for that request and its buttons follow whether lines exist after and before it |
| LogsPage.LoadShowsServerWindow | web/mamotama-admin/src/pages/Logs.tsx:96-170 | the load as written, after any options, shows exactly the server's window for the request it sends |
| LogsPage.ButtonsMatchNeighbours | web/mamotama-admin/src/pages/Logs.tsx:288-299 | whatever request produced the page, each button is enabled exactly when the window it would load is non-empty, and that window adjoins the current page |
| LogsPage.ColorClass | web/mamotama-admin/src/pages/Logs.tsx:66-80 | a line gets one of the three highlight classes or none |
| LogsPage.ColorClassCases | web/mamotama-admin/src/pages/Logs.tsx:66-80 | a block is red, else an allowed hit is yellow, else a status of 500 or more is orange, else no class |
| CacheRulesPanel.Update | web/mamotama-admin/src/pages/CacheRulesPanel.tsx:47-49 | only row i is replaced and the length is kept; an out-of-range i changes nothing |
| CacheRulesPanel.Remove | web/mamotama-admin/src/pages/CacheRulesPanel.tsx:51-53 | a valid i removes exactly row i and keeps the others in order; an out-of-range i changes nothing |
| CacheRulesPanel.AddRule | web/mamotama-admin/src/pages/CacheRulesPanel.tsx:55-71 | the default rule is appended and earlier rows are unchanged |
| CacheRulesPanel.EditsUndo | web/mamotama-admin/src/pages/CacheRulesPanel.tsx:47-71 | removing the row just added restores the table, and writing a row back unchanged changes nothing |
| CacheRulesPanel.NewRuleValid | web/mamotama-admin/src/pages/CacheRulesPanel.tsx:55-71 | the default rule passes the server's validation |
| CacheRulesPanel.CommaList | web/mamotama-admin/src/pages/CacheRulesPanel.tsx:167 | the methods and vary inputs give non-empty, trimmed pieces |
| CacheRulesPanel.CommaListIsSplitTrim | web/mamotama-admin/src/pages/CacheRulesPanel.tsx:183 | the inputs split exactly as the server's `splitTrim` |
| CacheRulesPanel.CommaListRoundTrip | web/mamotama-admin/src/pages/CacheRulesPanel.tsx:166-167 | a shown list typed back unchanged gives the same list |
| CacheRulesPanel.TtlInput | web/mamotama-admin/src/pages/CacheRulesPanel.tsx:176 | the TTL field gives the integer typed, and 0 when empty or not a number |
| CacheRulesPanel.TtlRoundTrip | web/mamotama-admin/src/pages/CacheRulesPanel.tsx:175-176 | a shown TTL reads back as itself |
| CacheRulesPanel.Body | web/mamotama-admin/src/pages/CacheRulesPanel.tsx:75 | the body carries the raw text in raw mode and the rows otherwise |
| CacheRulesPanel.ReplyOf | web/mamotama-admin/src/pages/CacheRulesPanel.tsx:94-98 | the page receives a reply exactly for a save; a conflict throws `conflict` and a refusal `HTTP 422` |
| CacheRulesPanel.ValidateReplyOf | web/mamotama-admin/src/pages/CacheRulesPanel.tsx:78 | the page receives a reply exactly for an accepted validation |
| CacheRulesPanel.ReloadShowsFile | web/mamotama-admin/src/pages/CacheRulesPanel.tsx:31-45 | after a successful reload the page holds the file's text and tag, one row per loaded rule (none when the rules failed to load) and no message |
| CacheRulesPanel.AfterReload | web/mamotama-admin/src/pages/CacheRulesPanel.tsx:31-45 | a load replaces rows, text and tag and clears messages; a failure keeps them and shows the error or `ロードに失敗` |
| CacheRulesPanel.AfterValidate | web/mamotama-admin/src/pages/CacheRulesPanel.tsx:73-87 | validation shows `OK`, the messages, or the error, and edits nothing |
| CacheRulesPanel.AfterSave | web/mamotama-admin/src/pages/CacheRulesPanel.tsx:89-109 | a save takes the returned tag and shows the saved notice; a failure keeps the tag and shows one error |
| CacheRulesPanel.SaveCycle | web/mamotama-admin/src/pages/CacheRulesPanel.tsx:89-109 | a save conflicts exactly when the page's non-empty tag is stale; after a save the page holds the file's new tag and its next save does not conflict; a failed save keeps the tag |
| CacheRulesPanel.LoadThenSave | web/mamotama-admin/src/pages/CacheRulesPanel.tsx:94-98 | a save after a load does not conflict while the file is unchanged |
| CacheRulesPanel.Rejected422 | web/mamotama-admin/src/lib/api.ts:39 | a refusal without an `error` field throws `HTTP 422` |
| CacheRulesPanel.CheckedShown | web/mamotama-admin/src/pages/CacheRulesPanel.tsx:78-83 | a checked validation shows `OK` or `HTTP 422`, never the server's messages |
| CacheRulesPanel.ValidateShowsOk | web/mamotama-admin/src/pages/CacheRulesPanel.tsx:73-87 | the panel shows `OK` exactly when the server accepts the body |
| BypassRulesPanel.LoadShowsFile | web/mamotama-admin/src/pages/BypassRulesPanel.tsx:17-32 | after a successful load the editor holds the file's text, unedited, under the file's tag, with no verdict and no error |
| BypassRulesPanel.ValidateReplyOf | web/mamotama-admin/src/pages/BypassRulesPanel.tsx:50-55 | the page receives a reply exactly for an accepted validation |
| BypassRulesPanel.ReplyOf | web/mamotama-admin/src/pages/BypassRulesPanel.tsx:71-76 | the page receives a reply exactly for a save; a conflict throws `conflict` |
| BypassRulesPanel.AfterLoad | web/mamotama-admin/src/pages/BypassRulesPanel.tsx:17-32 | a load sets text and server text to the same value, takes the tag and clears validity and messages; a failure keeps them and shows the error |
| BypassRulesPanel.AfterValidate | web/mamotama-admin/src/pages/BypassRulesPanel.tsx:48-59 | validation sets validity and messages, or marks invalid with the error, and edits nothing |
| BypassRulesPanel.SaveIfMatch | web/mamotama-admin/src/pages/BypassRulesPanel.tsx:74 | `If-Match` is sent exactly when a non-empty tag is held, and is that tag |
| BypassRulesPanel.AfterSave | web/mamotama-admin/src/pages/BypassRulesPanel.tsx:67-85 | a successful save makes the sent text the server text and takes the returned tag; any failure, including `ok: false`, changes neither |
| BypassRulesPanel.OnKey | web/mamotama-admin/src/pages/BypassRulesPanel.tsx:88-95 | Ctrl/Cmd+S is always caught, and saves whenever no save is running |
| BypassRulesPanel.ShortcutIgnoresButtonGuard | web/mamotama-admin/src/pages/BypassRulesPanel.tsx:89-94 | with nothing changed the save button is disabled, yet the shortcut saves |
| BypassRulesPanel.LineCount | web/mamotama-admin/src/pages/BypassRulesPanel.tsx:102 | the count is 0 exactly for an empty text |
| BypassRulesPanel.LineCountIsNewlines | web/mamotama-admin/src/pages/BypassRulesPanel.tsx:102 | a non-empty text has one more line than it has newlines |
| BypassRulesPanel.Shown | web/mamotama-admin/src/pages/BypassRulesPanel.tsx:181 | the first three messages at most are shown |
| BypassRulesPanel.InsertExample | web/mamotama-admin/src/pages/BypassRulesPanel.tsx:141 | the button appends the example directly after the text |
| BypassRulesPanel.ExampleIsOneLine | web/mamotama-admin/src/pages/BypassRulesPanel.tsx:141 | the example is a single line |
| BypassRulesPanel.InsertExampleJoinsLine | web/mamotama-admin/src/pages/BypassRulesPanel.tsx:141 | on a one-line text without a final newline, the example is glued onto that line |
| BypassRulesPanel.InsertExampleJoinsLastLine | web/mamotama-admin/src/pages/BypassRulesPanel.tsx:141 | `/about/` becomes `/about//__bypass__/` |
| BypassRulesPanel.InsertExampleIntended | web/mamotama-admin/src/pages/BypassRulesPanel.tsx:141 | the corrected insertion keeps every existing line and adds the example as a line of its own |
| BypassRulesPanel.InsertAgreesAfterNewline | web/mamotama-admin/src/pages/BypassRulesPanel.tsx:141 | the button as written agrees with the correction exactly when the text is empty or ends in a newline |
| BypassRulesPanel.InsertExampleInto | web/mamotama-admin/src/pages/BypassRulesPanel.tsx:141 | the button appends the example directly after the text and touches nothing else; it keeps every line and adds the example as its own line exactly when the text is empty or ends in a newline, and otherwise does not |
| BypassRulesPanel.InsertExampleGluesLastLine | web/mamotama-admin/src/pages/BypassRulesPanel.tsx:141 | on any non-empty text that does not end in a newline, the button as written leaves a last line other than the example |
| BypassRulesPanel.InsertExampleIntoIntended | web/mamotama-admin/src/pages/BypassRulesPanel.tsx:141 | the corrected button keeps every existing line, adds the example as a line of its own and touches nothing else |
| BypassRulesPanel.SaveCycle | web/mamotama-admin/src/pages/BypassRulesPanel.tsx:67-85 | a saved text is on disk; the page then holds its tag, is dirty exactly when edited since, and its next save does not conflict; a failed save leaves page and server as they were |
| BypassRulesPanel.LoadThenSave | web/mamotama-admin/src/pages/BypassRulesPanel.tsx:17-32 | a freshly loaded page is clean, and a save after it does not conflict |
| BypassRulesPanel.ValidationAlwaysPasses | web/mamotama-admin/src/pages/BypassRulesPanel.tsx:48-59 | the editor always shows valid with no messages, whatever is typed |

## Left out

- File and OS I/O is left out, because the model takes file contents as inputs. This covers reading and writing the conf and log files, `AtomicWriteWithBackup` and its backups, `EnsureFile`, `appendEventToFile`, `bypass.go`'s read/write passthrough and `cacheconf.Load(path)`. `Load` duplicates `parseScanner` line for line, so `CacheLoader.LoadFromString` stands for both.
- `LogsDownload`, `tsInRange` and `bytesSplitKeep` are left out: they cover the gzip export and time filtering, and `bytesSplitKeep` is never called.
- `StatusHandler` is left out: it only echoes the configuration.
- File watchers, reload debounce, locks and the `atomic.Value` store are left out, because concurrency is not modelled. The current ruleset and entries are explicit values.
- `bypassconf.Get` returning a copy is left out: Dafny values are immutable, so it holds trivially.
- SHA-256, `regexp`, `url.PathUnescape`, JSON encoding and decoding and `Content-Disposition` parsing are left out, because they are library code. They are parameters (`Hasher`, `RegexEngine`, `Unescaper`, `decodes`).
- The Coraza transaction calls (`ProcessURI`, request headers and body, `MatchedRules`, `Interruption`) are left out. Their results are inputs of `Proxy.ProxyHandler`.
- The client IP, timestamps, `genReqID`, log output and the `ModTime` comparison are left out, because they are clocks, I/O or environment. Whether the log file was modified is a boolean input of `LogIndex.UpdateIndex`.
- The gin and CORS wiring in `main.go` and the older `web/coraza` copy of the backend are left out, because they hold no logic of their own.
- React rendering, hook scheduling, the 300 ms validation debounce, AbortController mechanics and the download button are left out. A load or save is modelled as one step from the state before to the state after.
- `api.ts` defines no `apiPostJson` or `apiPutJson`, although the panels import them. `ApiClient.Receive` assumes they behave like `apiGetJson`.
- CacheLoader.LoadFromString: the scanner's one error, a line longer than 64 KiB, is not modelled, so loading always succeeds.
- BypassLoader.Parse: the scanner's token-size error is not modelled, so parsing always succeeds.
- Admin.LogsHandler: the scanner's token-size error is not modelled.
- Text.Upper: upper- and lower-casing and whitespace are ASCII only. Go's and JavaScript's Unicode case mapping and trimming are not modelled.
- CacheRulesPanel.TtlInput: only integer text is modelled. Fractions, exponents and surrounding whitespace, which `Number.isFinite` and `parseInt` handle, are left out.
- LogIndex.BuildIndex: offsets are unbounded naturals, not `int64`.
- LogsRead.MustAtoiDefault: Go's `int` is taken to be 64 bits wide.
- LogsRead.ReadByLine: the window and lines are computed over `Index(b)`, a full rebuild of the file's index, not over the cached index that `buildOrUpdateIndex` hands to `readByLine` (logs.go:219-256). `LogIndex.UpdateAfterAppend` shows the two agree when the cached index was built for a version that was empty or ended in a newline. When the cached version ended mid-line, `LogIndex.ExtendMatchesRebuild` and `LogIndex.NotAStart` show the cached index keeps the old end of file as a line start. From then on the server's line count, windows and lines differ from the model's, and that case is not modelled.
- LogsRead.LogsRead: it reads through `ReadByLine`, so it takes the index to be a full rebuild as well. Its page matches the server's only while the log grows by whole lines between reads, or the index is rebuilt.
- CacheSerialize.Message: `%q` is modelled for ASCII. Every character above 127 is kept as it is; Go escapes the non-printable ones as `\u`/`\U` and invalid UTF-8 as `\x`, which strings of Unicode characters cannot show.

## Findings

| source | as written | input that shows it | evidently intended | confidence | as-written member | corrected member |
|---|---|---|---|---|---|---|
| coraza/src/internal/middleware/api_key.go:19-24 | With the primary key empty and a secondary key set, a missing or blank `X-API-Key` equals the empty primary key and is admitted | primary `""`, secondary `s3cret`, no header: admitted | only a non-empty key equal to a configured key is admitted | not executed | ApiKey.Admit, ApiKey.BlankKeyCounterexample | ApiKey.AdmitIntended, ApiKey.IntendedAgrees |
| web/mamotama-admin/src/pages/Logs.tsx:111-122 | A reset load takes the direction from the page state it was created with. A Rows change (line 190) never clears that direction, and "Reload latest" (lines 276-278) clears it only in state the running `load` does not see. So after "next ▶" the reset still sends `dir=prev` | 100 lines, 30 rows, after one "next ▶": "Reload latest" shows lines 40–69 instead of 70–99, and switching Rows to 50 shows lines 0–49 instead of 50–99 | a reset reads the latest `tail` lines | not executed | LogsPage.RequestFor, LogsPage.Load, LogsPage.StaleResetMissesLatest, LogsPage.StaleResetExample, LogsPage.StaleRowsChangeExample | LogsPage.RequestForIntended, LogsPage.LoadIntended, LogsPage.IntendedResetReadsLatest |
| web/mamotama-admin/src/pages/BypassRulesPanel.tsx:141 | "Insert example" appends `/__bypass__/` directly after the text, gluing it onto the last line when the text does not end in a newline | text `/about/` becomes `/about//__bypass__/`, one line | the example is added as a line of its own | not executed | BypassRulesPanel.InsertExample, BypassRulesPanel.InsertExampleInto, BypassRulesPanel.InsertExampleGluesLastLine, BypassRulesPanel.InsertExampleJoinsLastLine | BypassRulesPanel.InsertExampleIntended, BypassRulesPanel.InsertExampleIntoIntended, BypassRulesPanel.InsertAgreesAfterNewline |

=== FILE: admin.dfy ===
/** The older admin endpoints (handler/admin.go): the tail of the log file and
    the contents of the configured rule files. Files are inputs: the log file
    as its text or `None` when it cannot be opened, rule files through `read`. */
module Admin {
  import opened Wrappers
  import opened Text

  const LogTailLines := 100

  /** `LogsHandler`'s loop: append each scanned line, dropping the oldest once
      more than 100 are held. */
  method LogTail(lines: seq<string>) returns (out: seq<string>)
    ensures |out| == if |lines| < LogTailLines then |lines| else LogTailLines
    ensures out == lines[|lines| - |out|..]
  {
    out := [];
    var i := 0;
    while i < |lines|
      invariant 0 <= i <= |lines|
      invariant |out| == if i < LogTailLines then i else LogTailLines
      invariant out == lines[i - |out|..i]
    {
      out := out + [lines[i]];
      if |out| > LogTailLines {
        out := out[1..];
      }
      i := i + 1;
    }
  }

  /** `LogsHandler`: an unreadable file is an error, otherwise the last 100
      lines as `bufio.Scanner` reads them. */
  method LogsHandler(file: Option<string>) returns (r: Result<seq<string>, string>)
    ensures file.None? <==> r.Failure?
    ensures r.Success? ==> var ls := ScanLines(file.value);
              && |r.value| == (if |ls| < LogTailLines then |ls| else LogTailLines)
              && r.value == ls[|ls| - |r.value|..]
  {
    match file
    case None => r := Failure("failed to read log file");
    case Some(text) =>
      var tail := LogTail(ScanLines(text));
      r := Success(tail);
  }

  /** What an unreadable rule file is shown as. */
  const ReadFailed := "[読込失敗]"

  function Shown(content: Option<string>): string {
    match content
    case Some(c) => c
    case None => ReadFailed
  }

  /** `RulesHandler`'s loop over the comma-separated paths, as written: each
      path, untrimmed, maps to its content or the failure marker. */
  function RulesMap(paths: seq<string>, read: string -> Option<string>): (m: map<string, string>)
    ensures m.Keys == set p | p in paths
    ensures forall p :: p in m ==> m[p] == Shown(read(p))
    decreases |paths|
  {
    if |paths| == 0 then map[]
    else
      var init := paths[..|paths| - 1];
      var last := paths[|paths| - 1];
      assert paths == init + [last];
      RulesMap(init, read)[last := Shown(read(last))]
  }

  /** `RulesHandler`. */
  function RulesHandler(rulesFile: string, read: string -> Option<string>): (m: map<string, string>)
    ensures forall p :: p in m <==> p in Split(rulesFile, ',')
    ensures forall p :: p in m ==> m[p] == Shown(read(p))
  {
    RulesMap(Split(rulesFile, ','), read)
  }

  /** A repeated path adds no key and changes no value. */
  lemma RepeatedPathCollapses(paths: seq<string>, p: string, read: string -> Option<string>)
    requires p in paths
    ensures RulesMap(paths + [p], read) == RulesMap(paths, read)
  {
    assert (paths + [p])[..|paths|] == paths;
  }

  /** Paths are not trimmed: `a` and ` a` are different keys, and the map has
      one key per distinct piece of the setting. */
  lemma RulesKeysAreDistinctPieces(rulesFile: string, read: string -> Option<string>)
    ensures RulesHandler(rulesFile, read).Keys == set p | p in Split(rulesFile, ',')
    ensures |RulesHandler(rulesFile, read).Keys| <= |Split(rulesFile, ',')|
  {
    CardOfElems(Split(rulesFile, ','));
  }

  lemma {:induction false} CardOfElems(s: seq<string>)
    ensures |set p | p in s| <= |s|
    decreases |s|
  {
    if |s| > 0 {
      var init := s[..|s| - 1];
      CardOfElems(init);
      assert s == init + [s[|s| - 1]];
      assert (set p | p in s) == (set p | p in init) + {s[|s| - 1]};
    }
  }
}

=== FILE: api_client.dfy ===
/** How the admin pages read a JSON reply (web/mamotama-admin/src/lib/api.ts):
    a successful status hands the decoded body to the page, any other status
    is thrown as an error whose message is the body's `error` field, or
    `HTTP <status>` when it has none. The editors' POST and PUT helpers are
    taken to behave the same way. */
module ApiClient {
  import opened Wrappers
  import opened Text
  import opened Numeric

  /** JavaScript's `a || b` on texts: `a` unless it is empty. */
  function Or(a: string, b: string): (r: string)
    ensures a != "" ==> r == a
    ensures a == "" ==> r == b
  {
    if a != "" then a else b
  }

  /** The message thrown for a failed status. */
  function ErrorMessage(error: string, status: int): (m: string)
    ensures m != ""
    ensures error != "" ==> m == error
    ensures error == "" ==> HasPrefix(m, "HTTP ") && ParseDecimal(m[5..]) == Some(status)
  {
    var h := "HTTP " + IntToDecimal(status);
    assert h[..5] == "HTTP " && h[5..] == IntToDecimal(status);
    DecimalRoundTrip(status);
    Or(error, h)
  }

  /** A reply as the page sees it: the body on success, else the message
      thrown. */
  function Receive<T>(status: int, body: T, error: string): (r: Result<T, string>)
    ensures r.Success? <==> 200 <= status < 300
    ensures r.Success? ==> r.value == body
    ensures r.Failure? ==> r.error == ErrorMessage(error, status)
  {
    if 200 <= status < 300 then Success(body) else Failure(ErrorMessage(error, status))
  }
}

=== FILE: api_key.dfy ===
/** The admin API's key check (middleware/api_key.go). The configuration is
    passed in; `header` is the raw `X-API-Key` value (empty when absent). */
module ApiKey {
  import opened Text

  datatype Admission = Pass | Unauthorized

  /** `APIKeyAuth`: everything passes when auth is disabled; with no key
      configured everything is refused; otherwise the trimmed header must equal
      the primary key, or the secondary key when one is set. */
  function Admit(authDisabled: bool, primary: string, secondary: string, header: string): (a: Admission)
    ensures authDisabled ==> a == Pass
    ensures !authDisabled && primary == "" && secondary == "" ==> a == Unauthorized
    ensures !authDisabled && a == Pass ==> TrimSpace(header) in [primary, secondary]
  {
    if authDisabled then Pass
    else
      var key := TrimSpace(header);
      if primary == "" && secondary == "" then Unauthorized
      else if key == primary || (secondary != "" && key == secondary) then Pass
      else Unauthorized
  }

  /** A configured key, sent exactly as configured, is admitted. */
  lemma ConfiguredKeyPasses(primary: string, secondary: string, key: string)
    requires key != "" && Trimmed(key) && (key == primary || key == secondary)
    ensures Admit(false, primary, secondary, key) == Pass
  {
    TrimSpaceId(key);
  }

  /** A header naming neither key is refused. */
  lemma OtherKeyRefused(primary: string, secondary: string, header: string)
    requires TrimSpace(header) != primary && TrimSpace(header) != secondary
    ensures Admit(false, primary, secondary, header) == Unauthorized
  {
  }

  /** With auth enabled, a blank or missing key passes exactly when the primary
      key is empty and the secondary is set: an empty primary key matches the
      empty header. */
  lemma BlankKeyAdmittedIff(primary: string, secondary: string, header: string)
    requires TrimSpace(header) == ""
    ensures Admit(false, primary, secondary, header) == Pass <==> primary == "" && secondary != ""
  {
  }

  /** The check as evidently intended: only a non-empty configured key
      admits. */
  function AdmitIntended(authDisabled: bool, primary: string, secondary: string, header: string): (a: Admission)
    ensures authDisabled ==> a == Pass
    ensures !authDisabled && a == Pass ==>
              TrimSpace(header) != "" && TrimSpace(header) in [primary, secondary]
  {
    if authDisabled then Pass
    else
      var key := TrimSpace(header);
      if key != "" && (key == primary || key == secondary) then Pass
      else Unauthorized
  }

  /** The intended check agrees with the code whenever the primary key is set
      or no key is set; it differs only by refusing the blank key. */
  lemma IntendedAgrees(authDisabled: bool, primary: string, secondary: string, header: string)
    requires primary != "" || secondary == ""
    ensures AdmitIntended(authDisabled, primary, secondary, header) == Admit(authDisabled, primary, secondary, header)
  {
  }

  /** A concrete instance: only a secondary key configured, and no header. */
  lemma BlankKeyCounterexample()
    ensures Admit(false, "", "s3cret", "") == Pass
    ensures AdmitIntended(false, "", "s3cret", "") == Unauthorized
  {
    TrimSpaceId("");
  }
}

=== FILE: bypass_loader.dfy ===
/** The bypass list (bypassconf/loader.go and types.go): one entry per line,
    a path and an optional extra-rule file, and the ordered matcher that
    decides whether a request skips the WAF or gets an extra rule file. */
module BypassLoader {
  import opened Wrappers
  import opened Text
  import opened BypassNormalize

  datatype Entry = Entry(path: string, extraRule: string)

  datatype Action = ActionNone | ActionBypass | ActionRule

  datatype MatchResult = MatchResult(action: Action, extraRule: string)

  // ---------------------------------------------------------------------------
  // parse

  /** A field naming an extra rule file: under `rules/` or ending in `.conf`. */
  predicate IsExtraRule(p: string) {
    HasPrefix(p, "rules/") || HasSuffix(p, ".conf")
  }

  /** The first field naming an extra rule file, or `""` when none does. */
  function FirstExtra(ps: seq<string>): (r: string)
    ensures r == "" <==> forall i :: 0 <= i < |ps| ==> !IsExtraRule(ps[i])
    ensures r != "" ==> exists i :: 0 <= i < |ps| && ps[i] == r && IsExtraRule(r) &&
                                   forall j :: 0 <= j < i ==> !IsExtraRule(ps[j])
    decreases |ps|
  {
    if |ps| == 0 then ""
    else if IsExtraRule(ps[0]) then ps[0]
    else
      var r := FirstExtra(ps[1..]);
      assert forall i :: 1 <= i < |ps| ==> ps[i] == ps[1..][i - 1];
      if r != "" then
        var k :| 0 <= k < |ps[1..]| && ps[1..][k] == r && IsExtraRule(r) &&
                 forall j :: 0 <= j < k ==> !IsExtraRule(ps[1..][j]);
        assert ps[k + 1] == r;
        r
      else r
  }

  /** One line of the list: blank and `#` lines are skipped; otherwise the first
      field is the path and the extra rule is taken from the later fields. */
  function ParseLine(l: string): (r: Option<Entry>)
    ensures r.Some? <==> TrimSpace(l) != "" && !HasPrefix(TrimSpace(l), "#")
    ensures r.Some? ==> var parts := Fields(TrimSpace(l));
              && |parts| > 0
              && r.value.path == parts[0]
              && r.value.extraRule == (if |parts| >= 2 then FirstExtra(parts[1..]) else "")
  {
    var line := TrimSpace(l);
    if line == "" || HasPrefix(line, "#") then None
    else
      var parts := Fields(line);
      FieldsHead(line);
      if |parts| == 0 then None
      else
        var extra := if |parts| >= 2 then FirstExtra(parts[1..]) else "";
        Some(Entry(parts[0], extra))
  }

  /** The entries a line can produce: a non-empty path without whitespace that
      does not start with `#`, and no extra rule or a whitespace-free extra-rule
      field. */
  predicate Listable(e: Entry) {
    e.path != "" && NoSpace(e.path) && e.path[0] != '#' &&
    (e.extraRule == "" || (NoSpace(e.extraRule) && IsExtraRule(e.extraRule)))
  }

  lemma ParseLineListable(l: string)
    requires ParseLine(l).Some?
    ensures Listable(ParseLine(l).value)
  {
    var line := TrimSpace(l);
    FieldsHead(line);
    var parts := Fields(line);
    if |parts| >= 2 {
      var extra := FirstExtra(parts[1..]);
      if extra != "" {
        var k :| 0 <= k < |parts[1..]| && parts[1..][k] == extra;
        assert extra == parts[k + 1];
      }
    }
  }

  function LineParser(): string -> Option<Entry> {
    l => ParseLine(l)
  }

  /** `parse`: the entries of the text's lines, in order. The scanner's error
      for an over-long line is not modelled, so parsing always succeeds. */
  function Parse(s: string): (es: seq<Entry>)
    ensures |es| <= |ScanLines(s)|
    ensures forall e :: e in es ==> exists i :: 0 <= i < |ScanLines(s)| && ParseLine(ScanLines(s)[i]) == Some(e)
  {
    var ls := ScanLines(s);
    assert forall i :: 0 <= i < |ls| ==> LineParser()(ls[i]) == ParseLine(ls[i]);
    Collect(ls, LineParser())
  }

  // ---------------------------------------------------------------------------
  // Writing entries back as lines

  /** An entry as a line: the path, then the extra rule when there is one. */
  function EntryLine(e: Entry): string {
    if e.extraRule == "" then e.path else Join([e.path, e.extraRule], " ")
  }

  /** A listable entry written as a line parses back to itself. */
  lemma EntryLineRoundTrip(e: Entry)
    requires Listable(e)
    ensures ParseLine(EntryLine(e)) == Some(e)
    ensures '\n' !in EntryLine(e) && DropCR(EntryLine(e)) == EntryLine(e)
  {
    var l := EntryLine(e);
    if e.extraRule == "" {
      FieldsOfWordOnly(e.path);
      NoSpaceTrimmed(e.path);
      assert !HasPrefix(l, "#") by { assert l[..1] == [l[0]]; }
    } else {
      var ps := [e.path, e.extraRule];
      FieldsOfJoin(ps);
      JoinAvoids(ps, " ", '\n');
      JoinEnds(ps, " ");
      assert Join(ps, " ") == e.path + " " + e.extraRule;
      TrimSpaceId(l);
      assert !HasPrefix(l, "#") by { assert l[..1] == [l[0]]; }
      assert Fields(l)[1..] == [e.extraRule];
      assert FirstExtra([e.extraRule]) == e.extraRule;
      assert l[|l| - 1] != '\r';
    }
  }

  function EntryLines(es: seq<Entry>): (ls: seq<string>)
    ensures |ls| == |es|
    ensures forall i :: 0 <= i < |es| ==> ls[i] == EntryLine(es[i])
  {
    seq(|es|, i requires 0 <= i < |es| => EntryLine(es[i]))
  }

  /** Listable entries written one per line, each line newline-terminated,
      parse back to the same entries in the same order. */
  lemma ParseOfWritten(es: seq<Entry>)
    requires forall i :: 0 <= i < |es| ==> Listable(es[i])
    ensures Parse(Terminated(EntryLines(es))) == es
  {
    var ls := EntryLines(es);
    forall i | 0 <= i < |ls|
      ensures '\n' !in ls[i] && DropCR(ls[i]) == ls[i]
    {
      EntryLineRoundTrip(es[i]);
    }
    ScanLinesOfTerminated(ls);
    forall i | 0 <= i < |ls|
      ensures ParseLine(ls[i]) == Some(es[i])
    {
      EntryLineRoundTrip(es[i]);
    }
    CollectSome(ls, es);
  }

  /** Lines that each parse to the matching entry collect to those entries. */
  lemma {:induction false} CollectSome(ls: seq<string>, es: seq<Entry>)
    requires |ls| == |es|
    requires forall i :: 0 <= i < |ls| ==> ParseLine(ls[i]) == Some(es[i])
    ensures Collect(ls, LineParser()) == es
    decreases |ls|
  {
    if |ls| > 0 {
      assert LineParser()(ls[0]) == Some(es[0]);
      CollectSome(ls[1..], es[1..]);
      assert [es[0]] + es[1..] == es;
    }
  }

  /** Every parsed entry is listable. */
  lemma {:induction false} CollectListable(ls: seq<string>)
    ensures forall i :: 0 <= i < |Collect(ls, LineParser())| ==> Listable(Collect(ls, LineParser())[i])
    decreases |ls|
  {
    if |ls| > 0 {
      CollectListable(ls[1..]);
      if ParseLine(ls[0]).Some? {
        ParseLineListable(ls[0]);
      }
    }
  }

  /** Writing the parsed entries back one per line and parsing again gives the
      same entries: comments, blank lines, extra whitespace and ignored fields
      are the only things lost. */
  lemma ParseOfRewritten(s: string)
    ensures Parse(Terminated(EntryLines(Parse(s)))) == Parse(s)
  {
    CollectListable(ScanLines(s));
    ParseOfWritten(Parse(s));
  }

  // ---------------------------------------------------------------------------
  // Match

  /** Whether an entry covers the normalised request path `p`: loosely equal
      after normalisation, or, for an entry written with a trailing slash, a
      prefix of `p` once normalised. */
  predicate Hits(e: Entry, p: string, unescape: Unescaper) {
    EqLoosely(p, Normalize(e.path, unescape)) ||
    (HasSuffix(e.path, "/") && HasPrefix(p, Normalize(e.path, unescape)))
  }

  /** What a hit on an entry decides: its extra rule when it has one, else a
      plain bypass. */
  function Decision(e: Entry): (m: MatchResult)
    ensures m.action != ActionNone
    ensures m.action == ActionRule <==> e.extraRule != ""
    ensures m.action == ActionRule ==> m.extraRule == e.extraRule
  {
    if e.extraRule != "" then MatchResult(ActionRule, e.extraRule)
    else MatchResult(ActionBypass, "")
  }

  /** The decision of the first entry `hit` accepts, scanning in order. */
  function FirstHit(es: seq<Entry>, hit: Entry -> bool): (m: MatchResult)
    ensures m.action == ActionNone <==> forall i :: 0 <= i < |es| ==> !hit(es[i])
    ensures m.action != ActionNone ==>
              exists i :: 0 <= i < |es| && hit(es[i]) && m == Decision(es[i]) &&
                          forall j :: 0 <= j < i ==> !hit(es[j])
    decreases |es|
  {
    if |es| == 0 then MatchResult(ActionNone, "")
    else if hit(es[0]) then Decision(es[0])
    else
      var m := FirstHit(es[1..], hit);
      assert forall i :: 1 <= i < |es| ==> es[i] == es[1..][i - 1];
      if m.action != ActionNone then
        var k :| 0 <= k < |es[1..]| && hit(es[1..][k]) && m == Decision(es[1..][k]) &&
                 forall j :: 0 <= j < k ==> !hit(es[1..][j]);
        assert es[k + 1] == es[1..][k];
        m
      else m
  }

  function HitsPath(p: string, unescape: Unescaper): Entry -> bool {
    e => Hits(e, p, unescape)
  }

  /** `Match`: normalise the request path and take the first entry that hits. */
  function Match(es: seq<Entry>, reqPath: string, unescape: Unescaper): (m: MatchResult)
    ensures var p := Normalize(reqPath, unescape);
            m.action == ActionNone <==> forall i :: 0 <= i < |es| ==> !Hits(es[i], p, unescape)
    ensures var p := Normalize(reqPath, unescape);
            m.action != ActionNone ==>
              exists i :: 0 <= i < |es| && Hits(es[i], p, unescape) && m == Decision(es[i]) &&
                          forall j :: 0 <= j < i ==> !Hits(es[j], p, unescape)
  {
    FirstHit(es, HitsPath(Normalize(reqPath, unescape), unescape))
  }

  /** Entries after the first hit are never consulted. */
  lemma MatchIgnoresLater(es: seq<Entry>, more: seq<Entry>, reqPath: string, unescape: Unescaper)
    requires Match(es, reqPath, unescape).action != ActionNone
    ensures Match(es + more, reqPath, unescape) == Match(es, reqPath, unescape)
  {
    FirstHitPrefix(es, more, HitsPath(Normalize(reqPath, unescape), unescape));
  }

  lemma {:induction false} FirstHitPrefix(es: seq<Entry>, more: seq<Entry>, hit: Entry -> bool)
    requires FirstHit(es, hit).action != ActionNone
    ensures FirstHit(es + more, hit) == FirstHit(es, hit)
    decreases |es|
  {
    var all := es + more;
    assert all[0] == es[0];
    if !hit(es[0]) {
      assert all[1..] == es[1..] + more;
      FirstHitPrefix(es[1..], more, hit);
    }
  }

  /** An entry for a path matches that very path. */
  lemma EntryMatchesItsPath(e: Entry, unescape: Unescaper)
    ensures Match([e], e.path, unescape) == Decision(e)
  {
    var p := Normalize(e.path, unescape);
    EqLooselyEquivalence(p, p, p);
    assert Hits(e, p, unescape);
  }
}

=== FILE: bypass_normalize.dfy ===
/** Request-path normalisation for the bypass list (bypassconf/normalize.go):
    percent-unescaping, rooting, Go's `path.Clean`, and a trailing slash that
    survives cleaning; plus the loose equality that ignores one trailing slash. */
module BypassNormalize {
  import opened Wrappers
  import opened Text

  /** `url.PathUnescape`: the unescaped path, or `None` for a malformed escape.
      Its decoding rules are not modelled. */
  type Unescaper = string -> Option<string>

  // ---------------------------------------------------------------------------
  // path.Clean on rooted paths

  /** A segment that survives cleaning: not empty, not `.`, not `..`. */
  predicate Proper(seg: string) {
    seg != "" && seg != "." && seg != ".."
  }

  /** The segments left after processing `segs` left to right: empty and `.`
      segments vanish, `..` removes the segment before it, and a `..` at the
      root is dropped. */
  function Resolve(segs: seq<string>): (st: seq<string>)
    ensures forall i :: 0 <= i < |st| ==> Proper(st[i]) && st[i] in segs
    decreases |segs|
  {
    if |segs| == 0 then []
    else
      var st := Resolve(segs[..|segs| - 1]);
      var s := segs[|segs| - 1];
      assert forall x :: x in segs[..|segs| - 1] ==> x in segs;
      if s == "" || s == "." then st
      else if s == ".." then (if |st| == 0 then st else st[..|st| - 1])
      else st + [s]
  }

  /** Segments that are all proper are already resolved. */
  lemma {:induction false} ResolveProper(segs: seq<string>)
    requires forall i :: 0 <= i < |segs| ==> Proper(segs[i])
    ensures Resolve(segs) == segs
    decreases |segs|
  {
    if |segs| > 0 {
      var init := segs[..|segs| - 1];
      ResolveProper(init);
      assert init + [segs[|segs| - 1]] == segs;
    }
  }

  /** `path.Clean` of a path that starts with `/`. */
  function Clean(q: string): (c: string)
    requires HasPrefix(q, "/")
    ensures |c| >= 1 && c[0] == '/'
  {
    "/" + Join(Resolve(Split(q[1..], '/')), "/")
  }

  /** The shape `path.Clean` promises for rooted paths: `/` alone, or `/`
      followed by proper segments separated by single slashes. */
  predicate IsClean(c: string) {
    |c| >= 1 && c[0] == '/' &&
    (c == "/" ||
     var segs := Split(c[1..], '/');
     forall i :: 0 <= i < |segs| ==> Proper(segs[i]))
  }

  lemma CleanIsClean(q: string)
    requires HasPrefix(q, "/")
    ensures IsClean(Clean(q))
  {
    var st := Resolve(Split(q[1..], '/'));
    if |st| > 0 {
      SplitOfJoin(st, '/');
      assert Clean(q)[1..] == Join(st, "/");
    }
  }

  /** Cleaning is idempotent: a clean path is its own clean form. */
  lemma CleanOfClean(c: string)
    requires IsClean(c)
    ensures Clean(c) == c
  {
    if c != "/" {
      var segs := Split(c[1..], '/');
      ResolveProper(segs);
      JoinOfSplit(c[1..], '/');
      assert "/" + c[1..] == c;
    }
  }

  /** A clean path other than `/` never ends in a slash. */
  lemma CleanEndsInSegment(c: string)
    requires IsClean(c) && c != "/"
    ensures c[|c| - 1] != '/'
  {
    var segs := Split(c[1..], '/');
    JoinOfSplit(c[1..], '/');
    JoinEnds(segs, "/");
    var last := segs[|segs| - 1];
    assert last[|last| - 1] in last;
  }

  // ---------------------------------------------------------------------------
  // normalize

  /** The unescaped path, or the input itself when unescaping fails. */
  function Unescaped(p: string, unescape: Unescaper): string {
    match unescape(p)
    case Some(u) => u
    case None => p
  }

  /** The path with a leading `/` added when it has none. */
  function Rooted(u: string): (q: string)
    ensures HasPrefix(q, "/")
    ensures HasSuffix(q, "/") <==> u == "" || HasSuffix(u, "/")
  {
    if HasPrefix(u, "/") then u
    else
      assert ("/" + u)[1..] == u;
      "/" + u
  }

  /** A clean path, possibly followed by one slash when it is not the root. */
  predicate IsNormal(r: string) {
    IsClean(r) ||
    (|r| >= 2 && r[|r| - 1] == '/' && r[..|r| - 1] != "/" && IsClean(r[..|r| - 1]))
  }

  /** `path.Clean` of a rooted path, with its trailing slash put back unless
      the cleaned path is the root. */
  function CleanKeepSlash(q: string): (r: string)
    requires HasPrefix(q, "/")
    ensures IsNormal(r)
  {
    var c := Clean(q);
    CleanIsClean(q);
    if HasSuffix(q, "/") && c != "/" then
      assert (c + "/")[..|c|] == c;
      c + "/"
    else c
  }

  /** `normalize`: the empty path is `/`; otherwise the unescaped path, rooted,
      cleaned, with a trailing slash put back unless the result is `/`. */
  function Normalize(p: string, unescape: Unescaper): (r: string)
    ensures p == "" ==> r == "/"
    ensures |r| >= 1 && r[0] == '/'
    ensures IsNormal(r)
  {
    if p == "" then "/" else CleanKeepSlash(Rooted(Unescaped(p, unescape)))
  }

  /** The result ends in a slash exactly when it is the root or the unescaped
      input was empty or ended in one. */
  lemma NormalizeTrailingSlash(p: string, unescape: Unescaper)
    requires p != ""
    ensures var r := Normalize(p, unescape);
            var u := Unescaped(p, unescape);
            HasSuffix(r, "/") <==> r == "/" || u == "" || HasSuffix(u, "/")
  {
    var q := Rooted(Unescaped(p, unescape));
    var c := Clean(q);
    CleanIsClean(q);
    if c != "/" {
      CleanEndsInSegment(c);
    }
  }

  /** A clean path is left as it is. */
  lemma KeepSlashOfClean(r: string)
    requires IsClean(r)
    ensures CleanKeepSlash(r) == r
  {
    CleanOfClean(r);
    if r != "/" {
      CleanEndsInSegment(r);
    }
  }

  /** A clean path plus a slash is left as it is. */
  lemma KeepSlashOfSlashed(c: string)
    requires IsClean(c) && c != "/"
    ensures CleanKeepSlash(c + "/") == c + "/"
  {
    var r := c + "/";
    assert r[1..] == c[1..] + "/";
    SplitSnoc(c[1..], '/');
    var segs := Split(c[1..], '/');
    assert (segs + [""])[..|segs|] == segs;
    assert Resolve(segs + [""]) == Resolve(segs);
    CleanOfClean(c);
  }

  /** A normal path is left as it is. */
  lemma KeepSlashOfNormal(r: string)
    requires IsNormal(r)
    ensures HasPrefix(r, "/") && CleanKeepSlash(r) == r
  {
    assert r[..1] == [r[0]];
    if IsClean(r) {
      KeepSlashOfClean(r);
    } else {
      var c := r[..|r| - 1];
      assert r == c + "/";
      KeepSlashOfSlashed(c);
    }
  }

  /** Normalising a normal path whose unescaping changes nothing (or fails)
      gives it back: normalisation is idempotent. */
  lemma NormalizeIdempotent(p: string, unescape: Unescaper)
    requires var r := Normalize(p, unescape);
             unescape(r) == Some(r) || unescape(r).None?
    ensures Normalize(Normalize(p, unescape), unescape) == Normalize(p, unescape)
  {
    var r := Normalize(p, unescape);
    KeepSlashOfNormal(r);
    assert Unescaped(r, unescape) == r;
    assert Rooted(r) == r;
  }

  // ---------------------------------------------------------------------------
  // eqLoosely

  /** One trailing slash removed, except from the root. */
  function Strip(s: string): string {
    if s == "/" then s else TrimSuffix(s, "/")
  }

  /** `eqLoosely`: equal once one trailing slash is ignored. */
  predicate EqLoosely(a: string, b: string): (r: bool)
    ensures a == b ==> r
    ensures r && a != b ==> a == b + "/" || b == a + "/"
  {
    assert Strip(a) == Strip(b) && a != b ==> a == b + "/" || b == a + "/" by {
      if Strip(a) == Strip(b) && a != b {
        if HasSuffix(a, "/") && a != "/" {
          assert a == Strip(a) + "/";
        }
        if HasSuffix(b, "/") && b != "/" {
          assert b == Strip(b) + "/";
        }
      }
    }
    Strip(a) == Strip(b)
  }

  /** Two paths are loosely equal exactly when they are equal, or one is the
      other plus a slash and that other is the root or does not already end in
      a slash. The root is never stripped, so `/` and the empty path differ. */
  lemma EqLooselyIff(a: string, b: string)
    ensures EqLoosely(a, b) <==>
            a == b ||
            (a != "" && b == a + "/" && (a == "/" || !HasSuffix(a, "/"))) ||
            (b != "" && a == b + "/" && (b == "/" || !HasSuffix(b, "/")))
  {
    if a != "" && b == a + "/" {
      assert b[..|a|] == a;
    }
    if b != "" && a == b + "/" {
      assert a[..|b|] == b;
    }
    if EqLoosely(a, b) && a != b {
      if HasSuffix(a, "/") && a != "/" {
        assert a == Strip(a) + "/";
      }
      if HasSuffix(b, "/") && b != "/" {
        assert b == Strip(b) + "/";
      }
    }
  }

  /** Loose equality is an equivalence: reflexive, symmetric and transitive. */
  lemma EqLooselyEquivalence(a: string, b: string, c: string)
    ensures EqLoosely(a, a)
    ensures EqLoosely(a, b) ==> EqLoosely(b, a)
    ensures EqLoosely(a, b) && EqLoosely(b, c) ==> EqLoosely(a, c)
  {
  }
}

=== FILE: bypass_rules_handler.dfy ===
/** The bypass-list editor's HTTP handlers (handler/bypass_rules.go): GET shows
    the file with its entity tag, Validate checks a submission, and PUT writes
    it when the client's `If-Match` still names the file on disk, then reloads
    the entries the matcher uses. The file is the text read from disk (empty
    when it cannot be read), `body` is the decoded `raw` field or the decoder's
    error, and `writeError` says whether the atomic write fails. */
module BypassRulesHandler {
  import opened Wrappers
  import opened ETag
  import opened BypassLoader

  datatype BypassView = BypassView(etag: string, raw: string)

  datatype ValidateOutcome =
    | ValidateBadRequest(error: string)
    | Checked(ok: bool, messages: seq<string>)

  datatype PutOutcome =
    | Conflict(currentETag: string)
    | BadRequest(error: string)
    | Unprocessable(messages: seq<string>)
    | WriteFailed(error: string)
    | Saved(etag: string)

  /** The file on disk and the entries loaded from it. */
  datatype Server = Server(file: string, entries: seq<Entry>)

  /** `GetBypassRules`. */
  function Get(hash: Hasher, file: string): (v: BypassView)
    ensures v.raw == file
    ensures v.etag == ComputeETag(hash, file)
  {
    BypassView(ComputeETag(hash, file), file)
  }

  /** `validateRaw`: a placeholder that checks nothing. It never fails and
      always reports zero entries, whatever the text holds. */
  function ValidateRaw(s: string): (r: Result<nat, string>)
    ensures r.Success? && r.value == 0
  {
    Success(0)
  }

  /** `ValidateBypassRules`. */
  function Validate(body: Result<string, string>): (o: ValidateOutcome)
    ensures body.Failure? <==> o.ValidateBadRequest?
    ensures o.Checked? ==> (o.ok <==> o.messages == [])
  {
    match body
    case Failure(e) => ValidateBadRequest(e)
    case Success(raw) =>
      match ValidateRaw(raw)
      case Failure(e) => Checked(false, [e])
      case Success(_) => Checked(true, [])
  }

  /** `PutBypassRules`: the precondition, then the body, then validation, then
      the write and the reload. */
  function Put(hash: Hasher, ifMatch: string, s: Server, body: Result<string, string>,
               writeError: Option<string>): (r: (PutOutcome, Server))
    ensures r.0.Conflict? <==> ifMatch != "" && ifMatch != ComputeETag(hash, s.file)
    ensures r.0.Conflict? ==> r.0.currentETag == ComputeETag(hash, s.file)
    ensures r.0.BadRequest? <==> !r.0.Conflict? && body.Failure?
    ensures r.0.Saved? ==> body.Success? && r.0.etag == ComputeETag(hash, body.value) &&
                           r.1 == Server(body.value, Parse(body.value))
    ensures !r.0.Saved? ==> r.1 == s
  {
    var cur := ComputeETag(hash, s.file);
    if ifMatch != "" && ifMatch != cur then (Conflict(cur), s)
    else match body
      case Failure(e) => (BadRequest(e), s)
      case Success(raw) =>
        match ValidateRaw(raw)
        case Failure(e) => (Unprocessable([e]), s)
        case Success(_) =>
          match writeError
          case Some(e) => (WriteFailed(e), s)
          case None => (Saved(ComputeETag(hash, raw)), Server(raw, Parse(raw)))
  }

  // ---------------------------------------------------------------------------
  // Properties

  /** Every well-formed body validates. */
  lemma ValidateAcceptsAll(raw: string)
    ensures Validate(Success(raw)) == Checked(true, [])
  {
  }

  /** With a matching or absent `If-Match` and a working disk, any text is
      saved verbatim, the entries become its parse, and the returned tag is the
      tag of the text. */
  lemma PutSavesVerbatim(hash: Hasher, ifMatch: string, s: Server, raw: string)
    requires ifMatch == "" || ifMatch == ComputeETag(hash, s.file)
    ensures Put(hash, ifMatch, s, Success(raw), None) ==
            (Saved(ComputeETag(hash, raw)), Server(raw, Parse(raw)))
  {
  }

  /** The tag a save returns is the one a following GET shows, and a client
      that sends it back is not refused with a conflict. */
  lemma PutThenGet(hash: Hasher, ifMatch: string, s: Server, body: Result<string, string>, next: Result<string, string>)
    requires Put(hash, ifMatch, s, body, None).0.Saved?
    ensures var (o, s') := Put(hash, ifMatch, s, body, None);
            Get(hash, s'.file).etag == o.etag &&
            !Put(hash, o.etag, s', next, None).0.Conflict?
  {
  }

  /** Validate agrees with PUT: whatever the `If-Match` check would say, a body
      that validates is saved when the disk works. */
  lemma ValidateAgreesWithPut(hash: Hasher, s: Server, body: Result<string, string>)
    ensures Validate(body).ValidateBadRequest? <==> Put(hash, "", s, body, None).0.BadRequest?
    ensures Validate(body).Checked? ==> (Validate(body).ok <==> Put(hash, "", s, body, None).0.Saved?)
  {
  }
}

=== FILE: bypass_rules_panel.dfy ===
/** The bypass-list editor page (web/mamotama-admin/src/pages/BypassRulesPanel.tsx):
    the text being edited against the text last loaded or saved, the request a
    save sends, how load, validate and save replies change the page, the
    save shortcut, the line counter, and the "insert example" button.
    Replies, keys and the clock are inputs; timers and rendering are left
    out. */
module BypassRulesPanel {
  import opened Wrappers
  import opened Text
  import opened ETag
  import opened BypassLoader
  import opened BypassRulesHandler
  import opened ApiClient

  /** The page's state. `savedAt` is the clock reading of the last save. */
  datatype Editor = Editor(
    loading: bool,
    saving: bool,
    raw: string,
    serverRaw: string,
    etag: Option<string>,
    valid: Option<bool>,
    messages: seq<string>,
    savedAt: Option<int>,
    error: Option<string>)

  /** The text differs from the one last loaded or saved. */
  predicate Dirty(e: Editor) {
    e.raw != e.serverRaw
  }

  /** The save button is enabled. */
  predicate SaveEnabled(e: Editor) {
    !e.loading && !e.saving && Dirty(e)
  }

  // ---------------------------------------------------------------------------
  // Replies

  /** The JSON of a load; a field is `None` when missing or `null`. */
  datatype LoadReply = LoadReply(etag: Option<string>, raw: Option<string>)

  /** The JSON of a validation; `messages` is `None` unless it is a list. */
  datatype ValidateReply = ValidateReply(ok: bool, messages: Option<seq<string>>)

  /** The JSON of a save. */
  datatype SaveReply = SaveReply(ok: bool, etag: Option<string>)

  /** What the page receives for `GetBypassRules`. */
  function LoadReplyOf(v: BypassView): (r: LoadReply)
    ensures r == LoadReply(Some(v.etag), Some(v.raw))
  {
    LoadReply(Some(v.etag), Some(v.raw))
  }

  /** What the page receives for each outcome of `ValidateBypassRules`. */
  function ValidateReplyOf(o: BypassRulesHandler.ValidateOutcome): (r: Result<ValidateReply, string>)
    ensures r.Success? <==> o.Checked? && o.ok
  {
    match o
    case ValidateBadRequest(e) => Receive(400, ValidateReply(false, None), e)
    case Checked(ok, ms) =>
      if ok then Receive(200, ValidateReply(true, Some(ms)), "")
      else Receive(422, ValidateReply(false, Some(ms)), "")
  }

  /** What the page receives for each outcome of `PutBypassRules`: only a
      save succeeds, with the new tag. */
  function ReplyOf(o: PutOutcome): (r: Result<SaveReply, string>)
    ensures r.Success? <==> o.Saved?
    ensures o.Saved? ==> r.value == SaveReply(true, Some(o.etag))
    ensures o.Conflict? ==> r.error == "conflict"
  {
    match o
    case Saved(tag) => Receive(200, SaveReply(true, Some(tag)), "")
    case Conflict(_) => Receive(409, SaveReply(false, None), "conflict")
    case BadRequest(e) => Receive(400, SaveReply(false, None), e)
    case Unprocessable(_) => Receive(422, SaveReply(false, None), "")
    case WriteFailed(e) => Receive(500, SaveReply(false, None), e)
  }

  /** `load`: both texts and the tag from the reply (a missing text is empty,
      a missing tag none), validation state cleared; a failure keeps
      everything and shows its message. */
  function AfterLoad(e: Editor, reply: Result<LoadReply, string>): (e': Editor)
    ensures !e'.loading
    ensures reply.Success? ==>
              && e'.raw == e'.serverRaw == reply.value.raw.GetOr("")
              && e'.etag == reply.value.etag
              && e'.valid.None? && e'.messages == [] && e'.error.None?
    ensures reply.Failure? ==>
              && e'.raw == e.raw && e'.serverRaw == e.serverRaw && e'.etag == e.etag
              && e'.error == Some(Or(reply.error, "Error"))
  {
    match reply
    case Success(js) =>
      var text := js.raw.GetOr("");
      e.(loading := false, error := None, raw := text, serverRaw := text, etag := js.etag,
         valid := None, messages := [])
    case Failure(m) => e.(loading := false, error := Some(Or(m, "Error")))
  }

  /** The debounced validation: its verdict and messages, or a failure shown
      as invalid with its message. */
  function AfterValidate(e: Editor, reply: Result<ValidateReply, string>): (e': Editor)
    ensures e'.raw == e.raw && e'.serverRaw == e.serverRaw && e'.etag == e.etag
    ensures reply.Success? ==> e'.valid == Some(reply.value.ok) && e'.messages == reply.value.messages.GetOr([])
    ensures reply.Failure? ==> e'.valid == Some(false) && e'.messages == [Or(reply.error, "Validate failed")]
  {
    match reply
    case Success(js) => e.(valid := Some(js.ok), messages := js.messages.GetOr([]))
    case Failure(m) => e.(valid := Some(false), messages := [Or(m, "Validate failed")])
  }

  /** The `If-Match` a save sends: the tag when there is a non-empty one,
      otherwise none (the empty text). */
  function SaveIfMatch(e: Editor): (h: string)
    ensures h != "" <==> e.etag.Some? && e.etag.value != ""
    ensures h != "" ==> h == e.etag.value
  {
    if e.etag.Some? && e.etag.value != "" then e.etag.value else ""
  }

  const SaveRefused: string := "保存に失敗しました"

  /** `doSave` for the text `sent` (the text when the save began): on an ok
      reply the sent text becomes the saved one, the tag the reply's, and the
      time is noted; otherwise the error is shown and nothing else changes. */
  function AfterSave(e: Editor, sent: string, reply: Result<SaveReply, string>, now: int): (e': Editor)
    ensures !e'.saving && e'.raw == e.raw
    ensures reply.Success? && reply.value.ok ==>
              && e'.serverRaw == sent && e'.etag == reply.value.etag
              && e'.savedAt == Some(now) && e'.error.None?
    ensures !(reply.Success? && reply.value.ok) ==>
              && e'.serverRaw == e.serverRaw && e'.etag == e.etag && e'.savedAt == e.savedAt
              && e'.error == Some(if reply.Success? then SaveRefused else Or(reply.error, "Save failed"))
  {
    match reply
    case Success(js) =>
      if !js.ok then e.(saving := false, error := Some(SaveRefused))
      else e.(saving := false, error := None, etag := js.etag, serverRaw := sent, savedAt := Some(now))
    case Failure(m) => e.(saving := false, error := Some(Or(m, "Save failed")))
  }

  // ---------------------------------------------------------------------------
  // Keys, counters and messages

  /** Ctrl or Cmd with `s`: whether the key's default is prevented, and
      whether a save starts. */
  function OnKey(e: Editor, key: string, ctrl: bool, meta: bool): (r: (bool, bool))
    ensures r.0 <==> (key == "s" || key == "S") && (ctrl || meta)
    ensures r.1 <==> r.0 && !e.saving
  {
    var isSave := (key == "s" || key == "S") && (ctrl || meta);
    (isSave, isSave && !e.saving)
  }

  /** The shortcut is looser than the button: it saves whenever no save is
      running, even while loading or with nothing changed. */
  lemma ShortcutIgnoresButtonGuard(e: Editor)
    requires !e.saving && !Dirty(e)
    ensures OnKey(e, "s", true, false).1 && !SaveEnabled(e)
  {
  }

  /** The line counter: none for an empty text, else the newline pieces. */
  function LineCount(raw: string): (n: nat)
    ensures raw == "" <==> n == 0
  {
    if raw == "" then 0 else |Split(raw, '\n')|
  }

  /** A non-empty text counts one line more than it has newlines, so a final
      newline starts a counted, empty line. */
  lemma LineCountIsNewlines(raw: string)
    ensures raw != "" ==> LineCount(raw) == multiset(raw)['\n'] + 1
  {
    SplitCount(raw, '\n');
  }

  /** The messages shown: the first three. */
  function Shown(ms: seq<string>): (r: seq<string>)
    ensures |r| == if |ms| < 3 then |ms| else 3
    ensures r <= ms
  {
    if |ms| < 3 then ms else ms[..3]
  }

  // ---------------------------------------------------------------------------
  // The "insert example" button

  const Example: string := "/__bypass__/"

  /** The text keeps its lines in order and gains the example as its last
      line, an empty last line being replaced by it. */
  predicate KeepsLinesAddsExample(before: string, after: string) {
    var ls := Split(before, '\n');
    var ls' := Split(after, '\n');
    && ls'[|ls'| - 1] == Example
    && (ls'[..|ls'| - 1] == ls || ls'[..|ls'| - 1] + [""] == ls)
  }

  /** The button as written: the example glued to the end of the text. */
  function InsertExample(raw: string): (r: string)
    ensures HasSuffix(r, Example) && r[..|r| - |Example|] == raw
  {
    var r := if raw != "" then raw + Example else Example;
    assert r[|r| - |Example|..] == Example;
    r
  }

  /** The example is one line. */
  lemma ExampleIsOneLine()
    ensures Split(Example, '\n') == [Example]
  {
    SplitOfSingle(Example, '\n');
  }

  /** As written, a non-empty text without a newline stays one line, the
      example glued to it, so the text's own line is gone. */
  lemma InsertExampleJoinsLine(raw: string)
    requires raw != "" && '\n' !in raw
    ensures Split(InsertExample(raw), '\n') == [raw + Example]
    ensures !KeepsLinesAddsExample(raw, InsertExample(raw))
  {
    assert '\n' !in raw + Example by {
      ExampleIsOneLine();
      assert forall i :: 0 <= i < |Example| ==> (raw + Example)[|raw| + i] == Example[i];
    }
    SplitOfSingle(raw + Example, '\n');
    SplitOfSingle(raw, '\n');
  }

  /** As written, the example lands on the text's last line whenever the
      text does not end in a newline, so it is never a line of its own. */
  lemma InsertExampleGluesLastLine(raw: string)
    requires raw != "" && raw[|raw| - 1] != '\n'
    ensures var ls' := Split(InsertExample(raw), '\n');
            ls'[|ls'| - 1] != Example
    ensures !KeepsLinesAddsExample(raw, InsertExample(raw))
  {
    SplitLastPiece(InsertExample(raw), '\n');
  }

  /** For instance `/about/` becomes the single line `/about//__bypass__/`:
      the `/about/` entry is gone and the example is not a line of its own. */
  lemma InsertExampleJoinsLastLine()
    ensures InsertExample("/about/") == "/about//__bypass__/"
    ensures !KeepsLinesAddsExample("/about/", InsertExample("/about/"))
  {
    InsertExampleJoinsLine("/about/");
  }

  /** Adding the example after a final newline. */
  lemma AppendAfterNewline(q: string)
    ensures KeepsLinesAddsExample(q + "\n", q + "\n" + Example)
  {
    ExampleIsOneLine();
    SplitSnoc(q, '\n');
    SplitAround(q, Example, '\n');
  }

  /** Adding the example on a new line. */
  lemma AppendOnNewLine(raw: string)
    ensures KeepsLinesAddsExample(raw, raw + "\n" + Example)
  {
    ExampleIsOneLine();
    SplitAround(raw, Example, '\n');
  }

  /** The button as intended: the example on a line of its own. */
  function InsertExampleIntended(raw: string): (r: string)
    ensures KeepsLinesAddsExample(raw, r)
  {
    if raw == "" then
      ExampleIsOneLine();
      Example
    else if raw[|raw| - 1] == '\n' then
      var q := raw[..|raw| - 1];
      assert q + "\n" == raw;
      AppendAfterNewline(q);
      raw + Example
    else
      AppendOnNewLine(raw);
      raw + "\n" + Example
  }

  /** The two agree exactly on an empty text and on one ending in a newline. */
  lemma InsertAgreesAfterNewline(raw: string)
    ensures InsertExample(raw) == InsertExampleIntended(raw) <==> raw == "" || raw[|raw| - 1] == '\n'
  {
    if raw != "" && raw[|raw| - 1] != '\n' {
      assert |InsertExample(raw)| != |InsertExampleIntended(raw)|;
    }
  }

  /** The button's effect on the page as written: the example is glued to
      the end of the text, which keeps the lines only when the text is empty
      or ends in a newline, and a one-line text loses its line. The saved
      text and the tag are untouched. */
  function InsertExampleInto(e: Editor): (e': Editor)
    ensures HasSuffix(e'.raw, Example) && e'.raw[..|e'.raw| - |Example|] == e.raw
    ensures e.raw == "" || e.raw[|e.raw| - 1] == '\n' ==> KeepsLinesAddsExample(e.raw, e'.raw)
    ensures e.raw != "" && e.raw[|e.raw| - 1] != '\n' ==> !KeepsLinesAddsExample(e.raw, e'.raw)
    ensures e'.serverRaw == e.serverRaw && e'.etag == e.etag
  {
    InsertAgreesAfterNewline(e.raw);
    var e' := e.(raw := InsertExample(e.raw));
    assert e.raw != "" && e.raw[|e.raw| - 1] != '\n' ==> !KeepsLinesAddsExample(e.raw, e'.raw) by {
      if e.raw != "" && e.raw[|e.raw| - 1] != '\n' {
        InsertExampleGluesLastLine(e.raw);
      }
    }
    e'
  }

  /** The button's effect on the page, as intended. */
  function InsertExampleIntoIntended(e: Editor): (e': Editor)
    ensures KeepsLinesAddsExample(e.raw, e'.raw)
    ensures e'.serverRaw == e.serverRaw && e'.etag == e.etag
  {
    e.(raw := InsertExampleIntended(e.raw))
  }

  // ---------------------------------------------------------------------------
  // Against the handler

  /** A save round trip: a success writes the text the page sent, makes it
      the saved text, hands the page the tag a following GET shows, leaves the
      page clean unless it was edited meanwhile, and a second save is not
      refused; a refusal or failure leaves the page's tag and saved text
      alone. */
  lemma SaveCycle(hash: Hasher, s: Server, e: Editor, edited: string, writeError: Option<string>, now: int)
    ensures var (o, s') := BypassRulesHandler.Put(hash, SaveIfMatch(e), s, Success(e.raw), writeError);
            var e' := AfterSave(e.(raw := edited), e.raw, ReplyOf(o), now);
            && (o.Saved? ==> s'.file == e.raw && e'.etag == Some(Get(hash, s'.file).etag) &&
                             (Dirty(e') <==> edited != e.raw) &&
                             !BypassRulesHandler.Put(hash, SaveIfMatch(e'), s', Success(edited), writeError).0.Conflict?)
            && (!o.Saved? ==> e'.etag == e.etag && e'.serverRaw == e.serverRaw && s' == s)
  {
  }

  /** A load shows the list file as the server holds it: the text, unedited,
      under the file's tag, with no verdict and no error. */
  lemma LoadShowsFile(hash: Hasher, file: string, e: Editor)
    ensures var e' := AfterLoad(e, Success(LoadReplyOf(Get(hash, file))));
            && e'.raw == file && !Dirty(e') && e'.etag == Some(ComputeETag(hash, file))
            && e'.valid.None? && e'.error.None? && !e'.loading
  {
  }

  /** A page loaded from the file is not refused a save with a conflict,
      whatever was typed since. */
  lemma LoadThenSave(hash: Hasher, s: Server, e: Editor, typed: string, writeError: Option<string>)
    ensures var e' := AfterLoad(e, Success(LoadReplyOf(Get(hash, s.file)))).(raw := typed);
            !Dirty(AfterLoad(e, Success(LoadReplyOf(Get(hash, s.file))))) &&
            !BypassRulesHandler.Put(hash, SaveIfMatch(e'), s, Success(typed), writeError).0.Conflict?
  {
  }

  /** Every text the page sends validates: the badge shows it valid, with no
      messages. */
  lemma ValidationAlwaysPasses(e: Editor, raw: string)
    ensures var e' := AfterValidate(e, ValidateReplyOf(BypassRulesHandler.Validate(Success(raw))));
            e'.valid == Some(true) && e'.messages == []
  {
    ValidateAcceptsAll(raw);
  }
}

=== FILE: cache_loader.dfy ===
/** cacheconf/loader.go: the line-oriented cache-rule language
      ALLOW|DENY prefix=...|regex=...|exact=... methods=GET,HEAD ttl=<sec> vary=H1,H2
    and the first-match-wins evaluator `Ruleset.Match`. */
module CacheLoader {
  import opened Wrappers
  import opened Text
  import Numeric

  /** Go's `regexp` package as the loader uses it: whether a pattern compiles,
      the text of its compile error, and whether a compiled pattern matches. */
  datatype RegexEngine = RegexEngine(
    compiles: string -> bool,
    compileError: string -> string,
    matches: (string, string) -> bool)

  /** One cache rule. `regex` holds the source text of a pattern that compiled
      (`Regexp.String()` gives it back). `methods` lists the keys of the Go
      `map[string]bool` once each; only its set of elements matters. */
  datatype Rule = Rule(
    kind: string,
    prefix: string,
    regex: Option<string>,
    exact: string,
    methods: seq<string>,
    ttl: int,
    vary: seq<string>)

  /** The TTL a parsed rule gets when no `ttl=` option parses. */
  const DefaultTTL: int := 600

  predicate NoDup(s: seq<string>) {
    forall i, j :: 0 <= i < j < |s| ==> s[i] != s[j]
  }

  /** Storing key `k` into a Go map whose keys are `keys`. */
  function AddKey(keys: seq<string>, k: string): (r: seq<string>)
    requires NoDup(keys)
    ensures NoDup(r)
    ensures forall x :: x in r <==> x in keys || x == k
  {
    if k in keys then keys else keys + [k]
  }

  function MethodKey(m: string): string {
    Upper(TrimSpace(m))
  }

  /** Every comma piece of a `methods=` value, trimmed and upper-cased, in order. */
  function PieceKeys(pieces: seq<string>): (r: seq<string>)
    ensures |r| == |pieces|
    ensures forall i :: 0 <= i < |pieces| ==> r[i] == MethodKey(pieces[i])
  {
    seq(|pieces|, i requires 0 <= i < |pieces| => MethodKey(pieces[i]))
  }

  /** The keys of a map after storing `ks` into an empty one in order. */
  function Dedup(ks: seq<string>): (r: seq<string>)
    ensures NoDup(r)
    ensures forall x :: x in r <==> x in ks
    decreases |ks|
  {
    if |ks| == 0 then []
    else
      var r := AddKey(Dedup(ks[..|ks| - 1]), ks[|ks| - 1]);
      assert ks == ks[..|ks| - 1] + [ks[|ks| - 1]];
      r
  }

  /** The map `methods=` builds: every comma piece trimmed and upper-cased,
      empty pieces included (`methods=` alone stores the empty method). */
  function MethodKeys(pieces: seq<string>): (r: seq<string>)
    ensures NoDup(r)
    ensures forall x :: x in r <==> x in PieceKeys(pieces)
  {
    Dedup(PieceKeys(pieces))
  }

  // ---------------------------------------------------------------------------
  // splitTrim

  function TrimNonEmpty(ps: seq<string>): (r: seq<string>)
    ensures forall i :: 0 <= i < |r| ==> r[i] != "" && Trimmed(r[i])
  {
    if |ps| == 0 then []
    else
      var t := TrimSpace(ps[0]);
      (if t == "" then [] else [t]) + TrimNonEmpty(ps[1..])
  }

  /** Trimming keeps out a character none of the pieces has. */
  lemma {:induction false} TrimNonEmptyAvoids(ps: seq<string>, c: char)
    requires forall i :: 0 <= i < |ps| ==> c !in ps[i]
    ensures forall i :: 0 <= i < |TrimNonEmpty(ps)| ==> c !in TrimNonEmpty(ps)[i]
  {
    if |ps| > 0 {
      assert forall i :: 0 <= i < |ps[1..]| ==> ps[1..][i] == ps[i + 1];
      TrimNonEmptyAvoids(ps[1..], c);
      TrimSpaceNoNewChars(ps[0], c);
      TrimNonEmptyStep(ps, c);
    }
  }

  lemma TrimNonEmptyStep(ps: seq<string>, c: char)
    requires |ps| > 0 && c !in TrimSpace(ps[0])
    requires forall i :: 0 <= i < |TrimNonEmpty(ps[1..])| ==> c !in TrimNonEmpty(ps[1..])[i]
    ensures forall i :: 0 <= i < |TrimNonEmpty(ps)| ==> c !in TrimNonEmpty(ps)[i]
  {
  }

  /** `splitTrim(s, ",")`: the comma pieces of `s`, trimmed, empty ones dropped;
      nothing for the empty string. */
  function SplitTrim(s: string): (r: seq<string>)
    ensures s == "" ==> r == []
    ensures forall i :: 0 <= i < |r| ==> r[i] != "" && Trimmed(r[i]) && ',' !in r[i]
  {
    if s == "" then []
    else
      TrimNonEmptyAvoids(Split(s, ','), ',');
      TrimNonEmpty(Split(s, ','))
  }

  lemma {:induction false} TrimNonEmptyId(ps: seq<string>)
    requires forall i :: 0 <= i < |ps| ==> ps[i] != "" && Trimmed(ps[i])
    ensures TrimNonEmpty(ps) == ps
  {
    if |ps| > 0 {
      TrimSpaceId(ps[0]);
      TrimNonEmptyId(ps[1..]);
      assert ps == [ps[0]] + ps[1..];
    }
  }

  /** Non-empty, trimmed, comma-free entries survive a comma join and
      `splitTrim` unchanged. */
  lemma SplitTrimOfJoin(vs: seq<string>)
    requires forall i :: 0 <= i < |vs| ==> vs[i] != "" && Trimmed(vs[i]) && ',' !in vs[i]
    ensures SplitTrim(Join(vs, ",")) == vs
  {
    if |vs| > 0 {
      assert |Join(vs, ",")| >= |vs[0]| by {
        if |vs| > 1 { assert Join(vs, ",") == vs[0] + "," + Join(vs[1..], ","); }
      }
      SplitOfJoin(vs, ',');
      TrimNonEmptyId(vs);
    }
  }

  /** `splitTrim` trims and keeps the non-empty comma pieces, the empty
      string included. */
  lemma SplitTrimOfSplit(s: string)
    ensures SplitTrim(s) == TrimNonEmpty(Split(s, ','))
  {
    if s == "" {
      assert TrimSpace("") == "";
    }
  }

  lemma {:induction false} TrimNonEmptyAppend(xs: seq<string>, ys: seq<string>)
    ensures TrimNonEmpty(xs + ys) == TrimNonEmpty(xs) + TrimNonEmpty(ys)
    decreases |xs|
  {
    if |xs| > 0 {
      assert (xs + ys)[1..] == xs[1..] + ys;
      TrimNonEmptyAppend(xs[1..], ys);
    } else {
      assert xs + ys == ys;
    }
  }

  /** A comma separates independent pieces: the entries on either side of it
      are the entries of the whole, in order. */
  lemma SplitTrimAppend(a: string, b: string)
    ensures SplitTrim(a + "," + b) == SplitTrim(a) + SplitTrim(b)
  {
    assert a + "," + b == a + [','] + b;
    SplitAppend(a, ',', b);
    SplitTrimOfSplit(a + "," + b);
    SplitTrimOfSplit(a);
    SplitTrimOfSplit(b);
    TrimNonEmptyAppend(Split(a, ','), Split(b, ','));
  }

  /** A piece without a comma is one entry, its trim, unless it is blank. */
  lemma SplitTrimOfPiece(s: string)
    requires ',' !in s
    ensures SplitTrim(s) == if TrimSpace(s) == "" then [] else [TrimSpace(s)]
  {
    SplitTrimOfSplit(s);
    SplitOfSingle(s, ',');
    assert TrimNonEmpty([s]) == (if TrimSpace(s) == "" then [] else [TrimSpace(s)]) + TrimNonEmpty([]);
  }

  // ---------------------------------------------------------------------------
  // parseScanner

  /** The option keys the loader understands, after lower-casing. */
  datatype OptionKey = PrefixKey | RegexKey | ExactKey | MethodsKey | TtlKey | VaryKey | UnknownKey

  function KeyOf(k: string): (key: OptionKey)
    ensures key == UnknownKey <==>
      Lower(k) !in ["prefix", "regex", "exact", "methods", "ttl", "vary"]
  {
    var l := Lower(k);
    if l == "prefix" then PrefixKey
    else if l == "regex" then RegexKey
    else if l == "exact" then ExactKey
    else if l == "methods" then MethodsKey
    else if l == "ttl" then TtlKey
    else if l == "vary" then VaryKey
    else UnknownKey
  }

  /** Setting the field `key` names from the text `v`. */
  function SetOption(r: Rule, key: OptionKey, v: string, re: RegexEngine): (r': Rule)
    ensures r'.kind == r.kind
  {
    match key
    case PrefixKey => r.(prefix := v)
    case RegexKey => if re.compiles(v) then r.(regex := Some(v)) else r
    case ExactKey => r.(exact := v)
    case MethodsKey => r.(methods := MethodKeys(Split(v, ',')))
    case TtlKey => (match Numeric.Atoi(v) case Some(t) => r.(ttl := t) case None => r)
    case VaryKey => r.(vary := SplitTrim(v))
    case UnknownKey => r
  }

  /** The effect of one `key=value` token on the rule being built: split at the
      first `=`; a token without one changes nothing. */
  function ApplyOption(r: Rule, opt: string, re: RegexEngine): (r': Rule)
    ensures Cut(opt, '=').None? ==> r' == r
    ensures r'.kind == r.kind
  {
    match TokenOf(opt)
    case None => r
    case Some((key, v)) => SetOption(r, key, v, re)
  }

  /** What a token says: the key it names and its value, or nothing for a
      token without `=`. */
  function TokenOf(opt: string): (t: Option<(OptionKey, string)>)
    ensures t.None? <==> Cut(opt, '=').None?
    ensures t.Some? ==> t.value == (KeyOf(Cut(opt, '=').value.0), Cut(opt, '=').value.1)
  {
    match Cut(opt, '=')
    case None => None
    case Some((k, v)) => Some((KeyOf(k), v))
  }

  function ApplyOptions(r: Rule, opts: seq<string>, re: RegexEngine): (r': Rule)
    ensures r'.kind == r.kind
    decreases |opts|
  {
    if |opts| == 0 then r else ApplyOptions(ApplyOption(r, opts[0], re), opts[1..], re)
  }

  /** The rule a line starts from: its kind and the default TTL. */
  function BaseRule(kind: string): Rule {
    Rule(kind, "", None, "", [], DefaultTTL, [])
  }

  /** The words of a line that yields a rule: trimmed, not blank, not a `#`
      comment, at least two whitespace-separated fields. */
  predicate IsRuleLine(line: string) {
    var t := TrimSpace(line);
    t != "" && !HasPrefix(t, "#") && |Fields(t)| >= 2
  }

  /** One scanned line: a rule, or nothing for blank, comment and one-word lines. */
  function ParseLine(line: string, re: RegexEngine): (r: Option<Rule>)
    ensures r.Some? <==> IsRuleLine(line)
    ensures r.Some? ==> r.value.kind == Upper(Fields(TrimSpace(line))[0])
  {
    var t := TrimSpace(line);
    if t == "" || HasPrefix(t, "#") then None
    else
      var fs := Fields(t);
      if |fs| < 2 then None
      else Some(ApplyOptions(BaseRule(Upper(fs[0])), fs[1..], re))
  }

  function LineParser(re: RegexEngine): string -> Option<Rule> {
    l => ParseLine(l, re)
  }

  /** The rules of a sequence of lines, one per rule line, in order. */
  function ParseLines(ls: seq<string>, re: RegexEngine): seq<Rule> {
    Collect(ls, LineParser(re))
  }

  /** `LoadFromString` / `LoadFromBytes`. The scanner's only error, a line
      longer than its buffer, is not modelled, so loading always succeeds. */
  function LoadFromString(s: string, re: RegexEngine): (rules: seq<Rule>)
    ensures |rules| <= |ScanLines(s)|
    ensures forall x :: x in rules ==>
      exists i :: 0 <= i < |ScanLines(s)| && IsRuleLine(ScanLines(s)[i]) && ParseLine(ScanLines(s)[i], re) == Some(x)
  {
    ParseLines(ScanLines(s), re)
  }

  /** Parsing distributes over concatenated line lists ... */
  lemma ParseLinesAppend(a: seq<string>, b: seq<string>, re: RegexEngine)
    ensures ParseLines(a + b, re) == ParseLines(a, re) + ParseLines(b, re)
  {
    CollectAppend(a, b, LineParser(re));
  }

  /** Lines none of which is a rule line yield no rules. */
  lemma NoRuleLines(ls: seq<string>, re: RegexEngine)
    requires forall i :: 0 <= i < |ls| ==> ParseLine(ls[i], re).None?
    ensures ParseLines(ls, re) == []
  {
    CollectNone(ls, LineParser(re));
  }

  /** ... and a single line yields at most one rule, exactly when it is a rule
      line, so the rules come out one per rule line, in line order. */
  lemma ParseLinesSingle(l: string, re: RegexEngine)
    ensures ParseLines([l], re) == if IsRuleLine(l) then [ParseLine(l, re).value] else []
  {
    assert [l][1..] == [];
  }

  // ---------------------------------------------------------------------------
  // Option semantics

  /** The value of the last token in `opts` whose key names `key` and whose
      value `accept`s. */
  function LastValue(opts: seq<string>, key: OptionKey, accept: string -> bool): (r: Option<string>)
    ensures r.Some? ==> accept(r.value)
    decreases |opts|
  {
    if |opts| == 0 then None
    else
      match TokenOf(opts[|opts| - 1])
      case Some((k, v)) =>
        if k == key && accept(v) then Some(v)
        else LastValue(opts[..|opts| - 1], key, accept)
      case None => LastValue(opts[..|opts| - 1], key, accept)
  }

  /** The last token is looked at first. */
  lemma LastValueSnoc(init: seq<string>, o: string, key: OptionKey, accept: string -> bool)
    ensures LastValue(init + [o], key, accept) ==
      match TokenOf(o)
      case Some((k, v)) => if k == key && accept(v) then Some(v) else LastValue(init, key, accept)
      case None => LastValue(init, key, accept)
  {
    assert (init + [o])[..|init|] == init;
  }

  function Always(v: string): bool {
    true
  }

  function TtlParses(v: string): bool {
    Numeric.Atoi(v).Some?
  }

  lemma {:induction false} ApplyOptionsSnoc(r: Rule, opts: seq<string>, o: string, re: RegexEngine)
    ensures ApplyOptions(r, opts + [o], re) == ApplyOption(ApplyOptions(r, opts, re), o, re)
    decreases |opts|
  {
    if |opts| > 0 {
      assert (opts + [o])[1..] == opts[1..] + [o];
      ApplyOptionsSnoc(ApplyOption(r, opts[0], re), opts[1..], o, re);
    }
  }

  lemma {:induction false} LastPrefixWins(r: Rule, opts: seq<string>, re: RegexEngine)
    ensures ApplyOptions(r, opts, re).prefix ==
      LastValue(opts, PrefixKey, Always).GetOr(r.prefix)
    decreases |opts|
  {
    if |opts| > 0 {
      var init := opts[..|opts| - 1];
      assert opts == init + [opts[|opts| - 1]];
      LastPrefixWins(r, init, re);
      PrefixStep(r, init, opts[|opts| - 1], re);
    }
  }

  lemma PrefixEffect(x: Rule, o: string, re: RegexEngine)
    ensures ApplyOption(x, o, re).prefix ==
      match TokenOf(o)
      case Some((k, v)) => if k == PrefixKey then v else x.prefix
      case None => x.prefix
  {
  }

  lemma PrefixStep(r: Rule, init: seq<string>, o: string, re: RegexEngine)
    requires ApplyOptions(r, init, re).prefix ==
      LastValue(init, PrefixKey, Always).GetOr(r.prefix)
    ensures ApplyOptions(r, init + [o], re).prefix ==
      LastValue(init + [o], PrefixKey, Always).GetOr(r.prefix)
  {
    ApplyOptionsSnoc(r, init, o, re);
    PrefixEffect(ApplyOptions(r, init, re), o, re);
    LastValueSnoc(init, o, PrefixKey, Always);
  }

  lemma {:induction false} LastExactWins(r: Rule, opts: seq<string>, re: RegexEngine)
    ensures ApplyOptions(r, opts, re).exact ==
      LastValue(opts, ExactKey, Always).GetOr(r.exact)
    decreases |opts|
  {
    if |opts| > 0 {
      var init := opts[..|opts| - 1];
      assert opts == init + [opts[|opts| - 1]];
      LastExactWins(r, init, re);
      ExactStep(r, init, opts[|opts| - 1], re);
    }
  }

  lemma ExactEffect(x: Rule, o: string, re: RegexEngine)
    ensures ApplyOption(x, o, re).exact ==
      match TokenOf(o)
      case Some((k, v)) => if k == ExactKey then v else x.exact
      case None => x.exact
  {
  }

  lemma ExactStep(r: Rule, init: seq<string>, o: string, re: RegexEngine)
    requires ApplyOptions(r, init, re).exact ==
      LastValue(init, ExactKey, Always).GetOr(r.exact)
    ensures ApplyOptions(r, init + [o], re).exact ==
      LastValue(init + [o], ExactKey, Always).GetOr(r.exact)
  {
    ApplyOptionsSnoc(r, init, o, re);
    ExactEffect(ApplyOptions(r, init, re), o, re);
    LastValueSnoc(init, o, ExactKey, Always);
  }

  lemma {:induction false} LastRegexWins(r: Rule, opts: seq<string>, re: RegexEngine)
    ensures ApplyOptions(r, opts, re).regex ==
      if LastValue(opts, RegexKey, re.compiles).Some? then LastValue(opts, RegexKey, re.compiles) else r.regex
    decreases |opts|
  {
    if |opts| > 0 {
      var init := opts[..|opts| - 1];
      assert opts == init + [opts[|opts| - 1]];
      LastRegexWins(r, init, re);
      RegexStep(r, init, opts[|opts| - 1], re);
    }
  }

  lemma RegexEffect(x: Rule, o: string, re: RegexEngine)
    ensures ApplyOption(x, o, re).regex ==
      match TokenOf(o)
      case Some((k, v)) => if k == RegexKey then if re.compiles(v) then Some(v) else x.regex else x.regex
      case None => x.regex
  {
  }

  lemma RegexStep(r: Rule, init: seq<string>, o: string, re: RegexEngine)
    requires ApplyOptions(r, init, re).regex ==
      if LastValue(init, RegexKey, re.compiles).Some? then LastValue(init, RegexKey, re.compiles) else r.regex
    ensures ApplyOptions(r, init + [o], re).regex ==
      if LastValue(init + [o], RegexKey, re.compiles).Some? then LastValue(init + [o], RegexKey, re.compiles) else r.regex
  {
    ApplyOptionsSnoc(r, init, o, re);
    RegexEffect(ApplyOptions(r, init, re), o, re);
    LastValueSnoc(init, o, RegexKey, re.compiles);
  }

  lemma {:induction false} LastMethodsWins(r: Rule, opts: seq<string>, re: RegexEngine)
    ensures ApplyOptions(r, opts, re).methods ==
      (match LastValue(opts, MethodsKey, Always) case Some(v) => MethodKeys(Split(v, ',')) case None => r.methods)
    decreases |opts|
  {
    if |opts| > 0 {
      var init := opts[..|opts| - 1];
      assert opts == init + [opts[|opts| - 1]];
      LastMethodsWins(r, init, re);
      MethodsStep(r, init, opts[|opts| - 1], re);
    }
  }

  lemma MethodsEffect(x: Rule, o: string, re: RegexEngine)
    ensures ApplyOption(x, o, re).methods ==
      match TokenOf(o)
      case Some((k, v)) => if k == MethodsKey then MethodKeys(Split(v, ',')) else x.methods
      case None => x.methods
  {
  }

  lemma MethodsStep(r: Rule, init: seq<string>, o: string, re: RegexEngine)
    requires ApplyOptions(r, init, re).methods ==
      (match LastValue(init, MethodsKey, Always) case Some(v) => MethodKeys(Split(v, ',')) case None => r.methods)
    ensures ApplyOptions(r, init + [o], re).methods ==
      (match LastValue(init + [o], MethodsKey, Always) case Some(v) => MethodKeys(Split(v, ',')) case None => r.methods)
  {
    ApplyOptionsSnoc(r, init, o, re);
    MethodsEffect(ApplyOptions(r, init, re), o, re);
    LastValueSnoc(init, o, MethodsKey, Always);
  }

  lemma {:induction false} LastTtlWins(r: Rule, opts: seq<string>, re: RegexEngine)
    ensures ApplyOptions(r, opts, re).ttl ==
      (match LastValue(opts, TtlKey, TtlParses) case Some(v) => Numeric.Atoi(v).value case None => r.ttl)
    decreases |opts|
  {
    if |opts| > 0 {
      var init := opts[..|opts| - 1];
      assert opts == init + [opts[|opts| - 1]];
      LastTtlWins(r, init, re);
      TtlStep(r, init, opts[|opts| - 1], re);
    }
  }

  lemma TtlEffect(x: Rule, o: string, re: RegexEngine)
    ensures ApplyOption(x, o, re).ttl ==
      match TokenOf(o)
      case Some((k, v)) => if k == TtlKey then (match Numeric.Atoi(v) case Some(t) => t case None => x.ttl) else x.ttl
      case None => x.ttl
  {
  }

  lemma TtlStep(r: Rule, init: seq<string>, o: string, re: RegexEngine)
    requires ApplyOptions(r, init, re).ttl ==
      (match LastValue(init, TtlKey, TtlParses) case Some(v) => Numeric.Atoi(v).value case None => r.ttl)
    ensures ApplyOptions(r, init + [o], re).ttl ==
      (match LastValue(init + [o], TtlKey, TtlParses) case Some(v) => Numeric.Atoi(v).value case None => r.ttl)
  {
    ApplyOptionsSnoc(r, init, o, re);
    TtlEffect(ApplyOptions(r, init, re), o, re);
    LastValueSnoc(init, o, TtlKey, TtlParses);
  }

  lemma {:induction false} LastVaryWins(r: Rule, opts: seq<string>, re: RegexEngine)
    ensures ApplyOptions(r, opts, re).vary ==
      (match LastValue(opts, VaryKey, Always) case Some(v) => SplitTrim(v) case None => r.vary)
    decreases |opts|
  {
    if |opts| > 0 {
      var init := opts[..|opts| - 1];
      assert opts == init + [opts[|opts| - 1]];
      LastVaryWins(r, init, re);
      VaryStep(r, init, opts[|opts| - 1], re);
    }
  }

  lemma VaryEffect(x: Rule, o: string, re: RegexEngine)
    ensures ApplyOption(x, o, re).vary ==
      match TokenOf(o)
      case Some((k, v)) => if k == VaryKey then SplitTrim(v) else x.vary
      case None => x.vary
  {
  }

  lemma VaryStep(r: Rule, init: seq<string>, o: string, re: RegexEngine)
    requires ApplyOptions(r, init, re).vary ==
      (match LastValue(init, VaryKey, Always) case Some(v) => SplitTrim(v) case None => r.vary)
    ensures ApplyOptions(r, init + [o], re).vary ==
      (match LastValue(init + [o], VaryKey, Always) case Some(v) => SplitTrim(v) case None => r.vary)
  {
    ApplyOptionsSnoc(r, init, o, re);
    VaryEffect(ApplyOptions(r, init, re), o, re);
    LastValueSnoc(init, o, VaryKey, Always);
  }

  /** Every field of a parsed rule comes from the LAST token that sets it: keys
      are case-insensitive, tokens without `=` and unknown keys change nothing,
      a `regex=` that does not compile and a `ttl=` that is not an integer are
      skipped, and a field no token sets keeps its starting value. */
  lemma OptionsLastWins(r: Rule, opts: seq<string>, re: RegexEngine)
    ensures ApplyOptions(r, opts, re).prefix ==
      LastValue(opts, PrefixKey, Always).GetOr(r.prefix)
    ensures ApplyOptions(r, opts, re).exact ==
      LastValue(opts, ExactKey, Always).GetOr(r.exact)
    ensures ApplyOptions(r, opts, re).regex ==
      if LastValue(opts, RegexKey, re.compiles).Some? then LastValue(opts, RegexKey, re.compiles) else r.regex
    ensures ApplyOptions(r, opts, re).methods ==
      (match LastValue(opts, MethodsKey, Always) case Some(v) => MethodKeys(Split(v, ',')) case None => r.methods)
    ensures ApplyOptions(r, opts, re).ttl ==
      (match LastValue(opts, TtlKey, TtlParses) case Some(v) => Numeric.Atoi(v).value case None => r.ttl)
    ensures ApplyOptions(r, opts, re).vary ==
      (match LastValue(opts, VaryKey, Always) case Some(v) => SplitTrim(v) case None => r.vary)
  {
    LastPrefixWins(r, opts, re);
    LastExactWins(r, opts, re);
    LastRegexWins(r, opts, re);
    LastMethodsWins(r, opts, re);
    LastTtlWins(r, opts, re);
    LastVaryWins(r, opts, re);
  }

  // ---------------------------------------------------------------------------
  // Ruleset.Match

  predicate MethodAllowed(r: Rule, m: string) {
    |r.methods| == 0 || m in r.methods
  }

  predicate SelectorHits(r: Rule, path: string, re: RegexEngine) {
    || (r.exact != "" && path == r.exact)
    || (r.prefix != "" && HasPrefix(path, r.prefix))
    || (r.regex.Some? && re.matches(r.regex.value, path))
  }

  /** Rule `r` applies to a request with upper-cased method `m` and path `path`. */
  predicate Hits(r: Rule, m: string, path: string, re: RegexEngine) {
    MethodAllowed(r, m) && SelectorHits(r, path, re)
  }

  /** `(*Rule, bool)`: the hit rule with its position and whether it allows
      caching, or no hit (Go's `nil, false`). */
  datatype MatchResult = Hit(index: nat, rule: Rule, allow: bool) | NoHit {
    predicate Allows() {
      Hit? && allow
    }
  }

  function MatchFrom(rules: seq<Rule>, i: nat, m: string, path: string, re: RegexEngine): (res: MatchResult)
    requires i <= |rules|
    ensures res.Hit? ==>
      && i <= res.index < |rules|
      && rules[res.index] == res.rule
      && Hits(res.rule, m, path, re)
      && (forall j :: i <= j < res.index ==> !Hits(rules[j], m, path, re))
      && res.allow == (res.rule.kind == "ALLOW")
    ensures res.NoHit? <==> forall j :: i <= j < |rules| ==> !Hits(rules[j], m, path, re)
    decreases |rules| - i
  {
    if i == |rules| then NoHit
    else
      var r := rules[i];
      if |r.methods| > 0 && m !in r.methods then MatchFrom(rules, i + 1, m, path, re)
      else if r.exact != "" && path == r.exact then Hit(i, r, r.kind == "ALLOW")
      else if r.prefix != "" && HasPrefix(path, r.prefix) then Hit(i, r, r.kind == "ALLOW")
      else if r.regex.Some? && re.matches(r.regex.value, path) then Hit(i, r, r.kind == "ALLOW")
      else MatchFrom(rules, i + 1, m, path, re)
  }

  /** `Ruleset.Match(method, path)`: the first rule, in order, that applies to
      the upper-cased method and the path; later rules are never consulted. */
  function Match(rules: seq<Rule>, verb: string, path: string, re: RegexEngine): (res: MatchResult)
    ensures res.Hit? ==>
      && res.index < |rules|
      && rules[res.index] == res.rule
      && Hits(res.rule, Upper(verb), path, re)
      && (forall j :: 0 <= j < res.index ==> !Hits(rules[j], Upper(verb), path, re))
    ensures res.Allows() <==> res.Hit? && res.rule.kind == "ALLOW"
    ensures res.NoHit? <==> forall j :: 0 <= j < |rules| ==> !Hits(rules[j], Upper(verb), path, re)
  {
    MatchFrom(rules, 0, Upper(verb), path, re)
  }

  lemma {:induction false} MatchFromAppend(rules: seq<Rule>, more: seq<Rule>, i: nat, m: string, path: string, re: RegexEngine)
    requires i <= |rules|
    requires MatchFrom(rules, i, m, path, re).Hit?
    ensures MatchFrom(rules + more, i, m, path, re) == MatchFrom(rules, i, m, path, re)
    decreases |rules| - i
  {
    assert (rules + more)[i] == rules[i];
    if i + 1 <= |rules| && MatchFrom(rules, i + 1, m, path, re).Hit? {
      MatchFromAppend(rules, more, i + 1, m, path, re);
    }
  }

  /** Rules after the first hit cannot change the outcome. */
  lemma MatchIgnoresLaterRules(rules: seq<Rule>, more: seq<Rule>, verb: string, path: string, re: RegexEngine)
    requires Match(rules, verb, path, re).Hit?
    ensures Match(rules + more, verb, path, re) == Match(rules, verb, path, re)
  {
    MatchFromAppend(rules, more, 0, Upper(verb), path, re);
  }
}

=== FILE: cache_roundtrip.dfy ===
/** What the cache-rule editor relies on when it saves: a ruleset written out
    by `RulesetToLines` is read back by the loader as the same rules, and a
    validated rule shown through `ToDTO` validates again to the same rule. */
module CacheRoundTrip {
  import opened Wrappers
  import opened Text
  import Numeric
  import Sorting
  import opened CacheLoader
  import opened CacheSerialize

  // ---------------------------------------------------------------------------
  // Option tokens

  lemma {:induction false} ApplyOptionsAppend(r: Rule, a: seq<string>, b: seq<string>, re: RegexEngine)
    ensures ApplyOptions(r, a + b, re) == ApplyOptions(ApplyOptions(r, a, re), b, re)
    decreases |a|
  {
    if |a| == 0 {
      assert a + b == b;
    } else {
      assert (a + b)[0] == a[0];
      assert (a + b)[1..] == a[1..] + b;
      ApplyOptionsAppend(ApplyOption(r, a[0], re), a[1..], b, re);
    }
  }

  /** A `<key>=<value>` token sets the field its key names. */
  lemma KeyToken(b: Rule, key: string, v: string, re: RegexEngine, present: bool)
    requires '=' !in key
    ensures ApplyOptions(b, Opt(present, key, v), re) == if present then SetOption(b, KeyOf(key), v, re) else b
  {
    if present {
      assert key + "=" + v == key + ['='] + v;
      CutKeyValue(key, '=', v);
      assert [key + "=" + v][1..] == [];
    }
  }

  lemma KeyNames()
    ensures KeyOf("exact") == ExactKey && KeyOf("prefix") == PrefixKey && KeyOf("regex") == RegexKey
    ensures KeyOf("methods") == MethodsKey && KeyOf("ttl") == TtlKey && KeyOf("vary") == VaryKey
  {
    LowerId("exact");
    LowerId("prefix");
    LowerId("regex");
    LowerId("methods");
    LowerId("ttl");
    LowerId("vary");
  }

  // ---------------------------------------------------------------------------
  // One rule line

  /** A rule `RulesetToLines` can write so that the loader reads it back: every
      value is free of whitespace (the line is split on it), method and vary
      entries carry no comma, the kind is not mistaken for a comment, the line
      has at least one option, a regex compiles and the TTL fits Go's `int`. */
  predicate Serializable(r: Rule, re: RegexEngine) {
    && r.kind != "" && NoSpace(r.kind) && r.kind[0] != '#'
    && (r.exact != "" || r.prefix != "" || r.regex.Some? || |r.methods| > 0 || r.ttl > 0 || |r.vary| > 0)
    && NoSpace(r.exact) && NoSpace(r.prefix)
    && (r.regex.Some? ==> NoSpace(r.regex.value) && re.compiles(r.regex.value))
    && (forall i :: 0 <= i < |r.methods| ==> NoSpace(r.methods[i]) && ',' !in r.methods[i])
    && r.ttl <= Numeric.MaxInt64
    && (forall i :: 0 <= i < |r.vary| ==> r.vary[i] != "" && NoSpace(r.vary[i]) && ',' !in r.vary[i])
  }

  /** A rule the validator accepts can be saved and read back, provided its
      selector has no whitespace, its TTL fits Go's `int`, and its vary
      entries are non-empty words with no comma. None of these is checked by
      the validator. */
  lemma WellFormedSerializable(r: Rule, re: RegexEngine)
    requires WellFormed(r, re)
    requires NoSpace(r.exact) && NoSpace(r.prefix)
    requires r.regex.Some? ==> NoSpace(r.regex.value)
    requires r.ttl <= Numeric.MaxInt64
    requires forall i :: 0 <= i < |r.vary| ==> r.vary[i] != "" && NoSpace(r.vary[i]) && ',' !in r.vary[i]
    ensures Serializable(r, re)
  {
    forall i | 0 <= i < |r.methods|
      ensures NoSpace(r.methods[i]) && ',' !in r.methods[i]
    {
      assert IsCacheMethod(r.methods[i]);
    }
  }

  /** `x` is what reading back `r` should give: the kind upper-cased and the
      other fields as `SameOptions` says. */
  ghost predicate Reloads(x: Rule, r: Rule) {
    x.kind == Upper(r.kind) && SameOptions(x, r)
  }

  /** The same selectors and vary list, the same set of upper-cased methods,
      and the same TTL, which falls back to the loader's default when it was not
      positive (a `ttl=` is only written for a positive TTL). */
  ghost predicate SameOptions(x: Rule, r: Rule) {
    && x.exact == r.exact && x.prefix == r.prefix && x.regex == r.regex && x.vary == r.vary
    && (forall m :: m in x.methods <==> m in UpperAll(r.methods))
    && x.ttl == (if r.ttl > 0 then r.ttl else DefaultTTL)
  }

  lemma SortedMethodsShape(r: Rule)
    requires forall i :: 0 <= i < |r.methods| ==> NoSpace(r.methods[i]) && ',' !in r.methods[i]
    ensures forall m :: m in SortedMethods(r) <==> m in UpperAll(r.methods)
    ensures forall i :: 0 <= i < |SortedMethods(r)| ==>
      NoSpace(SortedMethods(r)[i]) && ',' !in SortedMethods(r)[i] && Upper(SortedMethods(r)[i]) == SortedMethods(r)[i]
  {
    var u := UpperAll(r.methods);
    var s := SortedMethods(r);
    assert forall m :: m in s <==> m in u by {
      forall m ensures m in s <==> m in u {
        assert m in s <==> m in multiset(s);
        assert m in u <==> m in multiset(u);
      }
    }
    forall i | 0 <= i < |s|
      ensures NoSpace(s[i]) && ',' !in s[i] && Upper(s[i]) == s[i]
    {
      assert s[i] in u;
      var j :| 0 <= j < |u| && u[j] == s[i];
      UpperKeepsSpaces(r.methods[j]);
      UpperIdempotent(r.methods[j]);
    }
  }

  /** Reading back a `methods=` value gives the set it was written from. */
  lemma MethodsReparse(r: Rule)
    requires |r.methods| > 0
    requires forall i :: 0 <= i < |r.methods| ==> NoSpace(r.methods[i]) && ',' !in r.methods[i]
    ensures forall m :: m in ReadMethods(r) <==> m in UpperAll(r.methods)
  {
    var s := SortedMethods(r);
    SortedMethodsShape(r);
    SplitOfJoin(s, ',');
    assert PieceKeys(s) == s by {
      forall i | 0 <= i < |s| ensures PieceKeys(s)[i] == s[i] {
        NoSpaceTrimmed(s[i]);
      }
    }
  }

  lemma TtlReparse(t: int)
    requires 0 < t <= Numeric.MaxInt64
    ensures Numeric.Atoi(Numeric.IntToDecimal(t)) == Some(t)
    ensures NoSpace(Numeric.IntToDecimal(t))
  {
    Numeric.AtoiOfItoa(t);
  }

  predicate Words(ps: seq<string>) {
    forall i :: 0 <= i < |ps| ==> ps[i] != "" && NoSpace(ps[i])
  }

  lemma WordsAppend(a: seq<string>, b: seq<string>)
    requires Words(a) && Words(b)
    ensures Words(a + b)
  {
    assert forall i :: |a| <= i < |a + b| ==> (a + b)[i] == b[i - |a|];
  }

  lemma Words6(e: seq<string>, p: seq<string>, x: seq<string>, m: seq<string>, t: seq<string>, v: seq<string>)
    requires Words(e) && Words(p) && Words(x) && Words(m) && Words(t) && Words(v)
    ensures Words(e + p + x + m + t + v)
  {
    WordsAppend(e, p);
    WordsAppend(e + p, x);
    WordsAppend(e + p + x, m);
    WordsAppend(e + p + x + m, t);
    WordsAppend(e + p + x + m + t, v);
  }

  /** An option token `<key>=<value>` with a whitespace-free value is a word. */
  lemma OptWord(present: bool, key: string, v: string)
    requires key != "" && NoSpace(key)
    requires present ==> NoSpace(v)
    ensures Words(Opt(present, key, v))
  {
    if present {
      NoSpaceConcat(key, "=");
      NoSpaceConcat(key + "=", v);
    }
  }

  lemma MethodsWord(r: Rule)
    requires forall i :: 0 <= i < |r.methods| ==> NoSpace(r.methods[i]) && ',' !in r.methods[i]
    ensures Words(MethodsOpt(r))
  {
    if |r.methods| > 0 {
      SortedMethodsShape(r);
      JoinNoSpace(SortedMethods(r), ",");
    }
    OptWord(|r.methods| > 0, "methods", Join(SortedMethods(r), ","));
  }

  lemma TtlWord(r: Rule)
    requires r.ttl <= Numeric.MaxInt64
    ensures Words(TtlOpt(r))
  {
    if r.ttl > 0 {
      TtlReparse(r.ttl);
    }
    OptWord(r.ttl > 0, "ttl", Numeric.IntToDecimal(r.ttl));
  }

  lemma VaryWord(r: Rule)
    requires forall i :: 0 <= i < |r.vary| ==> NoSpace(r.vary[i])
    ensures Words(VaryOpt(r))
  {
    if |r.vary| > 0 {
      JoinNoSpace(r.vary, ",");
    }
    OptWord(|r.vary| > 0, "vary", Join(r.vary, ","));
  }

  lemma OptsAreWords(r: Rule, re: RegexEngine)
    requires Serializable(r, re)
    ensures Words(LineOptions(r))
    ensures |LineOptions(r)| >= 1
  {
    OptWord(r.exact != "", "exact", r.exact);
    OptWord(r.prefix != "", "prefix", r.prefix);
    OptWord(r.regex.Some?, "regex", r.regex.GetOr(""));
    MethodsWord(r);
    TtlWord(r);
    VaryWord(r);
    Words6(ExactOpt(r), PrefixOpt(r), RegexOpt(r), MethodsOpt(r), TtlOpt(r), VaryOpt(r));
  }

  /** The words of a serializable rule's line are non-empty and free of whitespace. */
  lemma PartsAreWords(r: Rule, re: RegexEngine)
    requires Serializable(r, re)
    ensures |RuleParts(r)| >= 2
    ensures Words(RuleParts(r))
  {
    UpperKeepsSpaces(r.kind);
    OptsAreWords(r, re);
    WordsAppend([Upper(r.kind)], LineOptions(r));
  }

  lemma StepExact(b: Rule, r: Rule, re: RegexEngine)
    ensures ApplyOptions(b, ExactOpt(r), re) == if r.exact != "" then b.(exact := r.exact) else b
  {
    KeyNames();
    KeyToken(b, "exact", r.exact, re, r.exact != "");
  }

  lemma StepPrefix(b: Rule, r: Rule, re: RegexEngine)
    ensures ApplyOptions(b, PrefixOpt(r), re) == if r.prefix != "" then b.(prefix := r.prefix) else b
  {
    KeyNames();
    KeyToken(b, "prefix", r.prefix, re, r.prefix != "");
  }

  lemma StepRegex(b: Rule, r: Rule, re: RegexEngine)
    requires r.regex.Some? ==> re.compiles(r.regex.value)
    ensures ApplyOptions(b, RegexOpt(r), re) == if r.regex.Some? then b.(regex := r.regex) else b
  {
    KeyNames();
    KeyToken(b, "regex", r.regex.GetOr(""), re, r.regex.Some?);
  }

  /** The methods a `methods=` token of `r` is read back as. */
  function ReadMethods(r: Rule): seq<string> {
    MethodKeys(Split(Join(SortedMethods(r), ","), ','))
  }

  lemma StepMethods(b: Rule, r: Rule, re: RegexEngine)
    ensures ApplyOptions(b, MethodsOpt(r), re) == if |r.methods| > 0 then b.(methods := ReadMethods(r)) else b
  {
    KeyNames();
    KeyToken(b, "methods", Join(SortedMethods(r), ","), re, |r.methods| > 0);
  }

  lemma StepTtl(b: Rule, r: Rule, re: RegexEngine)
    requires r.ttl <= Numeric.MaxInt64
    ensures ApplyOptions(b, TtlOpt(r), re) == if r.ttl > 0 then b.(ttl := r.ttl) else b
  {
    KeyNames();
    KeyToken(b, "ttl", Numeric.IntToDecimal(r.ttl), re, r.ttl > 0);
    if r.ttl > 0 {
      TtlReparse(r.ttl);
    }
  }

  lemma StepVary(b: Rule, r: Rule, re: RegexEngine)
    ensures ApplyOptions(b, VaryOpt(r), re) == if |r.vary| > 0 then b.(vary := SplitTrim(Join(r.vary, ","))) else b
  {
    KeyNames();
    KeyToken(b, "vary", Join(r.vary, ","), re, |r.vary| > 0);
  }

  /** Reading back a `vary=` value gives the list it was written from. */
  lemma VaryReparse(vs: seq<string>)
    requires |vs| > 0
    requires forall i :: 0 <= i < |vs| ==> vs[i] != "" && NoSpace(vs[i]) && ',' !in vs[i]
    ensures SplitTrim(Join(vs, ",")) == vs
  {
    forall i | 0 <= i < |vs| ensures Trimmed(vs[i]) {
      NoSpaceTrimmed(vs[i]);
    }
    SplitTrimOfJoin(vs);
  }

  lemma Chain(b: Rule, e: seq<string>, p: seq<string>, x: seq<string>, m: seq<string>, t: seq<string>, v: seq<string>, re: RegexEngine)
    ensures ApplyOptions(b, e + p + x + m + t + v, re) ==
      ApplyOptions(ApplyOptions(ApplyOptions(ApplyOptions(ApplyOptions(ApplyOptions(
        b, e, re), p, re), x, re), m, re), t, re), v, re)
  {
    ApplyOptionsAppend(b, e + p + x + m + t, v, re);
    ApplyOptionsAppend(b, e + p + x + m, t, re);
    ApplyOptionsAppend(b, e + p + x, m, re);
    ApplyOptionsAppend(b, e + p, x, re);
    ApplyOptionsAppend(b, e, p, re);
  }

  /** The options of a serializable rule's line rebuild its fields. */
  lemma OptionsReparse(r: Rule, k: string, re: RegexEngine)
    requires Serializable(r, re)
    ensures ApplyOptions(BaseRule(k), LineOptions(r), re).kind == k
    ensures SameOptions(ApplyOptions(BaseRule(k), LineOptions(r), re), r)
  {
    var b0 := BaseRule(k);
    Chain(b0, ExactOpt(r), PrefixOpt(r), RegexOpt(r), MethodsOpt(r), TtlOpt(r), VaryOpt(r), re);
    StepExact(b0, r, re);
    var b1 := b0.(exact := r.exact);
    StepPrefix(b1, r, re);
    var b2 := b1.(prefix := r.prefix);
    StepRegex(b2, r, re);
    var b3 := b2.(regex := r.regex);
    StepMethods(b3, r, re);
    var b4 := b3.(methods := if |r.methods| > 0 then ReadMethods(r) else []);
    StepTtl(b4, r, re);
    var b5 := b4.(ttl := if r.ttl > 0 then r.ttl else DefaultTTL);
    StepVary(b5, r, re);
    if |r.methods| > 0 {
      MethodsReparse(r);
    }
    if |r.vary| > 0 {
      VaryReparse(r.vary);
    }
  }

  /** A line of at least two whitespace-free words, not starting with `#`,
      parses to the rule its options build from its first word. */
  lemma ParseLineOfWords(ps: seq<string>, re: RegexEngine)
    requires |ps| >= 2 && Words(ps) && ps[0][0] != '#'
    ensures ParseLine(Join(ps, " "), re) == Some(ApplyOptions(BaseRule(Upper(ps[0])), ps[1..], re))
    ensures '\n' !in Join(ps, " ") && DropCR(Join(ps, " ")) == Join(ps, " ")
  {
    var line := Join(ps, " ");
    JoinEnds(ps, " ");
    TrimSpaceId(line);
    FieldsOfJoin(ps);
    assert !HasPrefix(line, "#");
    forall i | 0 <= i < |ps| ensures '\n' !in ps[i] {
      assert forall j :: 0 <= j < |ps[i]| ==> ps[i][j] != '\n';
    }
    JoinAvoids(ps, " ", '\n');
  }

  /** A serializable rule's line is read back as the rule, and it is a single
      line the scanner hands over unchanged. */
  lemma RuleLineRoundTrip(r: Rule, re: RegexEngine)
    requires Serializable(r, re)
    ensures ParseLine(RuleLine(r), re).Some?
    ensures Reloads(ParseLine(RuleLine(r), re).value, r)
    ensures '\n' !in RuleLine(r) && DropCR(RuleLine(r)) == RuleLine(r)
  {
    var ps := RuleParts(r);
    PartsAreWords(r, re);
    assert ps[0][0] == UpperChar(r.kind[0]);
    ParseLineOfWords(ps, re);
    UpperIdempotent(r.kind);
    OptionsReparse(r, Upper(r.kind), re);
  }

  lemma ParseLinesCons(l: string, ls: seq<string>, re: RegexEngine)
    requires ParseLine(l, re).Some?
    ensures ParseLines([l] + ls, re) == [ParseLine(l, re).value] + ParseLines(ls, re)
  {
    assert ([l] + ls)[0] == l;
    assert ([l] + ls)[1..] == ls;
  }

  lemma LinesCons(rules: seq<Rule>)
    requires |rules| > 0
    ensures RulesetToLines(rules) == [RuleLine(rules[0])] + RulesetToLines(rules[1..])
  {
  }

  lemma ReloadsCons(out: seq<Rule>, first: Rule, tail: seq<Rule>, rules: seq<Rule>)
    requires |rules| > 0 && out == [first] + tail && |tail| == |rules| - 1
    requires Reloads(first, rules[0])
    requires forall i :: 0 <= i < |tail| ==> Reloads(tail[i], rules[1..][i])
    ensures forall i :: 0 <= i < |rules| ==> Reloads(out[i], rules[i])
  {
    forall i | 1 <= i < |rules|
      ensures Reloads(out[i], rules[i])
    {
      assert out[i] == tail[i - 1];
      assert rules[i] == rules[1..][i - 1];
    }
  }

  /** Every line of a written ruleset is read back as its rule, in order. */
  lemma {:induction false} LinesRoundTrip(rules: seq<Rule>, re: RegexEngine)
    requires forall i :: 0 <= i < |rules| ==> Serializable(rules[i], re)
    ensures |ParseLines(RulesetToLines(rules), re)| == |rules|
    ensures forall i :: 0 <= i < |rules| ==> Reloads(ParseLines(RulesetToLines(rules), re)[i], rules[i])
    decreases |rules|
  {
    if |rules| > 0 {
      RuleLineRoundTrip(rules[0], re);
      LinesRoundTrip(rules[1..], re);
      LinesCons(rules);
      ParseLinesCons(RuleLine(rules[0]), RulesetToLines(rules[1..]), re);
      ReloadsCons(ParseLines(RulesetToLines(rules), re), ParseLine(RuleLine(rules[0]), re).value,
        ParseLines(RulesetToLines(rules[1..]), re), rules);
    }
  }

  /** The written lines are single lines the scanner hands over unchanged. */
  lemma LinesAreSingle(rules: seq<Rule>, re: RegexEngine)
    requires forall i :: 0 <= i < |rules| ==> Serializable(rules[i], re)
    ensures forall i :: 0 <= i < |rules| ==>
      '\n' !in RulesetToLines(rules)[i] && DropCR(RulesetToLines(rules)[i]) == RulesetToLines(rules)[i]
  {
    forall i | 0 <= i < |rules|
      ensures '\n' !in RulesetToLines(rules)[i] && DropCR(RulesetToLines(rules)[i]) == RulesetToLines(rules)[i]
    {
      RuleLineRoundTrip(rules[i], re);
    }
  }

  // ---------------------------------------------------------------------------
  // The list view

  lemma CacheMethodWords()
    ensures MethodKey("GET") == "GET" && MethodKey("HEAD") == "HEAD"
    ensures Upper("GET") == "GET" && Upper("HEAD") == "HEAD"
  {
    MethodWord("GET");
    MethodWord("HEAD");
  }

  lemma MethodWord(m: string)
    requires NoSpace(m) && NoLowerAscii(m)
    ensures Upper(m) == m && MethodKey(m) == m
  {
    NoSpaceTrimmed(m);
    UpperId(m);
  }

  /** The methods shown for a rule that keeps only GET and HEAD are their own
      keys, and they are the rule's methods (or GET and HEAD for none). */
  lemma ShownCacheMethods(ms: seq<string>)
    requires forall x :: x in ms ==> IsCacheMethod(x)
    ensures |ShownMethods(ms)| > 0
    ensures forall i :: 0 <= i < |ShownMethods(ms)| ==>
      MethodKey(ShownMethods(ms)[i]) == ShownMethods(ms)[i] && IsCacheMethod(ShownMethods(ms)[i])
    ensures forall x :: x in ShownMethods(ms) <==> if |ms| > 0 then x in ms else IsCacheMethod(x)
  {
    CacheMethodWords();
    if |ms| > 0 {
      SameShown(ms);
      var s := ShownMethods(ms);
      forall i | 0 <= i < |s|
        ensures MethodKey(s[i]) == s[i] && IsCacheMethod(s[i])
      {
        assert s[i] in s;
      }
    }
  }

  lemma SameShown(ms: seq<string>)
    requires |ms| > 0
    requires forall x :: x in ms ==> IsCacheMethod(x)
    ensures forall x :: x in ShownMethods(ms) <==> x in ms
  {
    CacheMethodWords();
    var u := UpperAll(ms);
    forall i | 0 <= i < |u| ensures u[i] == ms[i] {
      assert ms[i] in ms;
    }
    assert u == ms;
    var s := ShownMethods(ms);
    assert multiset(s) == multiset(ms);
    forall x ensures x in s <==> x in ms {
      assert x in s <==> x in multiset(s);
      assert x in ms <==> x in multiset(ms);
    }
  }

  /** Submitting keys that are already trimmed, upper-case cache methods keeps
      exactly those methods. */
  lemma DTOMethodsOfKeys(s: seq<string>)
    requires |s| > 0
    requires forall i :: 0 <= i < |s| ==> MethodKey(s[i]) == s[i] && IsCacheMethod(s[i])
    ensures forall i :: 0 <= i < |s| ==> MethodKey(s[i]) == "" || IsCacheMethod(MethodKey(s[i]))
    ensures forall x :: x in DTOMethods(s) <==> x in s
  {
    assert PieceKeys(s) == s;
  }

  /** The selector shown for a validated rule is a valid one and gives back the
      rule's selector fields. */
  lemma SelectorRoundTrip(r: Rule, d: RuleDTO, re: RegexEngine)
    requires WellFormed(r, re)
    requires d.selector == SelectorOf(r)
    ensures IsSelectorKey(KeyOf(d.selector.typ)) && d.selector.value != ""
    ensures KeyOf(d.selector.typ) == RegexKey ==> re.compiles(d.selector.value)
    ensures RuleFromDTO(d, re).exact == r.exact
    ensures RuleFromDTO(d, re).prefix == r.prefix
    ensures RuleFromDTO(d, re).regex == r.regex
  {
    if r.exact != "" {
      LowerId("exact");
    } else if r.prefix != "" {
      LowerId("prefix");
    } else {
      LowerId("regex");
    }
  }

  lemma KindRoundTrip(k: string)
    requires k == "ALLOW" || k == "DENY"
    ensures Upper(Upper(k)) == k && Upper(k) == k
  {
    UpperId("ALLOW");
    UpperId("DENY");
  }

  /** A rule the validator accepted, shown through `ToDTO` and submitted again,
      validates and yields the same rule: the same kind, selector, TTL and vary
      list, and the same methods, where an empty method set comes back as GET
      and HEAD. */
  lemma DTORoundTrip(r: Rule, re: RegexEngine)
    requires WellFormed(r, re)
    ensures ValidDTO(RuleToDTO(r), re)
    ensures var x := RuleFromDTO(RuleToDTO(r), re);
      && x.kind == r.kind && x.exact == r.exact && x.prefix == r.prefix && x.regex == r.regex
      && x.ttl == r.ttl && x.vary == r.vary
      && (|r.methods| > 0 ==> forall m :: m in x.methods <==> m in r.methods)
      && (|r.methods| == 0 ==> forall m :: m in x.methods <==> IsCacheMethod(m))
  {
    var d := RuleToDTO(r);
    KindRoundTrip(r.kind);
    SelectorRoundTrip(r, d, re);
    ShownCacheMethods(r.methods);
    DTOMethodsOfKeys(d.methods);
  }
}

=== FILE: cache_rules_handler.dfy ===
/** The cache-rule editor's HTTP handlers (handler/cache_rules.go): GET shows
    the file with its entity tag and the current rules, Validate checks a
    submission, and PUT writes it when the client's `If-Match` still names the
    file on disk. The file system, the JSON decoder and the write are inputs:
    `file` is the text read from disk (empty when it cannot be read), `body` is
    the decoded request or the decoder's error, and `writeError` says whether
    the atomic write fails. */
module CacheRulesHandler {
  import opened Wrappers
  import opened Text
  import opened ETag
  import opened CacheLoader
  import opened CacheSerialize
  import opened CacheRoundTrip

  /** The PUT and validate request body. */
  datatype PutBody = PutBody(rawMode: bool, raw: string, rules: seq<RuleDTO>)

  /** The GET answer. `rules` is `None` (JSON `null`) while no ruleset is loaded. */
  datatype RulesView = RulesView(etag: string, raw: string, rules: Option<seq<RuleDTO>>)

  datatype ValidateOutcome =
    | ValidateBadRequest(error: string)
    | Checked(ok: bool, messages: seq<string>)

  datatype PutOutcome =
    | Conflict(currentETag: string)
    | BadRequest(error: string)
    | Unprocessable(messages: seq<string>)
    | WriteFailed(error: string)
    | Saved(written: string, etag: string)
  {
    /** Whether the handler reached the write. */
    predicate Writes() {
      this.WriteFailed? || this.Saved?
    }
  }

  /** The comment block every structured save starts with. */
  const Header: seq<string> := [HeaderTitle, HeaderOrder, HeaderSyntax, ""]

  const HeaderTitle: string := "# cache.conf - Mamotama Cache Rules"
  const HeaderOrder: string := "# Top-down evaluation; first match wins."
  const HeaderSyntax: string :=
    SyntaxKinds + SyntaxSelectors + SyntaxOptions + SyntaxVary
  const SyntaxKinds: string := "# Syntax: ALLOW|DENY "
  const SyntaxSelectors: string := "prefix=...|regex=...|exact=... "
  const SyntaxOptions: string := "methods=GET,HEAD ttl=<sec> "
  const SyntaxVary: string := "vary=Header,Header"

  /** One message per validation error, in order. */
  function Messages(errs: seq<RuleError>): (ms: seq<string>)
    ensures |ms| == |errs|
    ensures forall k :: 0 <= k < |errs| ==> ms[k] == Message(errs[k])
  {
    seq(|errs|, k requires 0 <= k < |errs| => Message(errs[k]))
  }

  /** The file a structured save writes: the header, one line per rule, joined
      with newlines and ending in one. */
  function RenderFile(rules: seq<Rule>): (f: string)
    ensures HasSuffix(f, "\n")
  {
    var f := Join(Header + RulesetToLines(rules), "\n") + "\n";
    assert f[|f| - 1..] == "\n";
    f
  }

  /** `GetCacheRules`. */
  function Get(hash: Hasher, file: string, current: Option<seq<Rule>>): (v: RulesView)
    ensures v.raw == file && v.etag == ComputeETag(hash, file)
    ensures current.None? <==> v.rules.None?
    ensures current.Some? ==> |v.rules.value| == |current.value|
  {
    RulesView(ComputeETag(hash, file), file, match current case Some(rs) => Some(ToDTO(rs)) case None => None)
  }

  /** `ValidateCacheRules`. Raw text is always accepted: the loader reports no
      error of its own. */
  function Validate(body: Result<PutBody, string>, re: RegexEngine): (o: ValidateOutcome)
    ensures body.Failure? <==> o.ValidateBadRequest?
    ensures o.Checked? ==> (o.ok <==> o.messages == [])
    ensures o.Checked? && body.value.rawMode ==> o.ok
  {
    match body
    case Failure(e) => ValidateBadRequest(e)
    case Success(b) =>
      if b.rawMode then Checked(true, [])
      else match FromDTO(b.rules, re)
        case Failure(errs) => Checked(false, Messages(errs))
        case Success(_) => Checked(true, [])
  }

  /** `PutCacheRules`: the precondition, then the body, then validation, then
      the write. */
  function Put(hash: Hasher, ifMatch: string, file: string, body: Result<PutBody, string>,
               writeError: Option<string>, re: RegexEngine): (o: PutOutcome)
    ensures o.Conflict? <==> ifMatch != "" && ifMatch != ComputeETag(hash, file)
    ensures o.Conflict? ==> o.currentETag == ComputeETag(hash, file)
    ensures o.BadRequest? <==> !o.Conflict? && body.Failure?
    ensures o.Saved? ==> o.etag == ComputeETag(hash, o.written)
  {
    var cur := ComputeETag(hash, file);
    if ifMatch != "" && ifMatch != cur then Conflict(cur)
    else match body
      case Failure(e) => BadRequest(e)
      case Success(b) =>
        match Output(b, re)
        case Failure(msgs) => Unprocessable(msgs)
        case Success(out) =>
          match writeError
          case Some(e) => WriteFailed(e)
          case None => Saved(out, ComputeETag(hash, out))
  }

  /** The bytes a valid submission turns into, or the messages of an invalid
      one. */
  function Output(b: PutBody, re: RegexEngine): (r: Result<string, seq<string>>)
    ensures b.rawMode ==> r == Success(b.raw)
    ensures !b.rawMode ==> (r.Success? <==> forall i :: 0 <= i < |b.rules| ==> ValidDTO(b.rules[i], re))
    ensures r.Failure? ==> |r.error| > 0
  {
    if b.rawMode then Success(b.raw)
    else match FromDTO(b.rules, re)
      case Failure(errs) => Failure(Messages(errs))
      case Success(rs) => Success(RenderFile(rs))
  }

  // ---------------------------------------------------------------------------
  // Properties

  /** Only a matching or absent `If-Match` reaches the write, and nothing is
      written for a malformed or invalid submission. */
  lemma PutWritesOnlyValid(hash: Hasher, ifMatch: string, file: string, body: Result<PutBody, string>,
                           writeError: Option<string>, re: RegexEngine)
    ensures Put(hash, ifMatch, file, body, writeError, re).Writes() ==>
      && (ifMatch == "" || ifMatch == ComputeETag(hash, file))
      && body.Success?
      && (body.value.rawMode || forall i :: 0 <= i < |body.value.rules| ==> ValidDTO(body.value.rules[i], re))
  {
  }

  /** A raw-mode save writes the submitted text unchanged. */
  lemma PutRawVerbatim(hash: Hasher, ifMatch: string, file: string, b: PutBody, re: RegexEngine)
    requires b.rawMode
    requires ifMatch == "" || ifMatch == ComputeETag(hash, file)
    ensures Put(hash, ifMatch, file, Success(b), None, re) == Saved(b.raw, ComputeETag(hash, b.raw))
  {
  }

  /** A structured submission with an invalid rule is answered with one message
      per error, each naming the invalid rule it is about. */
  lemma PutRejectsInvalid(hash: Hasher, ifMatch: string, file: string, b: PutBody,
                          writeError: Option<string>, re: RegexEngine)
    requires !b.rawMode
    requires ifMatch == "" || ifMatch == ComputeETag(hash, file)
    requires exists i :: 0 <= i < |b.rules| && !ValidDTO(b.rules[i], re)
    ensures Put(hash, ifMatch, file, Success(b), writeError, re).Unprocessable?
    ensures Put(hash, ifMatch, file, Success(b), writeError, re).messages ==
      Messages(FromDTO(b.rules, re).error)
  {
  }

  /** A structured save writes the header and the rule lines. */
  lemma PutStructuredOutput(hash: Hasher, ifMatch: string, file: string, b: PutBody, re: RegexEngine)
    requires !b.rawMode
    requires ifMatch == "" || ifMatch == ComputeETag(hash, file)
    requires forall i :: 0 <= i < |b.rules| ==> ValidDTO(b.rules[i], re)
    ensures Put(hash, ifMatch, file, Success(b), None, re) ==
      Saved(RenderFile(FromDTO(b.rules, re).value), ComputeETag(hash, RenderFile(FromDTO(b.rules, re).value)))
  {
  }

  /** The tag a save returns is the one a following GET shows for the file it
      wrote. */
  lemma PutThenGet(hash: Hasher, ifMatch: string, file: string, body: Result<PutBody, string>,
                   re: RegexEngine, current: Option<seq<Rule>>)
    requires Put(hash, ifMatch, file, body, None, re).Saved?
    ensures Get(hash, Put(hash, ifMatch, file, body, None, re).written, current).etag ==
      Put(hash, ifMatch, file, body, None, re).etag
  {
  }

  /** Validate accepts exactly what PUT would write, with the same messages,
      whatever the `If-Match` and the file on disk. */
  lemma ValidateAgreesWithPut(hash: Hasher, file: string, body: Result<PutBody, string>, re: RegexEngine)
    ensures Validate(body, re).ValidateBadRequest? <==> Put(hash, "", file, body, None, re).BadRequest?
    ensures Validate(body, re).Checked? ==>
      (Validate(body, re).ok <==> Put(hash, "", file, body, None, re).Saved?)
    ensures Validate(body, re).Checked? && !Validate(body, re).ok ==>
      Put(hash, "", file, body, None, re) == Unprocessable(Validate(body, re).messages)
  {
  }

  // ---------------------------------------------------------------------------
  // The saved file reads back

  /** A single `#` line that does not end in whitespace. */
  predicate CommentText(l: string) {
    |l| > 0 && l[0] == '#' && !IsSpace(l[|l| - 1]) && '\n' !in l
  }

  /** A comment line yields no rule, and the scanner hands it over unchanged. */
  lemma CommentLine(l: string, re: RegexEngine)
    requires CommentText(l)
    ensures ParseLine(l, re).None?
    ensures '\n' !in l && DropCR(l) == l
  {
    TrimSpaceId(l);
    assert l[..1] == "#";
  }

  lemma TitleIsComment()
    ensures CommentText(HeaderTitle)
  {
  }

  lemma OrderIsComment()
    ensures CommentText(HeaderOrder)
  {
  }

  lemma SyntaxIsComment()
    ensures CommentText(HeaderSyntax)
  {
    SyntaxChunks();
    var a := SyntaxKinds + SyntaxSelectors;
    var b := a + SyntaxOptions;
    NoNewlineConcat(SyntaxKinds, SyntaxSelectors);
    NoNewlineConcat(a, SyntaxOptions);
    NoNewlineConcat(b, SyntaxVary);
    assert HeaderSyntax == b + SyntaxVary;
    assert HeaderSyntax[0] == SyntaxKinds[0];
    assert HeaderSyntax[|HeaderSyntax| - 1] == SyntaxVary[|SyntaxVary| - 1];
  }

  lemma SyntaxChunks()
    ensures '\n' !in SyntaxKinds && '\n' !in SyntaxSelectors
    ensures '\n' !in SyntaxOptions && '\n' !in SyntaxVary
    ensures SyntaxKinds[0] == '#' && SyntaxVary[|SyntaxVary| - 1] == 'r'
  {
    NoNewline(SyntaxKinds);
    NoNewline(SyntaxSelectors);
    NoNewline(SyntaxOptions);
    NoNewline(SyntaxVary);
  }

  lemma NoNewline(l: string)
    requires l in [SyntaxKinds, SyntaxSelectors, SyntaxOptions, SyntaxVary]
    ensures '\n' !in l
  {
  }

  lemma NoNewlineConcat(a: string, b: string)
    requires '\n' !in a && '\n' !in b
    ensures '\n' !in a + b
  {
  }

  /** Comment lines and blank lines only. */
  predicate CommentsOnly(ls: seq<string>) {
    forall i :: 0 <= i < |ls| ==> ls[i] == "" || CommentText(ls[i])
  }

  lemma HeaderIsComments()
    ensures CommentsOnly(Header)
  {
    TitleIsComment();
    OrderIsComment();
    SyntaxIsComment();
  }

  /** Comment and blank lines yield no rule, and each is a single line. */
  lemma CommentsYieldNothing(ls: seq<string>, re: RegexEngine)
    requires CommentsOnly(ls)
    ensures ParseLines(ls, re) == []
    ensures forall i :: 0 <= i < |ls| ==> '\n' !in ls[i] && DropCR(ls[i]) == ls[i]
  {
    forall i | 0 <= i < |ls|
      ensures ParseLine(ls[i], re).None? && '\n' !in ls[i] && DropCR(ls[i]) == ls[i]
    {
      if ls[i] == "" {
        assert TrimSpace(ls[i]) == "";
      } else {
        CommentLine(ls[i], re);
      }
    }
    NoRuleLines(ls, re);
  }

  /** The lines of a written file are the header and the rule lines. */
  lemma RenderFileLines(rules: seq<Rule>, re: RegexEngine)
    requires forall i :: 0 <= i < |rules| ==> Serializable(rules[i], re)
    ensures ScanLines(RenderFile(rules)) == Header + RulesetToLines(rules)
  {
    var ls := Header + RulesetToLines(rules);
    HeaderIsComments();
    CommentsYieldNothing(Header, re);
    LinesAreSingle(rules, re);
    forall i | 0 <= i < |ls| ensures '\n' !in ls[i] && DropCR(ls[i]) == ls[i] {
      if i >= |Header| {
        assert ls[i] == RulesetToLines(rules)[i - |Header|];
      }
    }
    JoinTerminated(ls);
    ScanLinesOfTerminated(ls);
  }

  /** A structured save of serializable rules is read back by the loader as
      those rules, one per rule and in order. */
  lemma SavedFileReloads(rules: seq<Rule>, re: RegexEngine)
    requires forall i :: 0 <= i < |rules| ==> Serializable(rules[i], re)
    ensures |LoadFromString(RenderFile(rules), re)| == |rules|
    ensures forall i :: 0 <= i < |rules| ==> Reloads(LoadFromString(RenderFile(rules), re)[i], rules[i])
  {
    RenderFileLines(rules, re);
    HeaderIsComments();
    CommentsYieldNothing(Header, re);
    ParseLinesAppend(Header, RulesetToLines(rules), re);
    LinesRoundTrip(rules, re);
    assert LoadFromString(RenderFile(rules), re) == ParseLines(RulesetToLines(rules), re);
  }
}

=== FILE: cache_rules_panel.dfy ===
/** The cache-rule editor page (web/mamotama-admin/src/pages/CacheRulesPanel.tsx):
    the rule table's edits, how the comma-list and TTL inputs read what is
    typed, the body and `If-Match` a save sends, and how replies change the
    page. Replies are inputs; `ReplyOf` says which reply each outcome of the
    handler produces. */
module CacheRulesPanel {
  import opened Wrappers
  import opened Text
  import opened Numeric
  import opened ETag
  import opened CacheLoader
  import opened CacheSerialize
  import opened CacheRulesHandler
  import opened ApiClient

  /** The page's state. */
  datatype Panel = Panel(rules: seq<RuleDTO>, raw: string, rawMode: bool, etag: string,
                         loading: bool, msgs: seq<string>)

  // ---------------------------------------------------------------------------
  // Editing the table

  /** `update`: row `i` replaced, every other row kept; no change when there
      is no row `i`. */
  function Update(rules: seq<RuleDTO>, i: int, v: RuleDTO): (r: seq<RuleDTO>)
    ensures |r| == |rules|
    ensures forall j :: 0 <= j < |r| ==> r[j] == (if j == i then v else rules[j])
  {
    seq(|rules|, j requires 0 <= j < |rules| => if j == i then v else rules[j])
  }

  /** `remove`: row `i` dropped, the others kept in order; no change when
      there is no row `i`. */
  function Remove(rules: seq<RuleDTO>, i: int): (r: seq<RuleDTO>)
    ensures 0 <= i < |rules| ==> |r| == |rules| - 1
    ensures 0 <= i < |rules| ==> forall j :: 0 <= j < |r| ==> r[j] == (if j < i then rules[j] else rules[j + 1])
    ensures !(0 <= i < |rules|) ==> r == rules
  {
    if 0 <= i < |rules| then rules[..i] + rules[i + 1..] else rules
  }

  /** The rule "add rule" appends: cache GET and HEAD under every path for the
      loader's default TTL, varying on `Accept-Encoding`. */
  const NewRule: RuleDTO :=
    RuleDTO("ALLOW", MatchDTO("prefix", "/"), ["GET", "HEAD"], DefaultTTL, ["Accept-Encoding"])

  /** `addRule`. */
  function AddRule(rules: seq<RuleDTO>): (r: seq<RuleDTO>)
    ensures |r| == |rules| + 1 && r[..|rules|] == rules && r[|rules|] == NewRule
  {
    rules + [NewRule]
  }

  /** Removing the row just added gives the table back, and rewriting a row
      with itself changes nothing. */
  lemma EditsUndo(rules: seq<RuleDTO>, i: int)
    ensures Remove(AddRule(rules), |rules|) == rules
    ensures 0 <= i < |rules| ==> Update(rules, i, rules[i]) == rules
  {
  }

  /** A new row is one the server accepts, whatever regular expressions
      compile to. */
  lemma NewRuleValid(re: RegexEngine)
    ensures ValidDTO(NewRule, re)
  {
    assert Upper("ALLOW") == "ALLOW";
    assert MethodKey("GET") == "GET" && MethodKey("HEAD") == "HEAD";
  }

  // ---------------------------------------------------------------------------
  // Inputs

  /** What the methods and vary inputs keep of what is typed: the comma
      pieces, trimmed, without the empty ones. */
  function CommaList(v: string): (r: seq<string>)
    ensures forall i :: 0 <= i < |r| ==> r[i] != "" && Trimmed(r[i])
  {
    TrimNonEmpty(Split(v, ','))
  }

  /** The page reads a list exactly as the server's `splitTrim` does. */
  lemma CommaListIsSplitTrim(v: string)
    ensures CommaList(v) == SplitTrim(v)
  {
    if v == "" {
      assert Split(v, ',') == [""];
      assert TrimSpace("") == "";
    }
  }

  /** A list shown comma-joined and read back is unchanged when its entries
      are non-empty, trimmed and comma-free, as every list the server sends
      is. */
  lemma CommaListRoundTrip(vs: seq<string>)
    requires forall i :: 0 <= i < |vs| ==> vs[i] != "" && Trimmed(vs[i]) && ',' !in vs[i]
    ensures CommaList(Join(vs, ",")) == vs
  {
    CommaListIsSplitTrim(Join(vs, ","));
    SplitTrimOfJoin(vs);
  }

  /** The TTL input: an empty input is 0, an integer is its value, and
      anything that is not a number is 0. */
  function TtlInput(v: string): (t: int)
    ensures v == "" ==> t == 0
    ensures ParseDecimal(v).Some? ==> t == ParseDecimal(v).value
    ensures ParseDecimal(v).None? ==> t == 0
  {
    match ParseDecimal(v)
    case Some(n) => n
    case None => 0
  }

  /** A TTL shown and read back is unchanged. */
  lemma TtlRoundTrip(n: int)
    ensures TtlInput(IntToDecimal(n)) == n
  {
    DecimalRoundTrip(n);
  }

  // ---------------------------------------------------------------------------
  // Requests and replies

  /** The validate and save body: the text in raw mode, the rows otherwise. */
  function Body(p: Panel): (b: PutBody)
    ensures b.rawMode == p.rawMode
    ensures p.rawMode ==> b.raw == p.raw
    ensures !p.rawMode ==> b.rules == p.rules
  {
    if p.rawMode then PutBody(true, p.raw, []) else PutBody(false, "", p.rules)
  }

  /** The JSON of a successful save: `ok` and the new tag. */
  datatype SaveReply = SaveReply(ok: bool, etag: Option<string>)

  /** The JSON of a validation: `ok` and the messages, when present. */
  datatype ValidateReply = ValidateReply(ok: bool, messages: Option<seq<string>>)

  /** The JSON of a load; a field is `None` when missing or `null`. */
  datatype LoadReply = LoadReply(etag: Option<string>, raw: Option<string>, rules: Option<seq<RuleDTO>>)

  /** What the page receives for each outcome of `PutCacheRules`: only a
      save succeeds; a conflict says "conflict", and a rejected rule set
      reaches the page as its bare status, the messages being in a failed
      reply. */
  function ReplyOf(o: PutOutcome): (r: Result<SaveReply, string>)
    ensures r.Success? <==> o.Saved?
    ensures o.Saved? ==> r.value == SaveReply(true, Some(o.etag))
    ensures o.Conflict? ==> r.error == "conflict"
    ensures o.Unprocessable? ==> r.error == "HTTP 422"
  {
    match o
    case Saved(_, tag) => Receive(200, SaveReply(true, Some(tag)), "")
    case Conflict(_) => Receive(409, SaveReply(false, None), "conflict")
    case BadRequest(e) => Receive(400, SaveReply(false, None), e)
    case Unprocessable(_) =>
      assert IntToDecimal(422) == "422";
      Receive(422, SaveReply(false, None), "")
    case WriteFailed(e) => Receive(500, SaveReply(false, None), e)
  }

  /** What the page receives for each outcome of `ValidateCacheRules`. */
  function ValidateReplyOf(o: CacheRulesHandler.ValidateOutcome): (r: Result<ValidateReply, string>)
    ensures r.Success? <==> o.Checked? && o.ok
    ensures r.Success? ==> r.value == ValidateReply(true, Some([]))
  {
    match o
    case ValidateBadRequest(e) => Receive(400, ValidateReply(false, None), e)
    case Checked(ok, ms) =>
      if ok then Receive(200, ValidateReply(true, Some([])), "")
      else Receive(422, ValidateReply(false, Some(ms)), "")
  }

  /** What the page receives for `GetCacheRules`. */
  function LoadReplyOf(v: RulesView): (r: LoadReply)
    ensures r.etag == Some(v.etag) && r.raw == Some(v.raw) && r.rules == v.rules
  {
    LoadReply(Some(v.etag), Some(v.raw), v.rules)
  }

  /** `reload`: the rows, text and tag of the reply, a missing one read as
      empty; a failure keeps them and shows its message. */
  function AfterReload(p: Panel, reply: Result<LoadReply, string>): (p': Panel)
    ensures !p'.loading && p'.rawMode == p.rawMode
    ensures reply.Success? ==>
              && p'.msgs == []
              && p'.rules == reply.value.rules.GetOr([])
              && p'.raw == reply.value.raw.GetOr("")
              && p'.etag == reply.value.etag.GetOr("")
    ensures reply.Failure? ==>
              && p'.rules == p.rules && p'.raw == p.raw && p'.etag == p.etag
              && p'.msgs == [Or(reply.error, LoadFailed)]
  {
    match reply
    case Success(js) =>
      p.(rules := js.rules.GetOr([]), raw := js.raw.GetOr(""), etag := js.etag.GetOr(""),
         loading := false, msgs := [])
    case Failure(m) => p.(loading := false, msgs := [Or(m, LoadFailed)])
  }

  const LoadFailed: string := "ロードに失敗"
  const SavedNotice: string := "保存しました。ホットリロードで即時反映されます。"

  /** `validate`: "OK", the reply's messages (or a generic one) when it is not
      ok, or the message of a failure. */
  function AfterValidate(p: Panel, reply: Result<ValidateReply, string>): (p': Panel)
    ensures p'.rules == p.rules && p'.raw == p.raw && p'.etag == p.etag
    ensures reply.Success? && reply.value.ok ==> p'.msgs == ["OK"]
    ensures reply.Success? && !reply.value.ok ==> p'.msgs == reply.value.messages.GetOr(["validation error"])
    ensures reply.Failure? ==> p'.msgs == [Or(reply.error, "validate failed")]
  {
    match reply
    case Success(js) =>
      if !js.ok then p.(msgs := js.messages.GetOr(["validation error"])) else p.(msgs := ["OK"])
    case Failure(m) => p.(msgs := [Or(m, "validate failed")])
  }

  /** `save`: on an ok reply the page takes the new tag (empty when missing);
      otherwise it keeps its tag and shows why. */
  function AfterSave(p: Panel, reply: Result<SaveReply, string>): (p': Panel)
    ensures p'.rules == p.rules && p'.raw == p.raw && p'.rawMode == p.rawMode && |p'.msgs| == 1
    ensures reply.Success? && reply.value.ok ==> p'.etag == reply.value.etag.GetOr("") && p'.msgs == [SavedNotice]
    ensures reply.Success? && !reply.value.ok ==> p'.etag == p.etag && p'.msgs == ["save failed"]
    ensures reply.Failure? ==> p'.etag == p.etag && p'.msgs == [Or(reply.error, "save failed")]
  {
    match reply
    case Success(js) =>
      if !js.ok then p.(msgs := ["save failed"])
      else p.(etag := js.etag.GetOr(""), msgs := [SavedNotice])
    case Failure(m) => p.(msgs := [Or(m, "save failed")])
  }

  // ---------------------------------------------------------------------------
  // Against the handler

  /** A save round trip. The page always sends its tag as `If-Match`, so the
      save is refused exactly when it holds a tag that no longer names the
      file (never when it has none). A success leaves the page holding the
      tag a following GET shows, so a second save is not refused; anything
      else leaves the page's tag alone. */
  lemma SaveCycle(hash: Hasher, file: string, p: Panel, writeError: Option<string>, re: RegexEngine,
                  current: Option<seq<Rule>>)
    ensures var o := Put(hash, p.etag, file, Success(Body(p)), writeError, re);
            var p' := AfterSave(p, ReplyOf(o));
            && (o.Conflict? <==> p.etag != "" && p.etag != ComputeETag(hash, file))
            && (o.Saved? ==> p'.etag == Get(hash, o.written, current).etag &&
                             !Put(hash, p'.etag, o.written, Success(Body(p')), writeError, re).Conflict?)
            && (o.Saved? && p.rawMode ==> o.written == p.raw)
            && (!o.Saved? ==> p'.etag == p.etag)
  {
  }

  /** A page freshly loaded from the file is never refused a save with a
      conflict. */
  lemma LoadThenSave(hash: Hasher, file: string, current: Option<seq<Rule>>, p: Panel,
                     edited: Panel, writeError: Option<string>, re: RegexEngine)
    requires edited.etag == AfterReload(p, Success(LoadReplyOf(Get(hash, file, current)))).etag
    ensures !Put(hash, edited.etag, file, Success(Body(edited)), writeError, re).Conflict?
  {
  }

  /** A reload shows the rule file as the server holds it: its text, its
      tag, one row per loaded rule (none when the rules could not be
      loaded), and no message. */
  lemma ReloadShowsFile(hash: Hasher, file: string, current: Option<seq<Rule>>, p: Panel)
    ensures var p' := AfterReload(p, Success(LoadReplyOf(Get(hash, file, current))));
            && p'.raw == file && p'.etag == ComputeETag(hash, file)
            && p'.msgs == [] && !p'.loading && p'.rawMode == p.rawMode
            && (current.None? ==> p'.rules == [])
            && (current.Some? ==> |p'.rules| == |current.value|)
  {
  }

  /** The message a rejected rule set shows. */
  lemma Rejected422()
    ensures ErrorMessage("", 422) == "HTTP 422"
  {
    assert IntToDecimal(422) == "422";
  }

  /** The page's reading of any checked validation outcome. */
  lemma CheckedShown(p: Panel, o: CacheRulesHandler.ValidateOutcome)
    requires o.Checked?
    ensures AfterValidate(p, ValidateReplyOf(o)).msgs == (if o.ok then ["OK"] else ["HTTP 422"])
  {
    if !o.ok {
      Rejected422();
    }
  }

  /** Validation on the page agrees with the handler: "OK" exactly when the
      handler finds nothing wrong. A rejected rule set shows only its status:
      the handler's messages travel in a failed reply, which the page never
      reads. */
  lemma ValidateShowsOk(p: Panel, re: RegexEngine)
    ensures var o := CacheRulesHandler.Validate(Success(Body(p)), re);
            && (AfterValidate(p, ValidateReplyOf(o)).msgs == ["OK"] <==> o.Checked? && o.ok)
            && (o.Checked? && !o.ok ==> AfterValidate(p, ValidateReplyOf(o)).msgs == ["HTTP 422"])
  {
    CheckedShown(p, CacheRulesHandler.Validate(Success(Body(p)), re));
  }
}

=== FILE: cache_serialize.dfy ===
/** cacheconf/serialize.go and cacheconf/api.go: the JSON shape of a cache rule
    (`RuleDTO`), its validation into a `Rule` (`FromDTO`), the way back
    (`ToDTO`), and the text rendering of a ruleset (`RulesetToLines`). */
module CacheSerialize {
  import opened Wrappers
  import opened Text
  import Numeric
  import Sorting
  import Quote
  import opened CacheLoader

  datatype MatchDTO = MatchDTO(typ: string, value: string)

  datatype RuleDTO = RuleDTO(
    kind: string,
    selector: MatchDTO,
    methods: seq<string>,
    ttl: int,
    vary: seq<string>)

  /** What `FromDTO` can object to in one rule. */
  datatype Problem =
    | KindNotAllowDeny
    | ValueRequired(matchType: string)
    | InvalidRegex(detail: string)
    | BadMatchType
    | UnsupportedMethod(verb: string)
    | NegativeTtl

  /** A problem of the rule at position `index` of the submitted list. */
  datatype RuleError = RuleError(index: nat, problem: Problem)

  function ProblemText(p: Problem): string {
    match p
    case KindNotAllowDeny => "kind must be ALLOW or DENY"
    case ValueRequired(t) => t + " value required"
    case InvalidRegex(d) => "invalid regex: " + d
    case BadMatchType => "match.type must be prefix|regex|exact"
    case UnsupportedMethod(m) => MethodHead + Quote.Quoted(m) + MethodTail
    case NegativeTtl => "ttl must be >= 0"
  }

  const MessageHead: string := "rules["

  /** The `error` text of one problem: `rules[<i>]: <what>`. */
  function Message(e: RuleError): (s: string)
    ensures HasPrefix(s, MessageHead)
  {
    var s := MessageHead + Numeric.NatToDecimal(e.index) + "]: " + ProblemText(e.problem);
    assert s[..|MessageHead|] == MessageHead;
    s
  }

  /** The rule position a message names, read back from its text. */
  function MessageIndex(s: string): Option<int> {
    if HasPrefix(s, MessageHead) then
      match Cut(s[|MessageHead|..], ']')
      case Some((d, _)) => Numeric.Atoi(d)
      case None => None
    else None
  }

  /** Every message names the position of the rule it is about. */
  lemma MessageIndexOf(e: RuleError)
    requires e.index <= Numeric.MaxInt64
    ensures MessageIndex(Message(e)) == Some(e.index as int)
  {
    IndexBeforeBracket(e.index, ProblemText(e.problem));
  }

  lemma IndexBeforeBracket(i: nat, what: string)
    requires i <= Numeric.MaxInt64
    ensures MessageIndex(MessageHead + Numeric.NatToDecimal(i) + "]: " + what) == Some(i as int)
  {
    var d := Numeric.NatToDecimal(i);
    var rest := ": " + what;
    var s := MessageHead + d + "]: " + what;
    assert s == MessageHead + (d + [']'] + rest);
    assert s[|MessageHead|..] == d + [']'] + rest;
    assert forall k :: 0 <= k < |d| ==> d[k] != ']';
    CutKeyValue(d, ']', rest);
    Numeric.AtoiOfItoa(i);
  }

  const MethodHead: string := "unsupported method "
  const MethodTail: string := " (only GET/HEAD)"

  /** The complaint about a method quotes it as Go's `%q` does, so the verb
      can be read back from the text exactly, whatever it contains. */
  lemma MethodProblemQuotes(m: string)
    ensures var t := ProblemText(UnsupportedMethod(m));
      && HasPrefix(t, MethodHead) && |t| >= |MethodHead| + |MethodTail|
      && Quote.Unquote(t[|MethodHead|..|t| - |MethodTail|]) == Some(m)
  {
    var q := Quote.Quoted(m);
    var t := ProblemText(UnsupportedMethod(m));
    assert t == MethodHead + q + MethodTail;
    assert t[|MethodHead|..|t| - |MethodTail|] == q;
    assert t[..|MethodHead|] == MethodHead;
    Quote.UnquoteQuoted(m);
  }

  // ---------------------------------------------------------------------------
  // Methods

  predicate IsCacheMethod(m: string) {
    m == "GET" || m == "HEAD"
  }

  /** The keys among `ks` that name a cacheable method. */
  function KeepCacheMethods(ks: seq<string>): (r: seq<string>)
    ensures forall x :: x in r <==> x in ks && IsCacheMethod(x)
  {
    if |ks| == 0 then []
    else (if IsCacheMethod(ks[0]) then [ks[0]] else []) + KeepCacheMethods(ks[1..])
  }

  /** The method set a valid rule ends up with: GET and HEAD when the list is
      empty, otherwise the GET and HEAD entries (trimmed, upper-cased). */
  function DTOMethods(ms: seq<string>): (r: seq<string>)
    ensures NoDup(r)
    ensures forall x :: x in r ==> IsCacheMethod(x)
    ensures |ms| == 0 ==> forall x :: x in r <==> IsCacheMethod(x)
    ensures |ms| > 0 ==> forall x :: x in r <==> x in PieceKeys(ms) && IsCacheMethod(x)
  {
    if |ms| == 0 then ["GET", "HEAD"] else Dedup(KeepCacheMethods(PieceKeys(ms)))
  }

  /** The complaints about the entries of a non-empty method list: one per
      entry that is neither blank nor GET nor HEAD. */
  function MethodsProblems(ms: seq<string>): (r: seq<Problem>)
    ensures forall p :: p in r ==> p.UnsupportedMethod? && !IsCacheMethod(p.verb) && p.verb in PieceKeys(ms)
    ensures r == [] <==> forall i :: 0 <= i < |ms| ==> MethodKey(ms[i]) == "" || IsCacheMethod(MethodKey(ms[i]))
  {
    if |ms| == 0 then []
    else
      var mu := MethodKey(ms[0]);
      var rest := MethodsProblems(ms[1..]);
      assert forall i :: 1 <= i < |ms| ==> ms[1..][i - 1] == ms[i];
      PieceKeysCons(ms);
      (if mu == "" || IsCacheMethod(mu) then [] else [UnsupportedMethod(mu)]) + rest
  }

  lemma PieceKeysCons(ms: seq<string>)
    requires |ms| > 0
    ensures PieceKeys(ms) == [MethodKey(ms[0])] + PieceKeys(ms[1..])
  {
  }

  // ---------------------------------------------------------------------------
  // FromDTO

  function MatchProblems(m: MatchDTO, re: RegexEngine): seq<Problem> {
    match KeyOf(m.typ)
    case PrefixKey => if m.value == "" then [ValueRequired("prefix")] else []
    case RegexKey =>
      if m.value == "" then [ValueRequired("regex")]
      else if !re.compiles(m.value) then [InvalidRegex(re.compileError(m.value))]
      else []
    case ExactKey => if m.value == "" then [ValueRequired("exact")] else []
    case _ => [BadMatchType]
  }

  /** The problems of one submitted rule, in the order they are reported. */
  function RuleProblems(d: RuleDTO, re: RegexEngine): seq<Problem> {
    (if Upper(d.kind) == "ALLOW" || Upper(d.kind) == "DENY" then [] else [KindNotAllowDeny])
    + MatchProblems(d.selector, re)
    + MethodsProblems(d.methods)
    + (if d.ttl < 0 then [NegativeTtl] else [])
  }

  predicate IsSelectorKey(k: OptionKey) {
    k == PrefixKey || k == RegexKey || k == ExactKey
  }

  /** What a submitted rule must satisfy, stated field by field. */
  predicate ValidDTO(d: RuleDTO, re: RegexEngine) {
    && (Upper(d.kind) == "ALLOW" || Upper(d.kind) == "DENY")
    && IsSelectorKey(KeyOf(d.selector.typ))
    && d.selector.value != ""
    && (KeyOf(d.selector.typ) == RegexKey ==> re.compiles(d.selector.value))
    && (forall i :: 0 <= i < |d.methods| ==> MethodKey(d.methods[i]) == "" || IsCacheMethod(MethodKey(d.methods[i])))
    && d.ttl >= 0
  }

  /** A rule draws no complaint exactly when it is valid. */
  lemma RuleProblemsIff(d: RuleDTO, re: RegexEngine)
    ensures RuleProblems(d, re) == [] <==> ValidDTO(d, re)
  {
  }

  /** The rule `FromDTO` builds from one submitted rule (kept only when the
      whole list is valid). */
  function RuleFromDTO(d: RuleDTO, re: RegexEngine): (r: Rule)
    ensures r.kind == Upper(d.kind) && r.ttl == d.ttl && r.vary == d.vary
  {
    var base := Rule(Upper(d.kind), "", None, "", DTOMethods(d.methods), d.ttl, d.vary);
    var v := d.selector.value;
    match KeyOf(d.selector.typ)
    case PrefixKey => base.(prefix := v)
    case RegexKey => if v != "" && re.compiles(v) then base.(regex := Some(v)) else base
    case ExactKey => base.(exact := v)
    case _ => base
  }

  /** A rule as the validator leaves it: ALLOW or DENY, exactly one non-empty
      selector, a compiling regex, only GET and HEAD, and a TTL of at least 0. */
  predicate WellFormed(r: Rule, re: RegexEngine) {
    && (r.kind == "ALLOW" || r.kind == "DENY")
    && (r.exact != "" || r.prefix != "" || r.regex.Some?)
    && (r.exact != "" ==> r.prefix == "" && r.regex.None?)
    && (r.prefix != "" ==> r.regex.None?)
    && (r.regex.Some? ==> r.regex.value != "" && re.compiles(r.regex.value))
    && NoDup(r.methods)
    && (forall x :: x in r.methods ==> IsCacheMethod(x))
    && r.ttl >= 0
  }

  lemma RuleFromValidDTO(d: RuleDTO, re: RegexEngine)
    requires ValidDTO(d, re)
    ensures WellFormed(RuleFromDTO(d, re), re)
  {
  }

  function Tag(i: nat, ps: seq<Problem>): (r: seq<RuleError>)
    ensures |r| == |ps|
    ensures forall k :: 0 <= k < |r| ==> r[k] == RuleError(i, ps[k])
  {
    seq(|ps|, k requires 0 <= k < |ps| => RuleError(i, ps[k]))
  }

  /** The problems of each submitted rule, in order. */
  function ProblemLists(dtos: seq<RuleDTO>, re: RegexEngine): (ps: seq<seq<Problem>>)
    ensures |ps| == |dtos|
    ensures forall i :: 0 <= i < |dtos| ==> ps[i] == RuleProblems(dtos[i], re)
  {
    seq(|dtos|, i requires 0 <= i < |dtos| => RuleProblems(dtos[i], re))
  }

  /** Errors about the rules from position `lo` on: each names a rule at or
      after `lo` and one of that rule's problems `ps`, in rule order. */
  predicate ReportsFrom(r: seq<RuleError>, ps: seq<seq<Problem>>, lo: nat) {
    && (forall k :: 0 <= k < |r| ==> lo <= r[k].index < |ps| && r[k].problem in ps[r[k].index])
    && (forall k, l :: 0 <= k < l < |r| ==> r[k].index <= r[l].index)
  }

  lemma ReportsCons(ps: seq<seq<Problem>>, i: nat, rest: seq<RuleError>)
    requires i < |ps|
    requires ReportsFrom(rest, ps, i + 1)
    ensures ReportsFrom(Tag(i, ps[i]) + rest, ps, i)
  {
    var here := Tag(i, ps[i]);
    var r := here + rest;
    forall k | 0 <= k < |r|
      ensures i <= r[k].index < |ps| && r[k].problem in ps[r[k].index]
    {
      if k < |here| {
        assert r[k] == here[k];
      } else {
        assert r[k] == rest[k - |here|];
      }
    }
    forall k, l | 0 <= k < l < |r|
      ensures r[k].index <= r[l].index
    {
      if l < |here| {
        assert r[k] == here[k] && r[l] == here[l];
      } else if k < |here| {
        assert r[k] == here[k] && r[l] == rest[l - |here|];
      } else {
        assert r[k] == rest[k - |here|] && r[l] == rest[l - |here|];
      }
    }
  }

  /** How many problems rules `i..` have between them. */
  function ProblemCount(ps: seq<seq<Problem>>, i: nat): nat
    requires i <= |ps|
    decreases |ps| - i
  {
    if i == |ps| then 0 else |ps[i]| + ProblemCount(ps, i + 1)
  }

  /** The problems of rules `i..`, each tagged with its rule's position:
      every problem of every rule is reported, one error per problem, and
      no error is made up. */
  function ErrorsFrom(ps: seq<seq<Problem>>, i: nat): (r: seq<RuleError>)
    requires i <= |ps|
    ensures ReportsFrom(r, ps, i)
    ensures forall j, p :: i <= j < |ps| && p in ps[j] ==> RuleError(j, p) in r
    ensures |r| == ProblemCount(ps, i)
    ensures r == [] <==> forall j :: i <= j < |ps| ==> ps[j] == []
    decreases |ps| - i
  {
    if i == |ps| then []
    else
      var rest := ErrorsFrom(ps, i + 1);
      var here := Tag(i, ps[i]);
      ReportsCons(ps, i, rest);
      assert forall p :: p in ps[i] ==> RuleError(i, p) in here by {
        forall p | p in ps[i] ensures RuleError(i, p) in here {
          var k :| 0 <= k < |ps[i]| && ps[i][k] == p;
          assert here[k] == RuleError(i, p);
        }
      }
      here + rest
  }

  /** The rules built from a list every entry of which is valid. */
  function BuildRules(dtos: seq<RuleDTO>, re: RegexEngine): (rules: seq<Rule>)
    requires forall i :: 0 <= i < |dtos| ==> ValidDTO(dtos[i], re)
    ensures |rules| == |dtos|
    ensures forall i :: 0 <= i < |dtos| ==> WellFormed(rules[i], re) && rules[i] == RuleFromDTO(dtos[i], re)
  {
    var rules := seq(|dtos|, i requires 0 <= i < |dtos| => RuleFromDTO(dtos[i], re));
    forall i | 0 <= i < |dtos| ensures WellFormed(rules[i], re) {
      RuleFromValidDTO(dtos[i], re);
    }
    rules
  }

  /** A list draws no error exactly when every rule in it is valid. */
  lemma NoErrorsIff(dtos: seq<RuleDTO>, re: RegexEngine)
    ensures ErrorsFrom(ProblemLists(dtos, re), 0) == [] <==> forall i :: 0 <= i < |dtos| ==> ValidDTO(dtos[i], re)
  {
    forall i | 0 <= i < |dtos| ensures RuleProblems(dtos[i], re) == [] <==> ValidDTO(dtos[i], re) {
      RuleProblemsIff(dtos[i], re);
    }
  }

  /** `FromDTO`: the ruleset, one rule per submitted rule and in order, when
      every rule is valid; otherwise every problem of every rule, in order. */
  function FromDTO(dtos: seq<RuleDTO>, re: RegexEngine): (res: Result<seq<Rule>, seq<RuleError>>)
    ensures res.Success? <==> forall i :: 0 <= i < |dtos| ==> ValidDTO(dtos[i], re)
    ensures res.Success? ==> |res.value| == |dtos|
    ensures res.Success? ==> forall i :: 0 <= i < |dtos| ==>
      && WellFormed(res.value[i], re)
      && res.value[i] == RuleFromDTO(dtos[i], re)
    ensures res.Failure? ==> |res.error| > 0 && forall k :: 0 <= k < |res.error| ==>
      res.error[k].index < |dtos| && !ValidDTO(dtos[res.error[k].index], re)
    ensures res.Failure? ==> forall i, p :: 0 <= i < |dtos| && p in RuleProblems(dtos[i], re) ==>
      RuleError(i, p) in res.error
    ensures res.Failure? ==> |res.error| == ProblemCount(ProblemLists(dtos, re), 0)
  {
    var errs := ErrorsFrom(ProblemLists(dtos, re), 0);
    NoErrorsIff(dtos, re);
    if |errs| > 0 then
      ErrorsNameInvalid(dtos, errs, re);
      Failure(errs)
    else Success(BuildRules(dtos, re))
  }

  lemma ErrorsNameInvalid(dtos: seq<RuleDTO>, errs: seq<RuleError>, re: RegexEngine)
    requires ReportsFrom(errs, ProblemLists(dtos, re), 0)
    ensures forall k :: 0 <= k < |errs| ==> errs[k].index < |dtos| && !ValidDTO(dtos[errs[k].index], re)
  {
    forall k | 0 <= k < |errs| ensures !ValidDTO(dtos[errs[k].index], re) {
      assert errs[k].problem in RuleProblems(dtos[errs[k].index], re);
      RuleProblemsIff(dtos[errs[k].index], re);
    }
  }

  // ---------------------------------------------------------------------------
  // ToDTO

  function UpperAll(ms: seq<string>): (r: seq<string>)
    ensures |r| == |ms|
    ensures forall i :: 0 <= i < |ms| ==> r[i] == Upper(ms[i])
  {
    seq(|ms|, i requires 0 <= i < |ms| => Upper(ms[i]))
  }

  /** The selector shown for a rule: exact before prefix before regex, and an
      empty match when the rule has none. */
  function SelectorOf(r: Rule): (m: MatchDTO)
    ensures m.typ == "exact" <==> r.exact != ""
    ensures m.typ == "prefix" <==> r.exact == "" && r.prefix != ""
    ensures m.typ == "regex" <==> r.exact == "" && r.prefix == "" && r.regex.Some?
    ensures m.typ == "" <==> r.exact == "" && r.prefix == "" && r.regex.None?
  {
    if r.exact != "" then MatchDTO("exact", r.exact)
    else if r.prefix != "" then MatchDTO("prefix", r.prefix)
    else if r.regex.Some? then MatchDTO("regex", r.regex.value)
    else MatchDTO("", "")
  }

  /** The methods shown for a rule: its methods upper-cased and sorted, or
      GET and HEAD when it has none. */
  function ShownMethods(ms: seq<string>): (r: seq<string>)
    ensures Sorting.Sorted(r)
    ensures |ms| > 0 ==> multiset(r) == multiset(UpperAll(ms))
    ensures |ms| == 0 ==> r == ["GET", "HEAD"]
  {
    if |ms| == 0 then ["GET", "HEAD"] else Sorting.Sort(UpperAll(ms))
  }

  function RuleToDTO(r: Rule): (d: RuleDTO)
    ensures d.kind == Upper(r.kind) && d.ttl == r.ttl && d.vary == r.vary
  {
    RuleDTO(Upper(r.kind), SelectorOf(r), ShownMethods(r.methods), r.ttl, r.vary)
  }

  /** `ToDTO`: one DTO per rule, in order. */
  function ToDTO(rules: seq<Rule>): (ds: seq<RuleDTO>)
    ensures |ds| == |rules|
    ensures forall i :: 0 <= i < |rules| ==> ds[i] == RuleToDTO(rules[i])
  {
    seq(|rules|, i requires 0 <= i < |rules| => RuleToDTO(rules[i]))
  }

  // ---------------------------------------------------------------------------
  // RulesetToLines

  /** The token `<key>=<value>`, when the field is set. */
  function Opt(present: bool, key: string, v: string): seq<string> {
    if present then [Token(key, v)] else []
  }

  /** The option `<key>=<value>`. */
  function Token(key: string, v: string): string {
    key + "=" + v
  }

  /** When the only options of `os` starting with the key's letter are the
      key's own, the key's token is in `os` exactly when the field is set. */
  lemma OptMember(os: seq<string>, present: bool, key: string, v: string)
    requires |key| > 0
    requires forall y :: y in Opt(present, key, v) ==> y in os
    requires forall y :: y in os && |y| > 0 && y[0] == key[0] ==> y in Opt(present, key, v)
    ensures Token(key, v) in os <==> present
  {
    assert Token(key, v)[0] == key[0];
  }

  function ExactOpt(r: Rule): seq<string> {
    Opt(r.exact != "", "exact", r.exact)
  }

  function PrefixOpt(r: Rule): seq<string> {
    Opt(r.prefix != "", "prefix", r.prefix)
  }

  function RegexOpt(r: Rule): seq<string> {
    Opt(r.regex.Some?, "regex", r.regex.GetOr(""))
  }

  /** A rule's methods upper-cased and sorted. */
  function SortedMethods(r: Rule): seq<string> {
    Sorting.Sort(UpperAll(r.methods))
  }

  /** `methods=` lists the methods upper-cased, sorted and comma-joined. */
  function MethodsOpt(r: Rule): seq<string> {
    Opt(|r.methods| > 0, "methods", Join(SortedMethods(r), ","))
  }

  /** `ttl=` is written only for a positive TTL. */
  function TtlOpt(r: Rule): seq<string> {
    Opt(r.ttl > 0, "ttl", Numeric.IntToDecimal(r.ttl))
  }

  function VaryOpt(r: Rule): seq<string> {
    Opt(|r.vary| > 0, "vary", Join(r.vary, ","))
  }

  /** The options of a rule's line, each only when its field is set, in the
      order `exact=`, `prefix=`, `regex=`, `methods=`, `ttl=`, `vary=`. */
  function LineOptions(r: Rule): seq<string> {
    ExactOpt(r) + PrefixOpt(r) + RegexOpt(r) + MethodsOpt(r) + TtlOpt(r) + VaryOpt(r)
  }

  /** How many of a rule's fields its line writes an option for. */
  function SetFields(r: Rule): nat {
    (if r.exact != "" then 1 else 0) + (if r.prefix != "" then 1 else 0)
    + (if r.regex.Some? then 1 else 0) + (if |r.methods| > 0 then 1 else 0)
    + (if r.ttl > 0 then 1 else 0) + (if |r.vary| > 0 then 1 else 0)
  }

  /** The six option keys start with six different letters, so an option's
      first letter says which field wrote it. */
  lemma OptionByInitial(r: Rule, x: string)
    requires x in LineOptions(r)
    ensures |x| > 0
    ensures x[0] == 'e' ==> x in ExactOpt(r)
    ensures x[0] == 'p' ==> x in PrefixOpt(r)
    ensures x[0] == 'r' ==> x in RegexOpt(r)
    ensures x[0] == 'm' ==> x in MethodsOpt(r)
    ensures x[0] == 't' ==> x in TtlOpt(r)
    ensures x[0] == 'v' ==> x in VaryOpt(r)
  {
  }

  /** The words of a rule's line: the upper-cased kind, then one option per
      set field and no other: `exact=`, `prefix=`, `regex=`, `methods=` (the
      sorted, upper-cased methods), `ttl=` and `vary=` each appear, with the
      field's value, exactly when that field is set. */
  function RuleParts(r: Rule): (ps: seq<string>)
    ensures |ps| == 1 + SetFields(r) && ps[0] == Upper(r.kind)
  {
    [Upper(r.kind)] + LineOptions(r)
  }

  /** A rule line carries each field's option exactly when that field is
      set, and no option for an unset field. */
  lemma RulePartsOptions(r: Rule)
    ensures Token("exact", r.exact) in RuleParts(r)[1..] <==> r.exact != ""
    ensures Token("prefix", r.prefix) in RuleParts(r)[1..] <==> r.prefix != ""
    ensures Token("regex", r.regex.GetOr("")) in RuleParts(r)[1..] <==> r.regex.Some?
    ensures Token("methods", Join(SortedMethods(r), ",")) in RuleParts(r)[1..] <==> |r.methods| > 0
    ensures Token("ttl", Numeric.IntToDecimal(r.ttl)) in RuleParts(r)[1..] <==> r.ttl > 0
    ensures Token("vary", Join(r.vary, ",")) in RuleParts(r)[1..] <==> |r.vary| > 0
  {
    var os := LineOptions(r);
    assert RuleParts(r)[1..] == os;
    forall x | x in os
      ensures OptionInitial(r, x)
    {
      OptionByInitial(r, x);
    }
    OptMember(os, r.exact != "", "exact", r.exact);
    OptMember(os, r.prefix != "", "prefix", r.prefix);
    OptMember(os, r.regex.Some?, "regex", r.regex.GetOr(""));
    OptMember(os, |r.methods| > 0, "methods", Join(SortedMethods(r), ","));
    OptMember(os, r.ttl > 0, "ttl", Numeric.IntToDecimal(r.ttl));
    OptMember(os, |r.vary| > 0, "vary", Join(r.vary, ","));
  }

  predicate OptionInitial(r: Rule, x: string) {
    && |x| > 0
    && (x[0] == 'e' ==> x in ExactOpt(r))
    && (x[0] == 'p' ==> x in PrefixOpt(r))
    && (x[0] == 'r' ==> x in RegexOpt(r))
    && (x[0] == 'm' ==> x in MethodsOpt(r))
    && (x[0] == 't' ==> x in TtlOpt(r))
    && (x[0] == 'v' ==> x in VaryOpt(r))
  }

  /** The words of the line joined by single spaces; it starts with the
      upper-cased kind. */
  function RuleLine(r: Rule): (l: string)
    ensures HasPrefix(l, Upper(r.kind))
  {
    var ps := RuleParts(r);
    assert Join(ps, " ")[..|ps[0]|] == ps[0];
    Join(ps, " ")
  }

  /** `RulesetToLines`: one line per rule, in order. */
  function RulesetToLines(rules: seq<Rule>): (ls: seq<string>)
    ensures |ls| == |rules|
    ensures forall i :: 0 <= i < |rules| ==> ls[i] == RuleLine(rules[i])
  {
    seq(|rules|, i requires 0 <= i < |rules| => RuleLine(rules[i]))
  }
}

=== FILE: env.dfy ===
/** Process configuration (config/env.go `LoadEnv`) as a function of the
    environment. A missing variable reads as the empty string, as `os.Getenv`
    returns it; loading a `.env` file is not modelled. */
module Env {
  import opened Wrappers
  import opened Text
  import ApiKey

  type Environment = map<string, string>

  /** `os.Getenv`. */
  function Getenv(env: Environment, k: string): (v: string)
    ensures k in env ==> v == env[k]
    ensures k !in env ==> v == ""
  {
    if k in env then env[k] else ""
  }

  datatype Config = Config(
    appUrl: string,
    rulesFile: string,
    bypassFile: string,
    logFile: string,
    strictOverride: bool,
    apiBasePath: string,
    apiKeyPrimary: string,
    apiKeySecondary: string,
    apiAuthDisable: bool)

  const DefaultBasePath := "/mamotama-api"

  /** The API base path: the default when empty, with a `/` put in front when
      missing. */
  function BasePath(raw: string): (p: string)
    ensures |p| >= 1 && p[0] == '/'
    ensures raw == "" ==> p == DefaultBasePath
    ensures raw != "" && raw[0] == '/' ==> p == raw
    ensures raw != "" && raw[0] != '/' ==> p == "/" + raw
  {
    var p := if raw == "" then DefaultBasePath else raw;
    if HasPrefix(p, "/") then p else "/" + p
  }

  /** Only a base path written as exactly `/` normalises to the root. */
  lemma BasePathRootIff(raw: string)
    ensures BasePath(raw) == "/" <==> raw == "/"
  {
    if raw != "" && raw[0] != '/' {
      assert |BasePath(raw)| == |raw| + 1;
    }
  }

  /** Normalising a base path twice changes nothing. */
  lemma BasePathIdempotent(raw: string)
    ensures BasePath(BasePath(raw)) == BasePath(raw)
  {
  }

  /** `LoadEnv`. A base path of `/` is fatal; otherwise the base path is
      normalised, the keys are trimmed and the file settings are taken as
      written. */
  function LoadEnv(env: Environment): (r: Result<Config, string>)
    ensures r.Failure? <==> Getenv(env, "WAF_API_BASEPATH") == "/"
    ensures r.Success? ==> var c := r.value;
              && |c.apiBasePath| >= 2 && c.apiBasePath[0] == '/'
              && (c.strictOverride <==> Getenv(env, "WAF_STRICT_OVERRIDE") == "true")
              && (c.apiAuthDisable <==> Getenv(env, "WAF_API_AUTH_DISABLE") == "1")
              && Trimmed(c.apiKeyPrimary) && Trimmed(c.apiKeySecondary)
    ensures r.Success? ==> var c := r.value;
              && c.apiBasePath == BasePath(Getenv(env, "WAF_API_BASEPATH"))
              && c.apiKeyPrimary == TrimSpace(Getenv(env, "WAF_API_KEY_PRIMARY"))
              && c.apiKeySecondary == TrimSpace(Getenv(env, "WAF_API_KEY_SECONDARY"))
              && c.appUrl == Getenv(env, "WAF_APP_URL") && c.rulesFile == Getenv(env, "WAF_RULES_FILE")
              && c.bypassFile == Getenv(env, "WAF_BYPASS_FILE") && c.logFile == Getenv(env, "WAF_LOG_FILE")
  {
    var base := BasePath(Getenv(env, "WAF_API_BASEPATH"));
    BasePathRootIff(Getenv(env, "WAF_API_BASEPATH"));
    if base == "/" then Failure("WAF_API_BASEPATH cannot be root path '/'")
    else
      Success(Config(
        Getenv(env, "WAF_APP_URL"),
        Getenv(env, "WAF_RULES_FILE"),
        Getenv(env, "WAF_BYPASS_FILE"),
        Getenv(env, "WAF_LOG_FILE"),
        Getenv(env, "WAF_STRICT_OVERRIDE") == "true",
        base,
        TrimSpace(Getenv(env, "WAF_API_KEY_PRIMARY")),
        TrimSpace(Getenv(env, "WAF_API_KEY_SECONDARY")),
        Getenv(env, "WAF_API_AUTH_DISABLE") == "1"))
  }

  /** A client that sends the configured primary key, with any surrounding
      whitespace, passes the key check of the loaded configuration. */
  lemma LoadedPrimaryKeyPasses(env: Environment, header: string)
    requires LoadEnv(env).Success?
    requires TrimSpace(header) == TrimSpace(Getenv(env, "WAF_API_KEY_PRIMARY")) != ""
    ensures var c := LoadEnv(env).value;
            ApiKey.Admit(c.apiAuthDisable, c.apiKeyPrimary, c.apiKeySecondary, header) == ApiKey.Pass
    ensures var c := LoadEnv(env).value;
            ApiKey.AdmitIntended(c.apiAuthDisable, c.apiKeyPrimary, c.apiKeySecondary, header) == ApiKey.Pass
  {
  }
}

=== FILE: etag.dfy ===
/** The weak entity tag both config editors hand out (`ComputeETag` in
    cacheconf/serialize.go and bypassconf/etag.go): `W/"sha256:<hex>"`.
    SHA-256 itself is not modelled; the digest function is a parameter. */
module ETag {
  import opened Bytes
  import opened Text

  const HexDigits: string := "0123456789abcdef"

  /** The digest the tag is built from (SHA-256 of the file bytes). */
  type Hasher = string -> seq<byte>

  predicate IsHexDigit(c: char) {
    ('0' <= c <= '9') || ('a' <= c <= 'f')
  }

  function HexChar(n: nat): (c: char)
    requires n < 16
    ensures IsHexDigit(c)
  {
    HexDigits[n]
  }

  function HexValue(c: char): nat
    requires IsHexDigit(c)
  {
    if c <= '9' then c as int - '0' as int else c as int - 'a' as int + 10
  }

  lemma HexValueOfChar(n: nat)
    requires n < 16
    ensures HexValue(HexChar(n)) == n
  {
  }

  /** `hex.EncodeToString`: two lower-case hex digits per byte, high nibble first. */
  function HexEncode(d: seq<byte>): (h: string)
    ensures |h| == 2 * |d|
    ensures forall i :: 0 <= i < |h| ==> IsHexDigit(h[i])
  {
    if |d| == 0 then ""
    else [HexChar(d[0] as int / 16), HexChar(d[0] as int % 16)] + HexEncode(d[1..])
  }

  /** Reads pairs of hex digits back into bytes. */
  function HexDecode(h: string): seq<byte>
    requires |h| % 2 == 0
    requires forall i :: 0 <= i < |h| ==> IsHexDigit(h[i])
  {
    if |h| == 0 then []
    else [(HexValue(h[0]) * 16 + HexValue(h[1])) as byte] + HexDecode(h[2..])
  }

  lemma {:induction false} HexRoundTrip(d: seq<byte>)
    ensures HexDecode(HexEncode(d)) == d
  {
    if |d| > 0 {
      HexValueOfChar(d[0] as int / 16);
      HexValueOfChar(d[0] as int % 16);
      assert HexEncode(d)[2..] == HexEncode(d[1..]);
      HexRoundTrip(d[1..]);
    }
  }

  const TagPrefix: string := "W/\"sha256:"
  const TagSuffix: string := "\""

  /** `ComputeETag(b)`: the weak tag over the hex digest of `b`. */
  function ComputeETag(hash: Hasher, content: string): (e: string)
    ensures HasPrefix(e, TagPrefix) && HasSuffix(e, TagSuffix)
    ensures |e| == |TagPrefix| + 2 * |hash(content)| + |TagSuffix|
    ensures forall i :: |TagPrefix| <= i < |e| - |TagSuffix| ==> IsHexDigit(e[i])
  {
    var e := TagPrefix + HexEncode(hash(content)) + TagSuffix;
    assert e[..|TagPrefix|] == TagPrefix;
    e
  }

  /** The digest a tag was built from. */
  function DigestOf(e: string): seq<byte>
    requires |e| >= |TagPrefix| + |TagSuffix|
    requires (|e| - |TagPrefix| - |TagSuffix|) % 2 == 0
    requires forall i :: |TagPrefix| <= i < |e| - |TagSuffix| ==> IsHexDigit(e[i])
  {
    HexDecode(e[|TagPrefix|..|e| - |TagSuffix|])
  }

  /** A tag determines the digest it was made from: two contents get the same
      tag exactly when they have the same digest. */
  lemma ETagDeterminesDigest(hash: Hasher, a: string, b: string)
    ensures ComputeETag(hash, a) == ComputeETag(hash, b) <==> hash(a) == hash(b)
  {
    var ea := ComputeETag(hash, a);
    var eb := ComputeETag(hash, b);
    assert ea[|TagPrefix|..|ea| - |TagSuffix|] == HexEncode(hash(a));
    assert eb[|TagPrefix|..|eb| - |TagSuffix|] == HexEncode(hash(b));
    HexRoundTrip(hash(a));
    HexRoundTrip(hash(b));
    if ea == eb {
      assert DigestOf(ea) == hash(a);
      assert DigestOf(eb) == hash(b);
    }
  }
}

=== FILE: log_index.dfy ===
/** The byte-offset line index the log pager keeps per file (`buildOrUpdateIndex`
    in handler/logs.go). A file is read as `bufio.Reader.ReadBytes('\n')`
    pieces: each line with its `'\n'`, and a last unterminated line if there is
    one. The index holds the offset where each piece starts, then the file
    length. */
module LogIndex {
  import opened Wrappers
  import opened Bytes

  // ---------------------------------------------------------------------------
  // Pieces

  /** The first `'\n'` at or after `from`. */
  function NextNewline(b: seq<byte>, from: nat): (r: Option<nat>)
    ensures r.Some? ==> from <= r.value < |b| && b[r.value] == Newline
    ensures r.Some? ==> forall k :: from <= k < r.value ==> b[k] != Newline
    ensures r.None? ==> forall k :: from <= k < |b| ==> b[k] != Newline
    decreases |b| - from
  {
    if from >= |b| then None
    else if b[from] == Newline then Some(from)
    else NextNewline(b, from + 1)
  }

  function Concat(cs: seq<seq<byte>>): seq<byte> {
    if |cs| == 0 then [] else cs[0] + Concat(cs[1..])
  }

  lemma {:induction false} ConcatAppend(a: seq<seq<byte>>, b: seq<seq<byte>>)
    ensures Concat(a + b) == Concat(a) + Concat(b)
    decreases |a|
  {
    if |a| == 0 {
      assert a + b == b;
    } else {
      assert (a + b)[1..] == a[1..] + b;
      ConcatAppend(a[1..], b);
    }
  }

  /** Whether `c` ends with `'\n'`. */
  predicate EndsLine(c: seq<byte>) {
    |c| > 0 && c[|c| - 1] == Newline
  }

  /** A piece: non-empty, with no `'\n'` except possibly its last byte. */
  predicate IsPiece(c: seq<byte>) {
    |c| > 0 && forall k :: 0 <= k < |c| - 1 ==> c[k] != Newline
  }

  /** Pieces as `ReadBytes` returns them: every one but the last ends a line. */
  predicate WellCut(cs: seq<seq<byte>>) {
    forall i :: 0 <= i < |cs| ==> IsPiece(cs[i]) && (i < |cs| - 1 ==> EndsLine(cs[i]))
  }

  /** One more line-ending piece in front of well-cut pieces. */
  lemma WellCutCons(c: seq<byte>, cs: seq<seq<byte>>)
    requires IsPiece(c) && EndsLine(c) && WellCut(cs)
    ensures WellCut([c] + cs)
  {
    assert forall i :: 1 <= i < |cs| + 1 ==> ([c] + cs)[i] == cs[i - 1];
  }

  /** The pieces of `b`, read with `ReadBytes('\n')` until end of file. */
  function Pieces(b: seq<byte>): seq<seq<byte>>
    decreases |b|
  {
    if |b| == 0 then []
    else match NextNewline(b, 0)
      case Some(j) => [b[..j + 1]] + Pieces(b[j + 1..])
      case None => [b]
  }

  /** The pieces are well cut and together are the whole text. */
  lemma {:induction false} PiecesFacts(b: seq<byte>)
    ensures Concat(Pieces(b)) == b
    ensures WellCut(Pieces(b))
    decreases |b|
  {
    if |b| > 0 {
      match NextNewline(b, 0)
      case Some(j) =>
        PiecesFacts(b[j + 1..]);
        PiecesFactsCons(b, j);
      case None =>
        PiecesFactsLast(b);
    }
  }

  /** The inductive step of `PiecesFacts`: a line-ending piece, then the rest. */
  lemma PiecesFactsCons(b: seq<byte>, j: nat)
    requires NextNewline(b, 0) == Some(j)
    requires Concat(Pieces(b[j + 1..])) == b[j + 1..] && WellCut(Pieces(b[j + 1..]))
    ensures Concat(Pieces(b)) == b && WellCut(Pieces(b))
  {
    var c := b[..j + 1];
    PiecesStep(b, j);
    LinePiece(b, j);
    assert c + b[j + 1..] == b;
    ConsFacts(c, Pieces(b[j + 1..]), b[j + 1..], b);
  }

  /** A line-ending piece in front of well-cut pieces of the remaining text. */
  lemma ConsFacts(c: seq<byte>, rest: seq<seq<byte>>, tail: seq<byte>, b: seq<byte>)
    requires IsPiece(c) && EndsLine(c) && WellCut(rest)
    requires Concat(rest) == tail && c + tail == b
    ensures Concat([c] + rest) == b && WellCut([c] + rest)
  {
    WellCutCons(c, rest);
    ConcatCons(c, rest);
  }

  /** The base case of `PiecesFacts`: no line end, one piece. */
  lemma PiecesFactsLast(b: seq<byte>)
    requires |b| > 0 && NextNewline(b, 0).None?
    ensures Concat(Pieces(b)) == b && WellCut(Pieces(b))
  {
    PiecesNoLine(b);
    ConcatOne(b);
  }

  /** The bytes up to the first line end form a line-ending piece. */
  lemma LinePiece(b: seq<byte>, j: nat)
    requires NextNewline(b, 0) == Some(j)
    ensures IsPiece(b[..j + 1]) && EndsLine(b[..j + 1])
  {
  }

  /** Text without a line end is read as one piece. */
  lemma PiecesNoLine(b: seq<byte>)
    requires |b| > 0 && NextNewline(b, 0).None?
    ensures Pieces(b) == [b]
  {
  }

  lemma ConcatCons(c: seq<byte>, cs: seq<seq<byte>>)
    ensures Concat([c] + cs) == c + Concat(cs)
  {
    assert ([c] + cs)[1..] == cs;
  }

  lemma ConcatOne(c: seq<byte>)
    ensures Concat([c]) == c
  {
    ConcatCons(c, []);
    assert [c] + [] == [c];
  }

  lemma NextNewlineAt(b: seq<byte>, j: nat)
    requires j < |b| && b[j] == Newline
    requires forall k :: 0 <= k < j ==> b[k] != Newline
    ensures NextNewline(b, 0) == Some(j)
  {
  }

  /** A line-ending piece in front of more text is the first piece read. */
  lemma PiecesFront(c: seq<byte>, rest: seq<byte>)
    requires IsPiece(c) && EndsLine(c)
    ensures Pieces(c + rest) == [c] + Pieces(rest)
  {
    var b := c + rest;
    assert forall k :: 0 <= k < |c| ==> b[k] == c[k];
    NextNewlineAt(b, |c| - 1);
    assert b[..|c|] == c;
    assert b[|c|..] == rest;
  }

  /** A piece without a line end is read whole. */
  lemma PiecesLast(c: seq<byte>)
    requires IsPiece(c) && !EndsLine(c)
    ensures Pieces(c) == [c]
  {
  }

  /** Well-cut pieces are read back as themselves. */
  lemma {:induction false} PiecesOfConcat(cs: seq<seq<byte>>)
    requires WellCut(cs)
    ensures Pieces(Concat(cs)) == cs
    decreases |cs|
  {
    if |cs| > 0 {
      if EndsLine(cs[0]) {
        assert WellCut(cs[1..]) by {
          assert forall i :: 0 <= i < |cs| - 1 ==> cs[1..][i] == cs[i + 1];
        }
        PiecesOfConcat(cs[1..]);
        PiecesFront(cs[0], Concat(cs[1..]));
      } else {
        assert |cs| == 1;
        assert cs[1..] == [];
        assert Concat(cs) == cs[0];
        PiecesLast(cs[0]);
      }
    }
  }

  // ---------------------------------------------------------------------------
  // The index

  /** The offset before each piece, then the total length. */
  function Offsets(cs: seq<seq<byte>>): (offs: seq<nat>)
    ensures |offs| == |cs| + 1
    ensures forall k :: 0 <= k <= |cs| ==> offs[k] == |Concat(cs[..k])|
  {
    seq(|cs| + 1, k requires 0 <= k <= |cs| => |Concat(cs[..k])|)
  }

  /** The reference index of a file's bytes. */
  function Index(b: seq<byte>): (ix: seq<nat>)
    ensures |ix| == |Pieces(b)| + 1 && ix[0] == 0 && ix[|ix| - 1] == |b|
  {
    PiecesFacts(b);
    assert Pieces(b)[..|Pieces(b)|] == Pieces(b);
    Offsets(Pieces(b))
  }

  lemma OffsetsSnoc(cs: seq<seq<byte>>, c: seq<byte>)
    ensures Offsets(cs + [c]) == Offsets(cs) + [|Concat(cs)| + |c|]
  {
    var l := Offsets(cs + [c]);
    var r := Offsets(cs) + [|Concat(cs)| + |c|];
    forall k | 0 <= k <= |cs| + 1
      ensures l[k] == r[k]
    {
      if k <= |cs| {
        assert (cs + [c])[..k] == cs[..k];
      } else {
        assert (cs + [c])[..k] == cs + [c];
        ConcatAppend(cs, [c]);
      }
    }
  }

  lemma PiecesStep(rest: seq<byte>, j: nat)
    requires NextNewline(rest, 0) == Some(j)
    ensures Pieces(rest) == [rest[..j + 1]] + Pieces(rest[j + 1..])
  {
  }

  lemma Assoc<T>(a: seq<T>, b: seq<T>, c: seq<T>)
    ensures (a + b) + c == a + (b + c)
  {
  }

  /** Reading on from `pos` up to the next line end: one more piece, and one
      more index entry at the new position. */
  lemma ReadLine(b: seq<byte>, pos: nat, j: nat, done: seq<seq<byte>>)
    requires pos <= |b| && NextNewline(b[pos..], 0) == Some(j)
    requires done + Pieces(b[pos..]) == Pieces(b)
    requires |Concat(done)| == pos
    ensures pos + j + 1 <= |b|
    ensures var done' := done + [b[pos..pos + j + 1]];
            done' + Pieces(b[pos + j + 1..]) == Pieces(b) &&
            |Concat(done')| == pos + j + 1 &&
            Offsets(done') == Offsets(done) + [pos + j + 1]
  {
    var rest := b[pos..];
    PiecesStep(rest, j);
    var c := rest[..j + 1];
    assert c == b[pos..pos + j + 1];
    assert rest[j + 1..] == b[pos + j + 1..];
    Assoc(done, [c], Pieces(rest[j + 1..]));
    OffsetsSnoc(done, c);
    ConcatAppend(done, [c]);
  }

  /** Reading the rest when no line end is left: the last piece, and the file
      length as the last index entry. */
  lemma ReadRest(b: seq<byte>, pos: nat, done: seq<seq<byte>>)
    requires pos < |b| && NextNewline(b[pos..], 0).None?
    requires done + Pieces(b[pos..]) == Pieces(b)
    requires |Concat(done)| == pos
    ensures var done' := done + [b[pos..|b|]];
            done' == Pieces(b) && |Concat(done')| == |b| &&
            Offsets(done') == Offsets(done) + [|b|]
  {
    var c := b[pos..|b|];
    assert b[pos..] == c;
    PiecesNoLine(c);
    OffsetsSnoc(done, c);
    ConcatAppend(done, [c]);
    ConcatOne(c);
  }

  /** `buildOrUpdateIndex`'s full rebuild: `0`, then the running position after
      every non-empty `ReadBytes('\n')` result. */
  method BuildIndex(b: seq<byte>) returns (offs: seq<nat>)
    ensures offs == Index(b)
  {
    offs := [0];
    var pos: nat := 0;
    ghost var done: seq<seq<byte>> := [];
    var eof := false;
    while !eof
      invariant pos <= |b|
      invariant |Concat(done)| == pos
      invariant offs == Offsets(done)
      invariant eof ==> done == Pieces(b)
      invariant !eof ==> done + Pieces(b[pos..]) == Pieces(b)
      decreases |b| - pos + (if eof then 0 else 1)
    {
      var rest := b[pos..];
      match NextNewline(rest, 0)
      case Some(j) =>
        ReadLine(b, pos, j, done);
        done := done + [b[pos..pos + j + 1]];
        pos := pos + j + 1;
        offs := offs + [pos];
      case None =>
        if |rest| > 0 {
          ReadRest(b, pos, done);
          done := done + [b[pos..|b|]];
          pos := |b|;
          offs := offs + [pos];
        } else {
          assert done + [] == done;
        }
        eof := true;
    }
  }

  // ---------------------------------------------------------------------------
  // Shape

  /** The index starts at 0, is strictly increasing, ends at the file length,
      and has one entry per line (a last unterminated line included) plus one. */
  lemma IndexShape(b: seq<byte>)
    ensures var ix := Index(b);
            |ix| == |Pieces(b)| + 1 && ix[0] == 0 && ix[|ix| - 1] == |b|
    ensures var ix := Index(b);
            forall k :: 0 <= k < |ix| - 1 ==> ix[k] < ix[k + 1]
  {
    var cs := Pieces(b);
    PiecesFacts(b);
    assert cs[..|cs|] == cs;
    forall k | 0 <= k < |cs|
      ensures Index(b)[k] < Index(b)[k + 1]
    {
      assert cs[..k + 1] == cs[..k] + [cs[k]];
      ConcatAppend(cs[..k], [cs[k]]);
    }
  }

  /** The piece between two neighbouring index entries is that line's bytes. */
  lemma PieceAt(cs: seq<seq<byte>>, k: nat)
    requires k < |cs|
    ensures Concat(cs[..k + 1]) == Concat(cs[..k]) + cs[k]
  {
    assert cs[..k + 1] == cs[..k] + [cs[k]];
    ConcatAppend(cs[..k], [cs[k]]);
  }

  /** The bytes between index entries `s` and `e` are the pieces `s` to `e - 1`. */
  lemma SliceOfPieces(b: seq<byte>, s: nat, e: nat)
    requires s <= e < |Index(b)|
    ensures var ix := Index(b);
            ix[s] <= ix[e] <= |b| && b[ix[s]..ix[e]] == Concat(Pieces(b)[s..e])
  {
    var cs := Pieces(b);
    PiecesFacts(b);
    assert cs[..e] == cs[..s] + cs[s..e];
    ConcatAppend(cs[..s], cs[s..e]);
    assert cs == cs[..e] + cs[e..];
    ConcatAppend(cs[..e], cs[e..]);
  }

  // ---------------------------------------------------------------------------
  // Incremental extension

  /** `buildOrUpdateIndex`'s extension after the file grew past `from`: the old
      entries, then the positions `ReadBytes` reaches reading on from `from`. */
  function Extend(offs: seq<nat>, b: seq<byte>, from: nat): (r: seq<nat>)
    requires from <= |b|
    ensures |r| == |offs| + |Pieces(b[from..])|
  {
    var ix := Index(b[from..]);
    offs + seq(|ix| - 1, k requires 0 <= k < |ix| - 1 => from + ix[k + 1])
  }

  /** The offsets of pieces behind a prefix made of whole pieces. */
  lemma OffsetsAppend(p: seq<seq<byte>>, q: seq<seq<byte>>)
    ensures Offsets(p + q) ==
            Offsets(p) + seq(|q|, k requires 0 <= k < |q| => |Concat(p)| + Offsets(q)[k + 1])
  {
    var l := Offsets(p + q);
    var r := Offsets(p) + seq(|q|, k requires 0 <= k < |q| => |Concat(p)| + Offsets(q)[k + 1]);
    forall k | 0 <= k < |l|
      ensures l[k] == r[k]
    {
      if k <= |p| {
        assert (p + q)[..k] == p[..k];
      } else {
        var j := k - |p|;
        assert (p + q)[..k] == p + q[..j];
        ConcatAppend(p, q[..j]);
        assert l[k] == |Concat(p)| + |Concat(q[..j])|;
        assert r[k] == |Concat(p)| + Offsets(q)[j];
      }
    }
  }

  /** Well-cut pieces followed by more, when the first lot ends a line. */
  lemma WellCutAppend(p: seq<seq<byte>>, q: seq<seq<byte>>)
    requires WellCut(p) && WellCut(q)
    requires p == [] || EndsLine(p[|p| - 1])
    ensures WellCut(p + q)
  {
    forall i | 0 <= i < |p + q|
      ensures IsPiece((p + q)[i]) && (i < |p + q| - 1 ==> EndsLine((p + q)[i]))
    {
      if i >= |p| {
        assert (p + q)[i] == q[i - |p|];
      }
    }
  }

  /** A text ending in `'\n'` is read as pieces whose last one ends a line. */
  lemma LastPieceEndsLine(a: seq<byte>)
    requires |a| > 0 && a[|a| - 1] == Newline
    ensures |Pieces(a)| > 0 && EndsLine(Pieces(a)[|Pieces(a)| - 1])
  {
    var pa := Pieces(a);
    PiecesFacts(a);
    var last := pa[|pa| - 1];
    assert pa == pa[..|pa| - 1] + [last];
    ConcatAppend(pa[..|pa| - 1], [last]);
  }

  /** Reading a text whose first part ends a line gives that part's pieces,
      then the rest's. */
  lemma PiecesAppend(a: seq<byte>, c: seq<byte>)
    requires a == [] || a[|a| - 1] == Newline
    ensures Pieces(a + c) == Pieces(a) + Pieces(c)
  {
    var pa := Pieces(a);
    var pc := Pieces(c);
    PiecesFacts(a);
    PiecesFacts(c);
    ConcatAppend(pa, pc);
    if |a| > 0 {
      LastPieceEndsLine(a);
    }
    WellCutAppend(pa, pc);
    PiecesOfConcat(pa + pc);
  }

  /** Extending the index of an earlier, shorter version of the file gives the
      index of the whole file exactly when that version was empty or ended in
      `'\n'`. Otherwise the old end of file stays in the index as a line start
      although it lies inside a line. */
  lemma ExtendMatchesRebuild(b: seq<byte>, from: nat)
    requires from < |b|
    ensures Extend(Index(b[..from]), b, from) == Index(b) <==> from == 0 || b[from - 1] == Newline
  {
    var a := b[..from];
    var c := b[from..];
    assert a + c == b;
    if from == 0 || b[from - 1] == Newline {
      PiecesAppend(a, c);
      PiecesFacts(a);
      OffsetsAppend(Pieces(a), Pieces(c));
    } else {
      var ext := Extend(Index(a), b, from);
      IndexShape(a);
      assert ext[|Index(a)| - 1] == from;
      NotAStart(b, from);
    }
  }

  /** Every index entry but the first and the last follows a `'\n'`. */
  lemma InnerMarksFollowNewline(b: seq<byte>)
    ensures var ix := Index(b);
            forall k :: 0 < k < |ix| - 1 ==> 0 < ix[k] <= |b| && b[ix[k] - 1] == Newline
  {
    var cs := Pieces(b);
    var ix := Index(b);
    PiecesFacts(b);
    forall k | 0 < k < |ix| - 1
      ensures 0 < ix[k] <= |b| && b[ix[k] - 1] == Newline
    {
      PieceAt(cs, k - 1);
      SliceOfPieces(b, 0, k);
      var last := cs[k - 1];
      assert b[..ix[k]] == Concat(cs[..k - 1]) + last;
      assert b[ix[k] - 1] == last[|last| - 1];
    }
  }

  /** A position inside a line (after a byte other than `'\n'`, before the end)
      is not in the index. */
  lemma NotAStart(b: seq<byte>, x: nat)
    requires 0 < x < |b| && b[x - 1] != Newline
    ensures x !in Index(b)
  {
    IndexShape(b);
    InnerMarksFollowNewline(b);
  }

  // ---------------------------------------------------------------------------
  // The cached index

  /** The index kept for a file, with the file size it was built for. */
  datatype LineIndex = LineIndex(offsets: seq<nat>, size: nat)

  /** `buildOrUpdateIndex` given the file's current bytes: rebuild when there is
      no cached index, the file shrank, or its modification time moved on
      (`modified`); extend when it only grew; otherwise keep the cache. */
  function UpdateIndex(cached: Option<LineIndex>, b: seq<byte>, modified: bool): (li: LineIndex)
    ensures li.size == |b| || (cached.Some? && li == cached.value)
    ensures cached.None? || modified || |b| < cached.value.size ==> li == LineIndex(Index(b), |b|)
    ensures cached.Some? && !modified && |b| > cached.value.size ==>
              li == LineIndex(Extend(cached.value.offsets, b, cached.value.size), |b|)
    ensures cached.Some? && !modified && |b| == cached.value.size ==> li == cached.value
  {
    if cached.None? || |b| < cached.value.size || modified then LineIndex(Index(b), |b|)
    else if |b| > cached.value.size then
      LineIndex(Extend(cached.value.offsets, b, cached.value.size), |b|)
    else cached.value
  }

  /** When the file only had bytes appended since the cached index was built
      from it, and that older version was empty or ended a line, the updated
      index is the index of the current bytes. */
  lemma UpdateAfterAppend(p: seq<byte>, b: seq<byte>, modified: bool)
    requires |p| <= |b| && b[..|p|] == p
    requires p == [] || p[|p| - 1] == Newline
    ensures UpdateIndex(Some(LineIndex(Index(p), |p|)), b, modified) == LineIndex(Index(b), |b|)
  {
    if !modified && |b| > |p| {
      ExtendMatchesRebuild(b, |p|);
    } else if !modified {
      assert b == p;
    }
  }
}

=== FILE: logs_page.dfy ===
/** The log viewer page (web/mamotama-admin/src/pages/Logs.tsx): the query it
    sends to the read endpoint, the request each control makes, how a reply
    becomes the window on screen and the state of the two paging buttons, and
    what a failed read leaves behind. Rendering, timers, downloads and the
    fetch itself are left out: a reply, or what was thrown, is an input. */
module LogsPage {
  import opened Wrappers
  import opened Numeric
  import opened Bytes
  import LogIndex
  import LogsRead

  // ---------------------------------------------------------------------------
  // The query

  datatype Source = Waf | AccErr | Intr

  /** `SRC_TO_PARAM`. */
  function SourceText(s: Source): (t: string)
    ensures t in LogsRead.Sources
  {
    match s
    case Waf => "waf"
    case AccErr => "accerr"
    case Intr => "intr"
  }

  /** The page offers exactly the sources the endpoint accepts, each under its
      own name. */
  lemma SourcesMatchEndpoint(t: string)
    ensures t in LogsRead.Sources <==> exists s :: SourceText(s) == t
    ensures forall s, s' :: SourceText(s) == SourceText(s') ==> s == s'
  {
    if t == "waf" { assert SourceText(Waf) == t; }
    if t == "accerr" { assert SourceText(AccErr) == t; }
    if t == "intr" { assert SourceText(Intr) == t; }
  }

  datatype Dir = Prev | Next

  /** The `dir` parameter: absent (empty) when no direction is chosen. */
  function DirText(d: Option<Dir>): (t: string)
    ensures t == "" <==> d.None?
    ensures t == "prev" <==> d == Some(Prev)
    ensures t == "next" <==> d == Some(Next)
  {
    match d
    case None => ""
    case Some(Prev) => "prev"
    case Some(Next) => "next"
  }

  /** The `cursor` parameter: absent (empty) when there is none. */
  function CursorText(c: Option<int>): (t: string)
    ensures t == "" <==> c.None?
  {
    match c
    case None => ""
    case Some(v) => IntToDecimal(v)
  }

  /** A query string as its name/value pairs, in order. */
  type Query = seq<(string, string)>

  /** The value a server reads for `k`: the first one given, and the empty
      text when the name is absent. */
  function Param(q: Query, k: string): (v: string)
    ensures (forall i :: 0 <= i < |q| ==> q[i].0 != k) ==> v == ""
    ensures v != "" ==> exists i :: 0 <= i < |q| && q[i] == (k, v)
    decreases |q|
  {
    if |q| == 0 then ""
    else if q[0].0 == k then q[0].1
    else
      var v := Param(q[1..], k);
      assert forall i :: 1 <= i < |q| ==> q[1..][i - 1] == q[i];
      v
  }

  /** The value of `k` in a query where it first appears at position `i`. */
  lemma {:induction false} ParamAt(q: Query, k: string, i: nat)
    requires i < |q| && q[i].0 == k
    requires forall j :: 0 <= j < i ==> q[j].0 != k
    ensures Param(q, k) == q[i].1
    decreases i
  {
    if i > 0 {
      assert forall j :: 0 <= j < i - 1 ==> q[1..][j] == q[j + 1];
      ParamAt(q[1..], k, i - 1);
    }
  }

  /** `readLogs`: `src` and `tail` always, `cursor` and `dir` only when set,
      in that order. */
  function ReadLogsQuery(src: Source, tail: int, cursor: Option<int>, dir: Option<Dir>): (q: Query)
    ensures |q| == 2 + (if cursor.Some? then 1 else 0) + (if dir.Some? then 1 else 0)
    ensures q[0] == ("src", SourceText(src)) && q[1] == ("tail", IntToDecimal(tail))
    ensures cursor.Some? ==> q[2] == ("cursor", IntToDecimal(cursor.value))
    ensures dir.Some? ==> q[|q| - 1] == ("dir", DirText(dir))
  {
    var q0 := [("src", SourceText(src)), ("tail", IntToDecimal(tail))];
    var q1 := if cursor.Some? then [("cursor", CursorText(cursor))] else [];
    var q2 := if dir.Some? then [("dir", DirText(dir))] else [];
    q0 + q1 + q2
  }

  /** The names the page writes differ in their first letter. */
  lemma NamesDiffer()
    ensures "src" != "tail" && "src" != "cursor" && "src" != "dir"
    ensures "tail" != "cursor" && "tail" != "dir" && "cursor" != "dir"
  {
    assert "src"[0] == 's' && "tail"[0] == 't' && "cursor"[0] == 'c' && "dir"[0] == 'd';
  }

  /** `src` and `tail` read as written. */
  lemma QueryHead(src: Source, tail: int, cursor: Option<int>, dir: Option<Dir>)
    ensures var q := ReadLogsQuery(src, tail, cursor, dir);
            Param(q, "src") == SourceText(src) && Param(q, "tail") == IntToDecimal(tail)
  {
    var q := ReadLogsQuery(src, tail, cursor, dir);
    NamesDiffer();
    ParamAt(q, "src", 0);
    ParamAt(q, "tail", 1);
  }

  /** `cursor` reads as written, and as empty when left out. */
  lemma QueryCursor(src: Source, tail: int, cursor: Option<int>, dir: Option<Dir>)
    ensures Param(ReadLogsQuery(src, tail, cursor, dir), "cursor") == CursorText(cursor)
  {
    var q := ReadLogsQuery(src, tail, cursor, dir);
    NamesDiffer();
    if cursor.Some? {
      ParamAt(q, "cursor", 2);
    } else {
      assert forall i :: 0 <= i < |q| ==> q[i].0 in {"src", "tail", "dir"};
    }
  }

  /** `dir` reads as written, and as empty when left out. */
  lemma QueryDir(src: Source, tail: int, cursor: Option<int>, dir: Option<Dir>)
    ensures Param(ReadLogsQuery(src, tail, cursor, dir), "dir") == DirText(dir)
  {
    var q := ReadLogsQuery(src, tail, cursor, dir);
    NamesDiffer();
    if dir.Some? {
      ParamAt(q, "dir", |q| - 1);
    } else {
      assert forall i :: 0 <= i < |q| ==> q[i].0 in {"src", "tail", "cursor"};
    }
  }

  /** A cursor written in decimal reads back as itself. */
  lemma CursorReadsBack(c: Option<int>)
    requires c.Some? ==> MinInt64 <= c.value <= MaxInt64
    ensures LogsRead.CursorParam(CursorText(c)) == c
  {
    if c.Some? {
      AtoiOfItoa(c.value);
    }
  }

  /** The endpoint reads back what the page sent: the source, a row count the
      page offers, the cursor and the direction. */
  lemma QueryReadsBack(src: Source, tail: int, cursor: Option<int>, dir: Option<Dir>)
    requires 1 <= tail <= LogsRead.MaxLinesPerRead
    requires cursor.Some? ==> MinInt64 <= cursor.value <= MaxInt64
    ensures var q := ReadLogsQuery(src, tail, cursor, dir);
            && Param(q, "src") == SourceText(src)
            && LogsRead.TailParam(Param(q, "tail")) == tail
            && LogsRead.CursorParam(Param(q, "cursor")) == cursor
            && Param(q, "dir") == DirText(dir)
  {
    QueryHead(src, tail, cursor, dir);
    QueryCursor(src, tail, cursor, dir);
    QueryDir(src, tail, cursor, dir);
    AtoiOfItoa(tail);
    CursorReadsBack(cursor);
  }

  // ---------------------------------------------------------------------------
  // Page state and requests

  /** A reply as the page reads it: how many lines came back, `next_cursor`,
      `has_more`, and `has_prev` / `has_next` when they are booleans. */
  datatype ReadResponse = ReadResponse(lineCount: nat, nextCursor: Option<int>, hasMore: bool,
                                       hasPrev: Option<bool>, hasNext: Option<bool>)

  datatype PageState = PageState(
    src: Source,
    tail: int,
    pageStart: Option<int>,
    pageEnd: Option<int>,
    dir: Option<Dir>,
    cursor: Option<int>,
    data: Option<ReadResponse>,
    loading: bool,
    canPrev: bool,
    canNext: bool)

  /** The options `load` is called with. */
  datatype LoadOpts = LoadOpts(reset: bool, dir: Option<Dir>, cursor: Option<int>)

  /** What one load reads: the cursor and the direction it sends. */
  datatype Request = Request(cursor: Option<int>, dir: Option<Dir>)

  /** The request `load` makes, as written: the direction given, else the one
      in the state; no cursor on a reset or without a direction; otherwise the
      cursor given, else the page start for `prev` and the page end for
      `next`. A reset keeps the state's direction. */
  function RequestFor(s: PageState, o: LoadOpts): (r: Request)
    ensures r.dir == (if o.dir.Some? then o.dir else s.dir)
    ensures o.reset || r.dir.None? ==> r.cursor.None?
    ensures !o.reset && r.dir.Some? ==>
              r.cursor == (if o.cursor.Some? then o.cursor
                           else if r.dir == Some(Prev) then s.pageStart else s.pageEnd)
  {
    var useDir := if o.dir.Some? then o.dir else s.dir;
    var useCursor :=
      if o.reset || useDir.None? then None
      else if o.cursor.Some? then o.cursor
      else if useDir == Some(Prev) then s.pageStart
      else s.pageEnd;
    Request(useCursor, useDir)
  }

  /** The request with a reset read from the end of the file, which every
      reset asks for (no cursor, and no paging flags). Other loads are as
      written. */
  function RequestForIntended(s: PageState, o: LoadOpts): (r: Request)
    ensures o.reset ==> r == Request(None, None)
    ensures !o.reset ==> r == RequestFor(s, o)
  {
    if o.reset then Request(None, None) else RequestFor(s, o)
  }

  /** As written, a reset made after paging towards older lines ("next ▶"
      leaves the direction `prev` in the state) asks for the window ending
      `tail` lines before the end, not for the latest lines. This is what
      "Reload latest" sends, since its handler still sees the old direction,
      and what a change of the row count sends. */
  lemma StaleResetMissesLatest(s: PageState, totalLines: nat)
    requires s.dir == Some(Prev)
    requires 1 <= s.tail < totalLines
    ensures var r := RequestFor(s, LoadOpts(true, None, None));
            var w := LogsRead.ReadWindow(totalLines, s.tail, r.cursor, DirText(r.dir)).value;
            r == Request(None, Some(Prev)) && w.end == totalLines - s.tail && w.hasNext
  {
  }

  /** With 100 lines and 30 rows, after one "next ▶", "Reload latest" shows
      lines 40 to 69 instead of 70 to 99. */
  lemma StaleResetExample()
    ensures var s := PageState(Waf, 30, Some(40), Some(70), Some(Prev), Some(40), None, false, true, true);
            var r := RequestFor(s, LoadOpts(true, None, None));
            var w := LogsRead.ReadWindow(100, 30, r.cursor, DirText(r.dir)).value;
            w.start == 40 && w.end == 70
  {
  }

  /** In the same state, switching Rows to 50 reloads with the new `tail` but
      the stale `prev`: lines 0 to 49 instead of 50 to 99. */
  lemma StaleRowsChangeExample()
    ensures var s := PageState(Waf, 50, Some(40), Some(70), Some(Prev), Some(40), None, false, true, true);
            var r := RequestFor(s, LoadOpts(true, None, None));
            var w := LogsRead.ReadWindow(100, 50, r.cursor, DirText(r.dir)).value;
            w.start == 0 && w.end == 50
  {
  }

  /** Corrected, every reset reads the latest lines, whatever the state. */
  lemma IntendedResetReadsLatest(s: PageState, totalLines: nat)
    requires s.tail >= 1
    ensures var r := RequestForIntended(s, LoadOpts(true, None, None));
            var w := LogsRead.ReadWindow(totalLines, s.tail, r.cursor, DirText(r.dir)).value;
            w.end == totalLines && !w.hasNext &&
            w.end - w.start == (if totalLines < s.tail then totalLines else s.tail)
  {
    LogsRead.LatestWindow(totalLines, s.tail, "");
  }

  // ---------------------------------------------------------------------------
  // Applying a reply

  /** The window a reply shows: for `prev`, `next_cursor` is its start;
      otherwise its end, and it reaches back as many lines as came. A missing
      cursor counts as 0. */
  function PageOf(dir: Option<Dir>, r: ReadResponse): (p: (int, int))
    ensures dir == Some(Prev) ==> p.1 - p.0 == r.lineCount
    ensures dir != Some(Prev) ==> p.1 == r.nextCursor.GetOr(0) && p.0 == if p.1 >= r.lineCount then p.1 - r.lineCount else 0
    ensures r.nextCursor.GetOr(0) >= 0 ==> 0 <= p.0 <= p.1
  {
    var c := r.nextCursor.GetOr(0);
    if dir == Some(Prev) then (c, c + r.lineCount)
    else (if c - r.lineCount > 0 then c - r.lineCount else 0, c)
  }

  /** The buttons a reply enables, as `(canPrev, canNext)`. When the reply
      carries `has_prev` or `has_next`, "◀ prev" (towards newer lines) follows
      `has_next` and "next ▶" (towards older lines) follows `has_prev`.
      Otherwise they are guessed from `has_more` and the direction read. */
  function Flags(reset: bool, dir: Option<Dir>, r: ReadResponse): (f: (bool, bool))
    ensures r.hasPrev.Some? || r.hasNext.Some? ==>
              f == (r.hasNext == Some(true), r.hasPrev == Some(true))
    ensures r.hasPrev.None? && r.hasNext.None? && (reset || dir.None?) ==> !f.0 && f.1 == r.hasMore
    ensures r.hasPrev.None? && r.hasNext.None? && !reset && dir == Some(Next) ==> f == (true, r.hasMore)
    ensures r.hasPrev.None? && r.hasNext.None? && !reset && dir == Some(Prev) ==> f == (r.hasMore, true)
  {
    if r.hasPrev.Some? || r.hasNext.Some? then (r.hasNext == Some(true), r.hasPrev == Some(true))
    else if reset || dir.None? then (false, r.hasMore)
    else if dir == Some(Next) then (true, r.hasMore)
    else (r.hasMore, true)
  }

  /** The state after a successful read: the reply, its window, the cursor at
      the window edge the direction continues from, the direction read and the
      buttons. */
  function Loaded(s: PageState, reset: bool, req: Request, r: ReadResponse): (s': PageState)
    ensures s'.data == Some(r) && s'.dir == req.dir
    ensures s'.pageStart.Some? && s'.pageEnd.Some?
    ensures (s'.pageStart.value, s'.pageEnd.value) == PageOf(req.dir, r)
    ensures s'.cursor == (if req.dir == Some(Prev) then s'.pageStart else s'.pageEnd)
    ensures (s'.canPrev, s'.canNext) == Flags(reset, req.dir, r)
    ensures s'.src == s.src && s'.tail == s.tail && s'.loading == s.loading
  {
    var (start, end) := PageOf(req.dir, r);
    var (canPrev, canNext) := Flags(reset, req.dir, r);
    s.(data := Some(r), pageStart := Some(start), pageEnd := Some(end),
       cursor := Some(if req.dir == Some(Prev) then start else end),
       dir := req.dir, canPrev := canPrev, canNext := canNext)
  }

  /** What a read can throw: a bare text (the abort reasons) or an error
      object with a name and maybe a numeric code. */
  datatype Thrown = Reason(text: string) | Error(name: string, code: Option<int>)

  /** The failures that are aborts and are not reported. */
  predicate IsAbort(e: Thrown) {
    match e
    case Reason(t) => t == "refresh" || t == "unmount"
    case Error(n, c) => n == "AbortError" || c == Some(20)
  }

  /** The end of one load: the state it leaves and whether it reports an
      error. Success applies the reply; any failure leaves the state as it was
      and reports only what is not an abort. Either way the load clears
      `loading`, even when it was aborted by a newer load still in flight. */
  function Settle(s: PageState, reset: bool, req: Request,
                  outcome: Result<ReadResponse, Thrown>): (r: (PageState, bool))
    ensures !r.0.loading
    ensures outcome.Failure? ==> r.0 == s.(loading := false) && (r.1 <==> !IsAbort(outcome.error))
    ensures outcome.Success? ==> !r.1 && r.0.data == Some(outcome.value) && r.0.dir == req.dir
  {
    match outcome
    case Success(resp) => (Loaded(s, reset, req, resp).(loading := false), false)
    case Failure(e) => (s.(loading := false), !IsAbort(e))
  }

  /** `load` as written: the direction is the one asked for, else the page's
      current one, so a reset that asks for none keeps a stale direction. A
      failure changes nothing but `loading`. */
  function Load(s: PageState, o: LoadOpts, outcome: Result<ReadResponse, Thrown>): (r: (PageState, bool))
    ensures outcome.Success? ==> !r.1 && r.0.data == Some(outcome.value)
    ensures outcome.Success? ==> r.0.dir == (if o.dir.Some? then o.dir else s.dir)
    ensures outcome.Success? && o.reset && o.dir.None? && s.dir == Some(Prev) ==>
              r.0.dir == Some(Prev) && r.0.pageStart == Some(outcome.value.nextCursor.GetOr(0))
    ensures outcome.Failure? ==> r.0 == s.(loading := false)
  {
    Settle(s, o.reset, RequestFor(s, o), outcome)
  }

  /** `load` with the corrected request: a reset always ends with no
      direction and the page ending at the returned cursor. */
  function LoadIntended(s: PageState, o: LoadOpts, outcome: Result<ReadResponse, Thrown>): (r: (PageState, bool))
    ensures outcome.Success? && o.reset ==> r.0.dir.None? && r.0.pageEnd == Some(outcome.value.nextCursor.GetOr(0))
    ensures outcome.Failure? ==> r.0 == s.(loading := false)
  {
    Settle(s, o.reset, RequestForIntended(s, o), outcome)
  }

  /** The two loads differ only on a reset from a page that has a direction. */
  lemma LoadAgreesWithoutStaleDir(s: PageState, o: LoadOpts, outcome: Result<ReadResponse, Thrown>)
    requires !o.reset || (o.dir.None? && s.dir.None?)
    ensures Load(s, o, outcome) == LoadIntended(s, o, outcome)
  {
  }

  // ---------------------------------------------------------------------------
  // The controls

  function Reset(): LoadOpts { LoadOpts(true, None, None) }

  /** Choosing a source clears the cursor and the direction. When the source
      changes, the reload it triggers reads the latest lines; choosing the
      source already shown triggers no reload. */
  function SelectSource(s: PageState, x: Source): (s': PageState)
    ensures s'.src == x && s'.cursor.None? && s'.dir.None?
    ensures RequestFor(s', Reset()) == Request(None, None)
  {
    s.(src := x, cursor := None, dir := None)
  }

  /** "◀ prev": the lines after the window, read `next` from its end. */
  function NewerRequest(s: PageState): (r: Request)
    ensures r == Request(s.pageEnd, Some(Next))
  {
    RequestFor(s, LoadOpts(false, Some(Next), None))
  }

  /** "next ▶": the lines before the window, read `prev` from its start. */
  function OlderRequest(s: PageState): (r: Request)
    ensures r == Request(s.pageStart, Some(Prev))
  {
    RequestFor(s, LoadOpts(false, Some(Prev), None))
  }

  /** The reply the endpoint gives the page for a window of a file whose
      lines all decode. */
  function ReplyFor(p: LogsRead.Response): (r: ReadResponse)
    requires p.Page?
    ensures r.lineCount == |p.lines| && r.nextCursor == p.nextCursor
    ensures r.hasPrev == Some(p.hasPrev) && r.hasNext == Some(p.hasNext)
  {
    ReadResponse(|p.lines|, p.nextCursor, p.hasMore, Some(p.hasPrev), Some(p.hasNext))
  }

  /** A reply that reports window `w` in full. */
  predicate Reports(r: ReadResponse, w: LogsRead.Window) {
    && r.lineCount == w.end - w.start
    && r.nextCursor == Some(w.nextCursor)
    && r.hasPrev == Some(w.hasPrev)
    && r.hasNext == Some(w.hasNext)
  }

  /** The endpoint's reply, in terms of the parameters it reads back. */
  lemma EndpointPage(srcQ: string, tailQ: string, dirQ: string, cursorQ: string,
                     b: seq<byte>, decodes: seq<byte> -> bool)
    requires forall l :: decodes(l)
    requires srcQ in LogsRead.Sources
    requires dirQ == "" || dirQ == "prev" || dirQ == "next"
    ensures var p := LogsRead.LogsRead(srcQ, tailQ, dirQ, cursorQ, Some(b), decodes);
            var w := LogsRead.ReadWindow(|LogIndex.Pieces(b)|, LogsRead.TailParam(tailQ),
                                         LogsRead.CursorParam(cursorQ), dirQ).value;
            p.Page? && Reports(ReplyFor(p), w)
  {
    LogIndex.IndexShape(b);
  }

  /** The endpoint answers the page's query, for a file whose lines all
      decode, with a reply reporting the window it read. */
  lemma EndpointReportsWindow(src: Source, tail: int, req: Request, b: seq<byte>, decodes: seq<byte> -> bool)
    requires forall l :: decodes(l)
    requires 1 <= tail <= LogsRead.MaxLinesPerRead
    requires req.cursor.Some? ==> 0 <= req.cursor.value <= MaxInt64
    ensures var q := ReadLogsQuery(src, tail, req.cursor, req.dir);
            var p := LogsRead.LogsRead(Param(q, "src"), Param(q, "tail"), Param(q, "dir"),
                                       Param(q, "cursor"), Some(b), decodes);
            var w := LogsRead.ReadWindow(|LogIndex.Pieces(b)|, tail, req.cursor, DirText(req.dir)).value;
            p.Page? && Reports(ReplyFor(p), w)
  {
    QueryReadsBack(src, tail, req.cursor, req.dir);
    var q := ReadLogsQuery(src, tail, req.cursor, req.dir);
    EndpointPage(Param(q, "src"), Param(q, "tail"), Param(q, "dir"), Param(q, "cursor"), b, decodes);
  }

  /** A reply reporting the window read for a request places the page on that
      window, and the buttons on the lines either side of it. */
  lemma LoadedOnWindow(s: PageState, reset: bool, req: Request, totalLines: nat, r: ReadResponse)
    requires 1 <= s.tail
    requires Reports(r, LogsRead.ReadWindow(totalLines, s.tail, req.cursor, DirText(req.dir)).value)
    ensures var w := LogsRead.ReadWindow(totalLines, s.tail, req.cursor, DirText(req.dir)).value;
            var s' := Loaded(s, reset, req, r);
            && s'.pageStart == Some(w.start) && s'.pageEnd == Some(w.end)
            && (s'.canPrev <==> w.end < totalLines)
            && (s'.canNext <==> w.start > 0)
  {
  }

  /** End to end: when every line decodes, the page a load shows is exactly
      the window the endpoint read, and "◀ prev" and "next ▶" are enabled
      exactly when lines lie after and before it. This holds for whatever
      request the load sends: `RequestFor` as written as well as
      `RequestForIntended`. */
  lemma PageIsServerWindow(s: PageState, reset: bool, req: Request, b: seq<byte>, decodes: seq<byte> -> bool)
    requires forall l :: decodes(l)
    requires 1 <= s.tail <= LogsRead.MaxLinesPerRead
    requires req.cursor.Some? ==> 0 <= req.cursor.value <= MaxInt64
    ensures var q := ReadLogsQuery(s.src, s.tail, req.cursor, req.dir);
            var p := LogsRead.LogsRead(Param(q, "src"), Param(q, "tail"), Param(q, "dir"),
                                       Param(q, "cursor"), Some(b), decodes);
            var w := LogsRead.ReadWindow(|LogIndex.Pieces(b)|, s.tail, req.cursor, DirText(req.dir)).value;
            && p.Page?
            && var s' := Loaded(s, reset, req, ReplyFor(p));
            && s'.pageStart == Some(w.start) && s'.pageEnd == Some(w.end)
            && (s'.canPrev <==> w.end < |LogIndex.Pieces(b)|)
            && (s'.canNext <==> w.start > 0)
  {
    EndpointReportsWindow(s.src, s.tail, req, b, decodes);
    var q := ReadLogsQuery(s.src, s.tail, req.cursor, req.dir);
    var p := LogsRead.LogsRead(Param(q, "src"), Param(q, "tail"), Param(q, "dir"),
                               Param(q, "cursor"), Some(b), decodes);
    LoadedOnWindow(s, reset, req, |LogIndex.Pieces(b)|, ReplyFor(p));
  }

  /** The load as written, after any load options, shows the endpoint's
      window. */
  lemma LoadShowsServerWindow(s: PageState, o: LoadOpts, b: seq<byte>, decodes: seq<byte> -> bool)
    requires forall l :: decodes(l)
    requires 1 <= s.tail <= LogsRead.MaxLinesPerRead
    requires var c := RequestFor(s, o).cursor; c.Some? ==> 0 <= c.value <= MaxInt64
    ensures var req := RequestFor(s, o);
            var q := ReadLogsQuery(s.src, s.tail, req.cursor, req.dir);
            var p := LogsRead.LogsRead(Param(q, "src"), Param(q, "tail"), Param(q, "dir"),
                                       Param(q, "cursor"), Some(b), decodes);
            var w := LogsRead.ReadWindow(|LogIndex.Pieces(b)|, s.tail, req.cursor, DirText(req.dir)).value;
            && p.Page?
            && var s' := Load(s, o, Success(ReplyFor(p))).0;
            && s'.pageStart == Some(w.start) && s'.pageEnd == Some(w.end)
            && (s'.canPrev <==> w.end < |LogIndex.Pieces(b)|)
            && (s'.canNext <==> w.start > 0)
  {
    PageIsServerWindow(s, o.reset, RequestFor(s, o), b, decodes);
  }

  /** Paging agrees with the buttons: after a page showing the endpoint's
      window, "◀ prev" reads a non-empty window exactly when it is enabled, and
      so does "next ▶", provided the file has not changed. Like
      `PageIsServerWindow`, this holds whatever request produced the page. */
  lemma ButtonsMatchNeighbours(s: PageState, reset: bool, req: Request, totalLines: nat, w: LogsRead.Window)
    requires 1 <= s.tail
    requires w == LogsRead.ReadWindow(totalLines, s.tail, req.cursor, DirText(req.dir)).value
    ensures var reply := ReadResponse(w.end - w.start, Some(w.nextCursor),
                                      if req.dir == Some(Prev) then w.hasPrev else w.hasNext,
                                      Some(w.hasPrev), Some(w.hasNext));
            var s' := Loaded(s, reset, req, reply);
            var newer := NewerRequest(s');
            var older := OlderRequest(s');
            var wn := LogsRead.ReadWindow(totalLines, s.tail, newer.cursor, DirText(newer.dir)).value;
            var wo := LogsRead.ReadWindow(totalLines, s.tail, older.cursor, DirText(older.dir)).value;
            && (s'.canPrev <==> wn.start < wn.end)
            && (s'.canNext <==> wo.start < wo.end)
            && wn.start == w.end && wo.end == w.start
  {
  }

  // ---------------------------------------------------------------------------
  // Row colours

  /** The fields of a log line the colour depends on; `status` is `None` when
      it is not a number. */
  datatype LogLine = LogLine(event: Option<string>, status: Option<int>)

  const Blocked: string := "bg-red-50 text-red-700"
  const HitAllowed: string := "bg-yellow-50 text-yellow-700"
  const ServerFailure: string := "bg-orange-50 text-orange-700"

  /** `colorClass`: a block, then an allowed hit, then a server error status. */
  function ColorClass(l: LogLine): (c: string)
    ensures c in {Blocked, HitAllowed, ServerFailure, ""}
  {
    if l.event == Some("waf_block") then Blocked
    else if l.event == Some("waf_hit_allow") then HitAllowed
    else if l.status.Some? && l.status.value >= 500 then ServerFailure
    else ""
  }

  /** The colour tells the case apart: each class is shown for exactly the
      lines of its case, the event outranking the status. */
  lemma ColorClassCases(l: LogLine)
    ensures ColorClass(l) == Blocked <==> l.event == Some("waf_block")
    ensures ColorClass(l) == HitAllowed <==> l.event == Some("waf_hit_allow")
    ensures ColorClass(l) == ServerFailure <==>
              l.event != Some("waf_block") && l.event != Some("waf_hit_allow") &&
              l.status.Some? && l.status.value >= 500
    ensures ColorClass(l) == "" <==>
              l.event != Some("waf_block") && l.event != Some("waf_hit_allow") &&
              (l.status.None? || l.status.value < 500)
  {
  }
}

=== FILE: logs_read.dfy ===
/** The log pager's read endpoint (`LogsRead` and `readByLine` in
    handler/logs.go): query parsing, the cursor and window arithmetic, and the
    lines a window returns. The file is an input (`None` when it does not
    exist) and JSON decoding is a parameter saying which lines decode. */
module LogsRead {
  import opened Wrappers
  import opened Bytes
  import opened Numeric
  import opened LogIndex

  const DefaultTail: int := 30
  const MaxLinesPerRead: int := 200

  /** The log sources a client may name. */
  const Sources: set<string> := {"waf", "accerr", "intr"}

  // ---------------------------------------------------------------------------
  // Query parameters

  /** `clampInt`. */
  function ClampInt(v: int, lo: int, hi: int): (r: int)
    ensures lo <= hi ==> lo <= r <= hi
    ensures lo <= v <= hi ==> r == v
    ensures v < lo ==> r == lo
    ensures lo <= hi && v > hi ==> r == hi
  {
    if v < lo then lo else if v > hi then hi else v
  }

  /** `mustAtoiDefault` (and `mustAtoi64Default`, the same on a 64-bit
      platform): the number written, except that an empty text, a syntax
      error and zero all give the default. A number past the 64-bit range,
      even one followed by stray characters, comes out as the bound on its
      sign's side, as `strconv` returns it. */
  function MustAtoiDefault(s: string, d: int): (r: int)
    ensures s == "" ==> r == d
    ensures !OutOfRange(s) && ParseDecimal(s).None? ==> r == d
    ensures Atoi(s).Some? && Atoi(s).value != 0 ==> r == Atoi(s).value
    ensures Atoi(s) == Some(0) ==> r == d
    ensures s != "" && OutOfRange(s) ==> r == SignBound(s)
  {
    if s == "" then d
    else
      var i := AtoiValue(s);
      if i == 0 then d else i
  }

  /** The `tail` parameter: between 1 and 200; 30 when missing, zero or not a
      number; 200 for anything larger, 1 for anything negative. */
  function TailParam(q: string): (t: int)
    ensures 1 <= t <= MaxLinesPerRead
    ensures q == "" || (!OutOfRange(q) && ParseDecimal(q).None?) || Atoi(q) == Some(0) ==> t == DefaultTail
    ensures Atoi(q).Some? && 1 <= Atoi(q).value <= MaxLinesPerRead ==> t == Atoi(q).value
    ensures Atoi(q).Some? && Atoi(q).value > MaxLinesPerRead ==> t == MaxLinesPerRead
    ensures Atoi(q).Some? && Atoi(q).value < 0 ==> t == 1
    ensures q != "" && OutOfRange(q) ==> t == (if Negative(q) then 1 else MaxLinesPerRead)
  {
    ClampInt(MustAtoiDefault(q, DefaultTail), 1, MaxLinesPerRead)
  }

  /** The `cursor` parameter: absent when empty; otherwise the number written,
      the bound on its sign's side when it overflows, and 0 for anything
      else that is not a number. */
  function CursorParam(q: string): (c: Option<int>)
    ensures q == "" <==> c.None?
    ensures Atoi(q).Some? ==> c == Some(Atoi(q).value)
    ensures q != "" && OutOfRange(q) ==> c == Some(SignBound(q))
    ensures c.Some? && !OutOfRange(q) && ParseDecimal(q).None? ==> c.value == 0
  {
    if q == "" then None else Some(MustAtoiDefault(q, 0))
  }

  /** An overflowing `tail` followed by stray characters reads as 200 and an
      overflowing `cursor` as the largest 64-bit offset. */
  lemma OverflowingParams()
    ensures TailParam(Nines + "x") == MaxLinesPerRead
    ensures CursorParam(Nines + "x") == Some(MaxInt64)
  {
    OverflowBeforeSyntax();
  }

  // ---------------------------------------------------------------------------
  // The window

  /** A read window: lines `start` to `end - 1`, the cursor to hand back, and
      whether lines exist before and after it. */
  datatype Window = Window(start: int, end: int, nextCursor: int, hasPrev: bool, hasNext: bool)

  /** The line the window is anchored at: the given cursor clamped into the
      file, or `tail` lines before the end when none is given. */
  function StartCursor(totalLines: nat, tail: int, cursor: Option<int>): (cur: int)
    requires tail >= 1
    ensures 0 <= cur <= totalLines
    ensures cursor.None? ==> cur == if totalLines >= tail then totalLines - tail else 0
    ensures cursor.Some? && 0 <= cursor.value <= totalLines ==> cur == cursor.value
  {
    match cursor
    case None => if tail > totalLines then 0 else totalLines - tail
    case Some(c) =>
      var c1 := if c < 0 then 0 else c;
      if c1 > totalLines then totalLines else c1
  }

  /** `readByLine`'s window arithmetic. `prev` reads the `tail` lines before the
      cursor, `next` or no direction the `tail` lines from it; any other
      direction is an error. The cursor handed back is the window start for
      `prev` and its end otherwise. */
  function ReadWindow(totalLines: nat, tail: int, cursor: Option<int>, dir: string): (r: Result<Window, string>)
    requires tail >= 1
    ensures r.Failure? <==> dir != "prev" && dir != "next" && dir != ""
    ensures r.Success? ==> var w := r.value;
              && 0 <= w.start <= w.end <= totalLines
              && w.end - w.start <= tail
              && w.nextCursor == (if dir == "prev" then w.start else w.end)
              && (w.hasPrev <==> w.start > 0)
              && (w.hasNext <==> w.end < totalLines)
    ensures r.Success? ==> var cur := StartCursor(totalLines, tail, cursor);
              if dir == "prev" then r.value.end == cur && r.value.start == (if cur >= tail then cur - tail else 0)
              else r.value.start == cur && r.value.end == (if cur + tail <= totalLines then cur + tail else totalLines)
  {
    var cur := StartCursor(totalLines, tail, cursor);
    if dir == "prev" || dir == "next" || dir == "" then
      var start := if dir == "prev" then (if cur - tail > 0 then cur - tail else 0) else cur;
      var end := if dir == "prev" then cur else (if cur + tail < totalLines then cur + tail else totalLines);
      if start >= end then Success(Window(start, end, end, start > 0, end < totalLines))
      else Success(Window(start, end, if dir == "prev" then start else end, start > 0, end < totalLines))
    else Failure("invalid dir")
  }

  /** Paging with the returned cursor tiles the file: the next `next` window
      starts where this one ended, and the next `prev` window ends where this
      one started. */
  lemma WindowsTile(totalLines: nat, tail: int, cursor: Option<int>, dir: string)
    requires tail >= 1
    requires ReadWindow(totalLines, tail, cursor, dir).Success?
    ensures var w := ReadWindow(totalLines, tail, cursor, dir).value;
            var w' := ReadWindow(totalLines, tail, Some(w.nextCursor), dir).value;
            if dir == "prev" then w'.end == w.start else w'.start == w.end
  {
  }

  /** With no cursor, `next` (or no direction) reads the last `tail` lines. */
  lemma LatestWindow(totalLines: nat, tail: int, dir: string)
    requires tail >= 1
    requires dir == "next" || dir == ""
    ensures var w := ReadWindow(totalLines, tail, None, dir).value;
            w.end == totalLines && w.end - w.start == (if totalLines < tail then totalLines else tail) &&
            !w.hasNext && w.nextCursor == totalLines
  {
  }

  // ---------------------------------------------------------------------------
  // The lines of a window

  /** `trimLastNewline`. */
  function TrimLastNewline(l: seq<byte>): (r: seq<byte>)
    ensures EndsLine(l) ==> r + [Newline] == l
    ensures !EndsLine(l) ==> r == l
  {
    if |l| > 0 && l[|l| - 1] == Newline then l[..|l| - 1] else l
  }

  /** Every piece without its line end. */
  function LineBodies(cs: seq<seq<byte>>): (r: seq<seq<byte>>)
    ensures |r| == |cs|
    ensures forall i :: 0 <= i < |cs| ==> r[i] == TrimLastNewline(cs[i])
  {
    seq(|cs|, i requires 0 <= i < |cs| => TrimLastNewline(cs[i]))
  }

  /** Every line of `r` is the body of one of the pieces `cs`. */
  predicate FromPieces(r: seq<seq<byte>>, cs: seq<seq<byte>>) {
    forall x :: x in r ==> exists i :: 0 <= i < |cs| && x == TrimLastNewline(cs[i])
  }

  lemma FromPiecesCons(cs: seq<seq<byte>>, rest: seq<seq<byte>>)
    requires |cs| > 0 && FromPieces(rest, cs[1..])
    ensures FromPieces(rest, cs) && FromPieces([TrimLastNewline(cs[0])] + rest, cs)
  {
    forall x | x in rest
      ensures exists i :: 0 <= i < |cs| && x == TrimLastNewline(cs[i])
    {
      var j :| 0 <= j < |cs[1..]| && x == TrimLastNewline(cs[1..][j]);
      assert x == TrimLastNewline(cs[j + 1]);
    }
  }

  /** The pieces that decode, without their line ends, in order. */
  function Decoded(cs: seq<seq<byte>>, decodes: seq<byte> -> bool): (r: seq<seq<byte>>)
    ensures |r| <= |cs|
    ensures forall i :: 0 <= i < |r| ==> decodes(r[i])
    ensures FromPieces(r, cs)
    ensures (forall i :: 0 <= i < |cs| ==> decodes(TrimLastNewline(cs[i]))) ==> r == LineBodies(cs)
    decreases |cs|
  {
    if |cs| == 0 then []
    else
      var l := TrimLastNewline(cs[0]);
      var rest := Decoded(cs[1..], decodes);
      assert forall i :: 1 <= i < |cs| ==> cs[1..][i - 1] == cs[i];
      assert LineBodies(cs) == [l] + LineBodies(cs[1..]);
      FromPiecesCons(cs, rest);
      if decodes(l) then [l] + rest else rest
  }

  /** Decoding goes piece by piece: the lines of two runs of pieces are the
      lines of the first followed by those of the second. */
  lemma {:induction false} DecodedAppend(a: seq<seq<byte>>, b: seq<seq<byte>>, decodes: seq<byte> -> bool)
    ensures Decoded(a + b, decodes) == Decoded(a, decodes) + Decoded(b, decodes)
    decreases |a|
  {
    if |a| > 0 {
      assert (a + b)[0] == a[0];
      assert (a + b)[1..] == a[1..] + b;
      DecodedAppend(a[1..], b, decodes);
    } else {
      assert a + b == b;
    }
  }

  /** The lines `readByLine` returns for window lines `s` to `e - 1`: the bytes
      between their index entries, read back piece by piece, keeping those
      that decode. */
  function WindowLines(b: seq<byte>, s: nat, e: nat, decodes: seq<byte> -> bool): (ls: seq<seq<byte>>)
    requires s <= e < |Index(b)|
  {
    var ix := Index(b);
    SliceOfPieces(b, s, e);
    Decoded(Pieces(b[ix[s]..ix[e]]), decodes)
  }

  /** The window's bytes read back as pieces are exactly the file's lines `s`
      to `e - 1`, so at most `e - s` lines come back, and all of them when
      every line decodes. */
  lemma WindowLinesAreLines(b: seq<byte>, s: nat, e: nat, decodes: seq<byte> -> bool)
    requires s <= e < |Index(b)|
    ensures var ix := Index(b);
            ix[s] <= ix[e] <= |b| && Pieces(b[ix[s]..ix[e]]) == Pieces(b)[s..e]
    ensures |WindowLines(b, s, e, decodes)| <= e - s
    ensures WindowLines(b, s, e, decodes) == Decoded(Pieces(b)[s..e], decodes)
  {
    var cs := Pieces(b);
    SliceOfPieces(b, s, e);
    PiecesFacts(b);
    assert WellCut(cs[s..e]) by {
      assert forall i :: 0 <= i < e - s ==> cs[s..e][i] == cs[s + i];
    }
    PiecesOfConcat(cs[s..e]);
  }

  // ---------------------------------------------------------------------------
  // The endpoint

  datatype Response =
    | BadSource
    | ServerError(error: string)
    | Page(lines: seq<seq<byte>>, nextCursor: Option<int>, hasMore: bool, hasPrev: bool, hasNext: bool)

  /** `readByLine` on the file's bytes, with the index rebuilt from them. The
      cached index agrees with this one while the log grows by whole lines
      (`LogIndex.UpdateAfterAppend`), not after growth that ended mid-line. */
  function ReadByLine(b: seq<byte>, tail: int, cursor: Option<int>, dir: string,
                      decodes: seq<byte> -> bool): (r: Result<(seq<seq<byte>>, Window), string>)
    requires tail >= 1
    ensures r.Success? <==> ReadWindow(|Index(b)| - 1, tail, cursor, dir).Success?
    ensures r.Success? ==> r.value.1 == ReadWindow(|Index(b)| - 1, tail, cursor, dir).value
    ensures r.Success? ==> |r.value.0| <= r.value.1.end - r.value.1.start
    ensures r.Success? && (forall l :: decodes(l)) ==> |r.value.0| == r.value.1.end - r.value.1.start
    ensures r.Success? ==> r.value.0 == Decoded(Pieces(b)[r.value.1.start..r.value.1.end], decodes)
  {
    var ix := Index(b);
    IndexShape(b);
    var totalLines := |ix| - 1;
    match ReadWindow(totalLines, tail, cursor, dir)
    case Failure(e) => Failure(e)
    case Success(w) =>
      if w.start >= w.end then Success(([], w))
      else
        WindowLinesAreLines(b, w.start, w.end, decodes);
        Success((WindowLines(b, w.start, w.end, decodes), w))
  }

  /** `LogsRead`. An unknown source is refused, a missing file is an empty page
      without a cursor, and otherwise the page holds the decodable lines of the
      window the parameters select, with that window's cursor and flags;
      `has_more` follows the direction read. */
  function LogsRead(src: string, tailQ: string, dir: string, cursorQ: string,
                    file: Option<seq<byte>>, decodes: seq<byte> -> bool): (r: Response)
    ensures src !in Sources <==> r.BadSource?
    ensures src in Sources && file.None? ==> r == Page([], None, false, false, false)
    ensures r.Page? && file.Some? ==>
              r.nextCursor.Some? && r.hasMore == (if dir == "prev" then r.hasPrev else r.hasNext)
    ensures r.ServerError? <==> src in Sources && file.Some? && dir != "prev" && dir != "next" && dir != ""
    ensures r.Page? && file.Some? ==>
              var w := ReadWindow(|Pieces(file.value)|, TailParam(tailQ), CursorParam(cursorQ), dir).value;
              && r.lines == Decoded(Pieces(file.value)[w.start..w.end], decodes)
              && r.nextCursor == Some(w.nextCursor)
              && r.hasPrev == w.hasPrev && r.hasNext == w.hasNext
  {
    if src !in Sources then BadSource
    else
      var tail := TailParam(tailQ);
      var cursor := CursorParam(cursorQ);
      match file
      case None => Page([], None, false, false, false)
      case Some(b) =>
        match ReadByLine(b, tail, cursor, dir, decodes)
        case Failure(e) => ServerError(e)
        case Success((lines, w)) =>
          Page(lines, Some(w.nextCursor), if dir == "prev" then w.hasPrev else w.hasNext, w.hasPrev, w.hasNext)
  }

  /** A page never holds more lines than the `tail` asked for (after clamping). */
  lemma PageWithinTail(src: string, tailQ: string, dir: string, cursorQ: string,
                       file: Option<seq<byte>>, decodes: seq<byte> -> bool)
    ensures var r := LogsRead(src, tailQ, dir, cursorQ, file, decodes);
            r.Page? ==> |r.lines| <= TailParam(tailQ)
  {
  }
}

=== FILE: numeric.dfy ===
/** Decimal integers as Go's `strconv` reads and writes them, with the 64-bit
    `int` range written out. */
module Numeric {
  import opened Wrappers

  const MinInt64: int := -0x8000_0000_0000_0000
  const MaxInt64: int := 0x7FFF_FFFF_FFFF_FFFF

  predicate IsDigit(c: char) {
    '0' <= c <= '9'
  }

  predicate AllDigits(s: string) {
    forall i :: 0 <= i < |s| ==> IsDigit(s[i])
  }

  function DigitValue(c: char): nat
    requires IsDigit(c)
  {
    c as int - '0' as int
  }

  function DigitChar(d: nat): (c: char)
    requires d < 10
    ensures IsDigit(c) && DigitValue(c) == d
  {
    ('0' as int + d) as char
  }

  /** The value of a string of decimal digits, most significant first. */
  function DigitsValue(ds: string): nat
    requires AllDigits(ds)
    decreases |ds|
  {
    if |ds| == 0 then 0 else DigitsValue(ds[..|ds| - 1]) * 10 + DigitValue(ds[|ds| - 1])
  }

  /** The syntax `strconv.ParseInt(s, 10, 64)` accepts: an optional `+` or `-`
      followed by at least one decimal digit and nothing else. The 64-bit range
      check is separate (`Atoi`). */
  function ParseDecimal(s: string): (r: Option<int>)
    ensures r.Some? ==> |s| > 0
  {
    if |s| > 0 && (s[0] == '+' || s[0] == '-') then
      var ds := s[1..];
      if |ds| > 0 && AllDigits(ds) then
        var v: int := if s[0] == '-' then -(DigitsValue(ds) as int) else DigitsValue(ds) as int;
        Some(v)
      else None
    else if |s| > 0 && AllDigits(s) then Some(DigitsValue(s) as int)
    else None
  }

  /** `strconv.Atoi` on a 64-bit platform: the value when there is no error. */
  function Atoi(s: string): (r: Option<int>)
    ensures r.Some? ==> MinInt64 <= r.value <= MaxInt64
    ensures r.Some? <==> ParseDecimal(s).Some? && MinInt64 <= ParseDecimal(s).value <= MaxInt64
    ensures r.Some? ==> r == ParseDecimal(s)
  {
    match ParseDecimal(s)
    case Some(v) => if MinInt64 <= v <= MaxInt64 then Some(v) else None
    case None => None
  }

  // ---------------------------------------------------------------------------
  // The value `strconv.Atoi` returns beside its error

  const MaxUint64: int := 0xFFFF_FFFF_FFFF_FFFF

  /** The length of the leading run of decimal digits. */
  function DigitRun(ds: string): (k: nat)
    ensures k <= |ds| && AllDigits(ds[..k])
    ensures k < |ds| ==> !IsDigit(ds[k])
  {
    if |ds| == 0 || !IsDigit(ds[0]) then 0
    else
      var k := 1 + DigitRun(ds[1..]);
      assert ds[..k] == [ds[0]] + ds[1..][..k - 1];
      k
  }

  /** A digit string one digit longer is worth ten times as much plus that digit. */
  lemma DigitsSnoc(ds: string, i: nat)
    requires i < |ds| && AllDigits(ds[..i + 1])
    ensures AllDigits(ds[..i])
    ensures DigitsValue(ds[..i + 1]) == DigitsValue(ds[..i]) * 10 + DigitValue(ds[i])
  {
    assert ds[..i + 1][..i] == ds[..i];
  }

  /** Reading more digits never lowers the value. */
  lemma {:induction false} DigitsMonotone(ds: string, a: nat, b: nat)
    requires a <= b <= |ds| && AllDigits(ds[..b])
    ensures AllDigits(ds[..a])
    ensures DigitsValue(ds[..a]) <= DigitsValue(ds[..b])
    decreases b - a
  {
    assert ds[..b][..a] == ds[..a];
    if a < b {
      DigitsSnoc(ds, b - 1);
      DigitsMonotone(ds, a, b - 1);
    }
  }

  /** How `strconv.ParseUint`'s digit loop ends. */
  datatype UintScan = UintOk(n: nat) | UintSyntax | UintRange

  /** `strconv.ParseUint`'s loop in base 10 from position `i`, `n` being the
      value of the digits before it: a non-digit is a syntax error, and a digit
      that takes the value past 2^64 - 1 is a range error, reported before any
      later character is looked at. */
  function ScanUint(ds: string, i: nat, n: nat): (r: UintScan)
    requires i <= |ds| && AllDigits(ds[..i]) && n == DigitsValue(ds[..i]) && n <= MaxUint64
    decreases |ds| - i
  {
    if i == |ds| then UintOk(n)
    else if !IsDigit(ds[i]) then UintSyntax
    else
      var n1 := n * 10 + DigitValue(ds[i]);
      assert AllDigits(ds[..i + 1]) by { assert ds[..i + 1] == ds[..i] + [ds[i]]; }
      DigitsSnoc(ds, i);
      if n1 > MaxUint64 then UintRange else ScanUint(ds, i + 1, n1)
  }

  /** The digit loop overflows exactly when the leading digit run is worth more
      than 2^64 - 1; otherwise it fails exactly when a non-digit follows the run. */
  lemma {:induction false} ScanUintRun(ds: string, i: nat, n: nat)
    requires i <= |ds| && AllDigits(ds[..i]) && n == DigitsValue(ds[..i]) && n <= MaxUint64
    ensures i <= DigitRun(ds)
    ensures ScanUint(ds, i, n) ==
              if DigitsValue(ds[..DigitRun(ds)]) > MaxUint64 then UintRange
              else if DigitRun(ds) < |ds| then UintSyntax
              else UintOk(DigitsValue(ds))
    decreases |ds| - i
  {
    var k := DigitRun(ds);
    if i == |ds| {
      assert ds[..i] == ds;
    } else if !IsDigit(ds[i]) {
    } else {
      assert ds[..i + 1] == ds[..i] + [ds[i]];
      DigitsSnoc(ds, i);
      var n1 := n * 10 + DigitValue(ds[i]);
      if n1 > MaxUint64 {
        DigitsMonotone(ds, i + 1, k);
      } else {
        ScanUintRun(ds, i + 1, n1);
      }
    }
  }

  /** `strconv.ParseUint(ds, 10, 64)`: the empty text is a syntax error. */
  function ParseUint(ds: string): (r: UintScan)
  {
    if ds == "" then UintSyntax else ScanUint(ds, 0, 0)
  }

  /** Whether the text starts with a `-`. */
  predicate Negative(s: string) {
    |s| > 0 && s[0] == '-'
  }

  /** The text after an optional sign. */
  function Unsigned(s: string): string {
    if |s| > 0 && (s[0] == '+' || s[0] == '-') then s[1..] else s
  }

  /** The 64-bit bound on the side of the text's sign. */
  function SignBound(s: string): int {
    if Negative(s) then MinInt64 else MaxInt64
  }

  /** The text overflows 64 bits: its leading digits exceed 2^64 - 1 (whatever
      follows them), or it is a well-formed number outside the 64-bit range. */
  predicate OutOfRange(s: string) {
    var ds := Unsigned(s);
    DigitsValue(ds[..DigitRun(ds)]) > MaxUint64 ||
    (ParseDecimal(s).Some? && !(MinInt64 <= ParseDecimal(s).value <= MaxInt64))
  }

  /** The integer `strconv.ParseInt(s, 10, 64)`, and so `strconv.Atoi`, returns
      beside its error: the value when there is none, the bound on the side of
      the sign after a range error, and 0 after a syntax error. */
  function AtoiValue(s: string): (v: int)
    ensures MinInt64 <= v <= MaxInt64
    ensures Atoi(s).Some? ==> v == Atoi(s).value
    ensures OutOfRange(s) ==> v == SignBound(s)
    ensures !OutOfRange(s) && ParseDecimal(s).None? ==> v == 0
  {
    var ds := Unsigned(s);
    ScanUintRun(ds, 0, 0);
    assert ds[..0] == "";
    assert ds[..|ds|] == ds;
    if s == "" then 0
    else
      match ParseUint(ds)
      case UintSyntax => 0
      case UintRange => SignBound(s)
      case UintOk(u) =>
        if !Negative(s) && u > MaxInt64 then MaxInt64
        else if Negative(s) && u > -MinInt64 then MinInt64
        else if Negative(s) then -(u as int) else u
  }

  function Pow10(k: nat): nat {
    if k == 0 then 1 else 10 * Pow10(k - 1)
  }

  /** k nines are worth 10^k - 1. */
  lemma {:induction false} NinesValue(ds: string, k: nat)
    requires k <= |ds| && forall i :: 0 <= i < k ==> ds[i] == '9'
    ensures AllDigits(ds[..k]) && DigitsValue(ds[..k]) == Pow10(k) - 1
  {
    if k > 0 {
      NinesValue(ds, k - 1);
      assert ds[..k] == ds[..k - 1] + [ds[k - 1]];
      DigitsSnoc(ds, k - 1);
    }
  }

  /** The digit run is the one that ends at the first non-digit. */
  lemma DigitRunIs(ds: string, k: nat)
    requires k <= |ds| && AllDigits(ds[..k]) && (k < |ds| ==> !IsDigit(ds[k]))
    ensures DigitRun(ds) == k
  {
    var j := DigitRun(ds);
    assert forall i :: 0 <= i < k ==> IsDigit(ds[..k][i]) && ds[..k][i] == ds[i];
    assert forall i :: 0 <= i < j ==> IsDigit(ds[..j][i]) && ds[..j][i] == ds[i];
  }

  /** Twenty nines: more than 2^64 - 1. */
  const Nines: string := "99999999999999999999"

  lemma NinesOverflow(s: string)
    requires |s| > 20 && s[..20] == Nines && !IsDigit(s[20])
    ensures DigitRun(s) == 20 && DigitsValue(s[..20]) > MaxUint64
  {
    NinesValue(s, 20);
    DigitRunIs(s, 20);
    assert Pow10(10) == 10000000000;
    assert Pow10(20) == 100000000000000000000;
  }

  /** A digit run past 2^64 - 1 is a range error even when a non-digit follows
      it: `strconv` stops at the overflowing digit, so the value is the
      positive bound. */
  lemma OverflowBeforeSyntax()
    ensures ParseDecimal(Nines + "x").None?
    ensures AtoiValue(Nines + "x") == MaxInt64
  {
    NinesOverflow(Nines + "x");
  }

  /** The same after a minus sign gives the negative bound. */
  lemma NegativeOverflowBeforeSyntax()
    ensures AtoiValue("-" + Nines + "x") == MinInt64
  {
    assert Unsigned("-" + Nines + "x") == Nines + "x";
    NinesOverflow(Nines + "x");
  }

  /** A short digit run followed by a non-digit is a syntax error, worth 0. */
  lemma SyntaxErrorIsZero()
    ensures AtoiValue("99x") == 0
  {
    DigitRunIs("99x", 2);
    assert DigitsValue("99x"[..2]) == 99 by { assert "99x"[..2] == "99"; }
  }

  /** Decimal digits of `n` without leading zeros (`strconv.Itoa`, `%d`). */
  function NatToDecimal(n: nat): (s: string)
    ensures |s| > 0 && AllDigits(s)
    ensures DigitsValue(s) == n
    ensures s[0] != '0' || n == 0
  {
    if n < 10 then [DigitChar(n)]
    else
      var s := NatToDecimal(n / 10) + [DigitChar(n % 10)];
      assert s[..|s| - 1] == NatToDecimal(n / 10);
      s
  }

  /** `strconv.Itoa`: a `-` before the digits of a negative number. */
  function IntToDecimal(i: int): (s: string)
    ensures |s| > 0
    ensures forall k :: 0 <= k < |s| ==> s[k] == '-' || IsDigit(s[k])
  {
    if i < 0 then "-" + NatToDecimal(-i) else NatToDecimal(i)
  }

  /** Every rendered integer is read back as itself. */
  lemma DecimalRoundTrip(i: int)
    ensures ParseDecimal(IntToDecimal(i)) == Some(i)
  {
    if i < 0 {
      assert ("-" + NatToDecimal(-i))[1..] == NatToDecimal(-i);
    }
  }

  /** `strconv.Atoi` reads back what `strconv.Itoa` wrote for every 64-bit value. */
  lemma AtoiOfItoa(i: int)
    requires MinInt64 <= i <= MaxInt64
    ensures Atoi(IntToDecimal(i)) == Some(i)
  {
    DecimalRoundTrip(i);
  }
}

=== FILE: proxy.dfy ===
/** The reverse-proxy handler (handler/proxy.go): the request ID, the bypass
    decision, the WAF verdict, and the headers `ModifyResponse` adds to the
    upstream response. The WAF engine is reduced to what it reports (the IDs
    of the matched rules and an optional interruption status); the generated
    request ID, the clock and the log writers are inputs or left out. */
module Proxy {
  import opened Wrappers
  import opened Text
  import Numeric
  import BypassLoader
  import BypassNormalize
  import CacheLoader

  // ---------------------------------------------------------------------------
  // unique

  /** The first position of `x` in `s`. */
  function FirstIndex(s: seq<string>, x: string): (r: nat)
    requires x in s
    ensures r < |s| && s[r] == x
    ensures forall k :: 0 <= k < r ==> s[k] != x
  {
    if s[0] == x then 0 else 1 + FirstIndex(s[1..], x)
  }

  /** The reference for `unique`: the non-empty strings of `xs`, each at its
      first occurrence, defined by reading `xs` left to right. */
  function UniqueRef(xs: seq<string>): (u: seq<string>)
    ensures forall i :: 0 <= i < |u| ==> u[i] != "" && u[i] in xs
    decreases |xs|
  {
    if |xs| == 0 then []
    else
      var u := UniqueRef(xs[..|xs| - 1]);
      var x := xs[|xs| - 1];
      if x == "" || x in u then u else u + [x]
  }

  /** `unique`, with a set for the Go map of strings seen so far. */
  method Unique(xs: seq<string>) returns (out: seq<string>)
    ensures out == UniqueRef(xs)
  {
    var seen: set<string> := {};
    out := [];
    var i := 0;
    while i < |xs|
      invariant 0 <= i <= |xs|
      invariant out == UniqueRef(xs[..i])
      invariant forall x :: x in seen <==> x in out
    {
      var s := xs[i];
      assert xs[..i + 1][..i] == xs[..i];
      if s !in seen && s != "" {
        seen := seen + {s};
        out := out + [s];
      }
      i := i + 1;
    }
    assert xs[..|xs|] == xs;
  }

  /** A value's first position does not move when more values follow. */
  lemma FirstIndexSnoc(s: seq<string>, x: string, y: string)
    requires y in s
    ensures FirstIndex(s + [x], y) == FirstIndex(s, y)
  {
    var a := FirstIndex(s + [x], y);
    var b := FirstIndex(s, y);
    assert (s + [x])[b] == y;
    assert s[a] == y;
  }

  /** What `unique` promises: no empty strings and no repeats, only elements of
      the input, every non-empty input element, in first-occurrence order. */
  lemma {:induction false} UniqueFacts(xs: seq<string>)
    ensures UniqueContents(xs, UniqueRef(xs))
    ensures FirstOccurrenceOrder(xs, UniqueRef(xs))
    decreases |xs|
  {
    if |xs| > 0 {
      var init := xs[..|xs| - 1];
      var x := xs[|xs| - 1];
      assert xs == init + [x];
      UniqueFacts(init);
      UniqueStep(init, x);
    }
  }

  /** The contents half of `UniqueFacts`. */
  predicate UniqueContents(xs: seq<string>, u: seq<string>) {
    && CacheLoader.NoDup(u)
    && (forall i :: 0 <= i < |u| ==> u[i] != "" && u[i] in xs)
    && (forall i :: 0 <= i < |xs| && xs[i] != "" ==> xs[i] in u)
  }

  /** The order half of `UniqueFacts`. */
  predicate FirstOccurrenceOrder(xs: seq<string>, u: seq<string>)
    requires forall i :: 0 <= i < |u| ==> u[i] in xs
  {
    forall i, j :: 0 <= i < j < |u| ==> FirstIndex(xs, u[i]) < FirstIndex(xs, u[j])
  }

  /** The inductive step of `UniqueFacts`: one more input string. */
  lemma UniqueStep(init: seq<string>, x: string)
    requires UniqueContents(init, UniqueRef(init)) && FirstOccurrenceOrder(init, UniqueRef(init))
    ensures UniqueContents(init + [x], UniqueRef(init + [x]))
    ensures FirstOccurrenceOrder(init + [x], UniqueRef(init + [x]))
  {
    var xs := init + [x];
    assert xs[..|xs| - 1] == init;
    UniqueContentsStep(init, x);
    var u0 := UniqueRef(init);
    forall i | 0 <= i < |u0|
      ensures FirstIndex(xs, u0[i]) == FirstIndex(init, u0[i]) < |init|
    {
      FirstIndexSnoc(init, x, u0[i]);
    }
    if x != "" && x !in u0 {
      assert x !in init;
      assert FirstIndex(xs, x) == |init|;
    }
  }

  lemma UniqueContentsStep(init: seq<string>, x: string)
    requires UniqueContents(init, UniqueRef(init))
    ensures UniqueContents(init + [x], UniqueRef(init + [x]))
  {
    var xs := init + [x];
    assert xs[..|xs| - 1] == init;
  }

  // ---------------------------------------------------------------------------
  // The request

  /** The request ID used for a request: the client's `X-Request-ID` when it
      sent one, else a generated one. */
  function RequestId(header: string, generated: string): (id: string)
    ensures header != "" ==> id == header
    ensures header == "" ==> id == generated
  {
    if header == "" then generated else header
  }

  /** Once chosen, the ID is what the request carries, so handling the request
      again keeps it whatever a second generator would give. */
  lemma RequestIdStable(header: string, g1: string, g2: string)
    requires g1 != ""
    ensures RequestId(RequestId(header, g1), g2) == RequestId(header, g1)
  {
  }

  /** How a request is served after the bypass list is consulted. An extra rule
      file is logged but not applied, so such a request is inspected like any
      other. */
  datatype Route = SkipWaf | Inspect(extraRule: string)

  function RouteFor(m: BypassLoader.MatchResult): (r: Route)
    ensures r.SkipWaf? <==> m.action == BypassLoader.ActionBypass
    ensures r.Inspect? ==> r.extraRule == m.extraRule
  {
    if m.action == BypassLoader.ActionBypass then SkipWaf else Inspect(m.extraRule)
  }

  /** A request skips the WAF exactly when the first bypass entry that covers
      its path names no extra rule file. */
  lemma SkipWafIff(es: seq<BypassLoader.Entry>, reqPath: string, unescape: BypassNormalize.Unescaper)
    ensures var p := BypassNormalize.Normalize(reqPath, unescape);
            RouteFor(BypassLoader.Match(es, reqPath, unescape)).SkipWaf? <==>
            exists i :: 0 <= i < |es| && BypassLoader.Hits(es[i], p, unescape) && es[i].extraRule == "" &&
                        forall j :: 0 <= j < i ==> !BypassLoader.Hits(es[j], p, unescape)
  {
    var p := BypassNormalize.Normalize(reqPath, unescape);
    var m := BypassLoader.Match(es, reqPath, unescape);
    if m.action != BypassLoader.ActionNone {
      var k :| 0 <= k < |es| && BypassLoader.Hits(es[k], p, unescape) && m == BypassLoader.Decision(es[k]) &&
               forall j :: 0 <= j < k ==> !BypassLoader.Hits(es[j], p, unescape);
      assert forall i :: (0 <= i < |es| && BypassLoader.Hits(es[i], p, unescape) &&
                          forall j :: 0 <= j < i ==> !BypassLoader.Hits(es[j], p, unescape)) ==> i == k;
    }
  }

  /** What the WAF reported for a request: whether any rule matched, and the
      matched rule IDs, without repeats, comma-joined. */
  datatype HitContext = HitContext(requestId: string, hit: bool, ruleIds: string)

  /** The IDs of the matched rules that carry one, as decimal text. */
  function RuleIdTexts(matched: seq<Option<int>>): (ids: seq<string>)
    ensures |ids| <= |matched|
    ensures forall i :: 0 <= i < |ids| ==> ids[i] != "" && ',' !in ids[i]
    ensures ids == [] <==> forall i :: 0 <= i < |matched| ==> matched[i].None?
    decreases |matched|
  {
    if |matched| == 0 then []
    else
      var rest := RuleIdTexts(matched[1..]);
      assert forall i :: 1 <= i < |matched| ==> matched[i] == matched[1..][i - 1];
      match matched[0]
      case Some(id) => [Numeric.IntToDecimal(id)] + rest
      case None => rest
  }

  /** The comma-joined IDs are empty exactly when no matched rule has an ID. */
  lemma RuleIdsEmptyIff(matched: seq<Option<int>>)
    ensures Join(UniqueRef(RuleIdTexts(matched)), ",") == "" <==>
            forall i :: 0 <= i < |matched| ==> matched[i].None?
  {
    var ids := RuleIdTexts(matched);
    var u := UniqueRef(ids);
    UniqueFacts(ids);
    if ids != [] {
      assert ids[0] in u;
      assert |u| > 0 && u[0] != "";
      JoinStartsWithHead(u, ",");
    }
  }

  /** Splitting the recorded IDs at commas gives back each distinct ID once,
      in the order the rules matched. */
  lemma RuleIdsSplitBack(matched: seq<Option<int>>)
    ensures var j := Join(UniqueRef(RuleIdTexts(matched)), ",");
            j != "" ==> Split(j, ',') == UniqueRef(RuleIdTexts(matched))
  {
    var ids := RuleIdTexts(matched);
    var u := UniqueRef(ids);
    if |u| > 0 {
      assert forall i :: 0 <= i < |u| ==> u[i] in ids && ',' !in u[i] by {
        forall i | 0 <= i < |u| ensures ',' !in u[i] {
          var k :| 0 <= k < |ids| && ids[k] == u[i];
        }
      }
      SplitOfJoin(u, ',');
    }
  }

  lemma JoinStartsWithHead(ps: seq<string>, sep: string)
    requires |ps| > 0
    ensures |Join(ps, sep)| >= |ps[0]| && Join(ps, sep)[..|ps[0]|] == ps[0]
  {
  }

  /** The verdict of the handler. */
  datatype Verdict =
    | Forwarded(context: Option<HitContext>)
    | Blocked(status: int)

  datatype Handled = Handled(requestId: string, inspected: bool, verdict: Verdict)

  /** `ProxyHandler`. `generated` is the ID `genReqID` would produce, `matched`
      the WAF's matched rules (with their IDs when they have one) and
      `interruption` the status of the WAF's interruption, if any. */
  function ProxyHandler(reqIdHeader: string, generated: string, route: Route,
                        matched: seq<Option<int>>, interruption: Option<int>): (h: Handled)
    ensures h.requestId == RequestId(reqIdHeader, generated)
    ensures h.inspected <==> route.Inspect?
    ensures route.SkipWaf? ==> h.verdict == Forwarded(None)
    ensures route.Inspect? ==> (h.verdict.Blocked? <==> interruption.Some?)
    ensures h.verdict.Blocked? ==> h.verdict.status == interruption.value
    ensures h.verdict.Forwarded? && h.verdict.context.Some? ==>
              h.verdict.context.value.requestId == h.requestId &&
              (h.verdict.context.value.hit <==> |matched| > 0)
    ensures h.verdict.Forwarded? && h.verdict.context.Some? ==>
              (h.verdict.context.value.ruleIds == "" <==> forall i :: 0 <= i < |matched| ==> matched[i].None?) &&
              (h.verdict.context.value.ruleIds != "" ==>
                 Split(h.verdict.context.value.ruleIds, ',') == UniqueRef(RuleIdTexts(matched)))
  {
    RuleIdsEmptyIff(matched);
    RuleIdsSplitBack(matched);
    var id := RequestId(reqIdHeader, generated);
    match route
    case SkipWaf => Handled(id, false, Forwarded(None))
    case Inspect(_) =>
      var ctx := HitContext(id, |matched| > 0, Join(UniqueRef(RuleIdTexts(matched)), ","));
      match interruption
      case Some(status) => Handled(id, true, Blocked(status))
      case None => Handled(id, true, Forwarded(Some(ctx)))
  }

  // ---------------------------------------------------------------------------
  // ModifyResponse

  type Headers = map<string, string>

  const HeaderWafHit := "X-WAF-Hit"
  const HeaderWafRuleIds := "X-WAF-RuleIDs"
  const HeaderCacheable := "X-Mamotama-Cacheable"
  const HeaderExpires := "X-Accel-Expires"
  const HeaderVary := "Vary"

  /** The `waf_hit_allow` log event. */
  datatype HitEvent = HitEvent(requestId: string, path: string, rules: string, status: int)

  /** The WAF part of `ModifyResponse`: a response to a request with a hit gets
      `X-WAF-Hit: 1`, and `X-WAF-RuleIDs` when IDs were recorded. */
  function WafHeaders(ctx: Option<HitContext>, h: Headers): (r: Headers)
    ensures ctx.Some? && ctx.value.hit ==> HeaderWafHit in r && r[HeaderWafHit] == "1"
    ensures ctx.Some? && ctx.value.hit && ctx.value.ruleIds != "" ==>
              HeaderWafRuleIds in r && r[HeaderWafRuleIds] == ctx.value.ruleIds
    ensures !(ctx.Some? && ctx.value.hit) ==> r == h
    ensures r.Keys <= h.Keys + {HeaderWafHit, HeaderWafRuleIds}
    ensures forall k :: k in h && k != HeaderWafHit && k != HeaderWafRuleIds ==> k in r && r[k] == h[k]
  {
    if ctx.Some? && ctx.value.hit then
      var h1 := h[HeaderWafHit := "1"];
      if ctx.value.ruleIds != "" then h1[HeaderWafRuleIds := ctx.value.ruleIds] else h1
    else h
  }

  /** The TTL sent to the cache: the rule's, or 600 when it is not positive. */
  function EffectiveTtl(ttl: int): (t: int)
    ensures t > 0
    ensures ttl > 0 ==> t == ttl
    ensures ttl <= 0 ==> t == CacheLoader.DefaultTTL
  {
    if ttl <= 0 then CacheLoader.DefaultTTL else ttl
  }

  /** Whether the response is cacheable: a GET or HEAD with a loaded ruleset
      whose first applicable rule is an `ALLOW`. */
  predicate Cacheable(rs: Option<seq<CacheLoader.Rule>>, verb: string, path: string, re: CacheLoader.RegexEngine) {
    rs.Some? && (verb == "GET" || verb == "HEAD") && CacheLoader.Match(rs.value, verb, path, re).Allows()
  }

  /** The cache part of `ModifyResponse`: the headers a cacheable response
      gets, and none otherwise. */
  function CacheHeaders(rs: Option<seq<CacheLoader.Rule>>, verb: string, path: string,
                        re: CacheLoader.RegexEngine): (hs: Headers)
    ensures hs != map[] <==> Cacheable(rs, verb, path, re)
    ensures hs.Keys <= {HeaderCacheable, HeaderExpires, HeaderVary}
    ensures Cacheable(rs, verb, path, re) ==>
              var rule := CacheLoader.Match(rs.value, verb, path, re).rule;
              && HeaderCacheable in hs && hs[HeaderCacheable] == "1"
              && HeaderExpires in hs && hs[HeaderExpires] == Numeric.IntToDecimal(EffectiveTtl(rule.ttl))
              && (HeaderVary in hs <==> |rule.vary| > 0)
              && (HeaderVary in hs ==> hs[HeaderVary] == Join(rule.vary, ", "))
  {
    if rs.None? || (verb != "GET" && verb != "HEAD") then map[]
    else
      var m := CacheLoader.Match(rs.value, verb, path, re);
      if !m.Allows() then map[]
      else
        var hs := map[HeaderCacheable := "1", HeaderExpires := Numeric.IntToDecimal(EffectiveTtl(m.rule.ttl))];
        assert HeaderCacheable in hs;
        if |m.rule.vary| > 0 then hs[HeaderVary := Join(m.rule.vary, ", ")] else hs
  }

  /** The `X-Accel-Expires` value reads back as a positive number of seconds:
      the rule's TTL, or 600. */
  lemma ExpiresReadsBack(ttl: int)
    requires ttl <= Numeric.MaxInt64
    ensures Numeric.Atoi(Numeric.IntToDecimal(EffectiveTtl(ttl))) == Some(EffectiveTtl(ttl))
    ensures EffectiveTtl(ttl) > 0
  {
    Numeric.AtoiOfItoa(EffectiveTtl(ttl));
  }

  /** `ModifyResponse`: the WAF headers and event, then the cache headers. */
  function ModifyResponse(ctx: Option<HitContext>, h: Headers, verb: string, path: string, status: int,
                          rs: Option<seq<CacheLoader.Rule>>, re: CacheLoader.RegexEngine): (r: (Headers, Option<HitEvent>))
    ensures r.1.Some? <==> ctx.Some? && ctx.value.hit
    ensures r.1.Some? ==> r.1.value.requestId == ctx.value.requestId && r.1.value.path == path &&
                          r.1.value.status == status
    ensures r.1.Some? && ctx.value.ruleIds != "" ==> r.1.value.rules == ctx.value.ruleIds
    ensures r.0 == WafHeaders(ctx, h) + CacheHeaders(rs, verb, path, re)
    ensures forall k :: k in h && k !in {HeaderWafHit, HeaderWafRuleIds, HeaderCacheable, HeaderExpires, HeaderVary} ==>
              k in r.0 && r.0[k] == h[k]
  {
    var h1 := WafHeaders(ctx, h);
    var ev := if ctx.Some? && ctx.value.hit then
                Some(HitEvent(ctx.value.requestId, path, if HeaderWafRuleIds in h1 then h1[HeaderWafRuleIds] else "", status))
              else None;
    (h1 + CacheHeaders(rs, verb, path, re), ev)
  }

  /** From request to response: the `waf_hit_allow` event and `X-WAF-Hit` come
      exactly when the request was inspected, at least one rule matched, and
      the WAF did not interrupt it. */
  lemma HitEventOnlyOnMatch(reqIdHeader: string, generated: string, route: Route,
                            matched: seq<Option<int>>, h: Headers, verb: string, path: string, status: int,
                            rs: Option<seq<CacheLoader.Rule>>, re: CacheLoader.RegexEngine)
    requires ProxyHandler(reqIdHeader, generated, route, matched, None).verdict.Forwarded?
    ensures var ctx := ProxyHandler(reqIdHeader, generated, route, matched, None).verdict.context;
            var r := ModifyResponse(ctx, h, verb, path, status, rs, re);
            (r.1.Some? <==> route.Inspect? && |matched| > 0) &&
            (r.1.Some? ==> HeaderWafHit in r.0 && r.0[HeaderWafHit] == "1" &&
                           r.1.value.requestId == RequestId(reqIdHeader, generated))
  {
  }
}

=== FILE: quote.dfy ===
/** Go's `%q` verb on a string (`strconv.Quote`), as far as ASCII goes: the
    text between double quotes, with `"` and `\` escaped, the seven control
    characters that have a one-letter escape written that way, and every
    other control character written as `\x` and two lower-case hex digits.
    `Unquote` reads such a literal back. */
module Quote {
  import opened Wrappers

  const Bell: char := 7 as char
  const Backspace: char := 8 as char
  const FormFeed: char := 12 as char
  const VerticalTab: char := 11 as char
  const Delete: char := 127 as char

  /** A character `strconv.Quote` writes as an escape sequence. */
  predicate NeedsEscape(c: char) {
    c == '"' || c == '\\' || (c as int) < 32 || c == Delete
  }

  function HexDigit(n: nat): (c: char)
    requires n < 16
  {
    if n < 10 then ('0' as int + n) as char else ('a' as int + n - 10) as char
  }

  function HexValue(c: char): Option<nat> {
    if '0' <= c <= '9' then Some(c as int - '0' as int)
    else if 'a' <= c <= 'f' then Some(c as int - 'a' as int + 10)
    else if 'A' <= c <= 'F' then Some(c as int - 'A' as int + 10)
    else None
  }

  /** The letter of a one-letter escape, for the characters that have one. */
  function ShortEscape(c: char): Option<char> {
    if c == Bell then Some('a')
    else if c == Backspace then Some('b')
    else if c == FormFeed then Some('f')
    else if c == '\n' then Some('n')
    else if c == '\r' then Some('r')
    else if c == '\t' then Some('t')
    else if c == VerticalTab then Some('v')
    else if c == '"' || c == '\\' then Some(c)
    else None
  }

  /** The character a one-letter escape stands for. */
  function ShortUnescape(l: char): Option<char> {
    if l == 'a' then Some(Bell)
    else if l == 'b' then Some(Backspace)
    else if l == 'f' then Some(FormFeed)
    else if l == 'n' then Some('\n')
    else if l == 'r' then Some('\r')
    else if l == 't' then Some('\t')
    else if l == 'v' then Some(VerticalTab)
    else if l == '"' || l == '\\' then Some(l)
    else None
  }

  /** How one character appears inside the quotes. */
  function EscapeChar(c: char): (r: string)
    ensures !NeedsEscape(c) <==> r == [c]
    ensures NeedsEscape(c) ==> 2 <= |r| && r[0] == '\\'
    ensures forall i :: 0 <= i < |r| ==> r[i] != '"' || (i > 0 && r[i - 1] == '\\')
  {
    if !NeedsEscape(c) then [c]
    else match ShortEscape(c)
      case Some(l) => ['\\', l]
      case None => ['\\', 'x', HexDigit(c as int / 16), HexDigit(c as int % 16)]
  }

  /** The text between the quotes. */
  function Escape(s: string): (r: string)
    ensures |r| >= |s|
    ensures (forall i :: 0 <= i < |s| ==> !NeedsEscape(s[i])) ==> r == s
  {
    if s == [] then [] else EscapeChar(s[0]) + Escape(s[1..])
  }

  /** `%q` of a string. */
  function Quoted(s: string): (r: string)
    ensures |r| >= |s| + 2 && r[0] == '"' && r[|r| - 1] == '"'
    ensures r[1..|r| - 1] == Escape(s)
  {
    "\"" + Escape(s) + "\""
  }

  function Cons(c: char, r: Option<string>): Option<string> {
    match r
    case Some(t) => Some([c] + t)
    case None => None
  }

  /** Reads escaped text back; a bare `"`, a dangling `\` or an unknown
      escape make it fail. */
  function Unescape(t: string): Option<string>
    decreases |t|
  {
    if t == [] then Some([])
    else if t[0] == '"' then None
    else if t[0] != '\\' then Cons(t[0], Unescape(t[1..]))
    else if |t| < 2 then None
    else if t[1] == 'x' then
      if |t| < 4 then None
      else match (HexValue(t[2]), HexValue(t[3]))
        case (Some(h), Some(l)) => Cons((h * 16 + l) as char, Unescape(t[4..]))
        case _ => None
    else match ShortUnescape(t[1])
      case Some(c) => Cons(c, Unescape(t[2..]))
      case None => None
  }

  /** Reads a `%q` literal back. */
  function Unquote(q: string): Option<string> {
    if |q| >= 2 && q[0] == '"' && q[|q| - 1] == '"' then Unescape(q[1..|q| - 1]) else None
  }

  /** Unescaping one escaped character and then the rest. */
  lemma UnescapeChar(c: char, rest: string)
    ensures Unescape(EscapeChar(c) + rest) == Cons(c, Unescape(rest))
  {
    var t := EscapeChar(c) + rest;
    if !NeedsEscape(c) {
      assert t[0] == c && t[1..] == rest;
    } else if ShortEscape(c).Some? {
      var l := ShortEscape(c).value;
      assert t[0] == '\\' && t[1] == l && t[2..] == rest;
      assert ShortUnescape(l) == Some(c);
    } else {
      var hi := c as int / 16;
      var lo := c as int % 16;
      assert t[0] == '\\' && t[1] == 'x' && t[2] == HexDigit(hi) && t[3] == HexDigit(lo) && t[4..] == rest;
      HexDigitValue(hi);
      HexDigitValue(lo);
      assert (hi * 16 + lo) as char == c;
    }
  }

  lemma HexDigitValue(n: nat)
    requires n < 16
    ensures HexValue(HexDigit(n)) == Some(n)
  {
  }

  /** Escaping loses nothing: the escaped text reads back as the string. */
  lemma {:induction false} UnescapeEscape(s: string)
    ensures Unescape(Escape(s)) == Some(s)
  {
    if s != [] {
      UnescapeEscape(s[1..]);
      UnescapeChar(s[0], Escape(s[1..]));
      assert [s[0]] + s[1..] == s;
    }
  }

  /** A `%q` literal reads back as the string it quotes, so an error message
      names the method exactly as it was submitted. */
  lemma UnquoteQuoted(s: string)
    ensures Unquote(Quoted(s)) == Some(s)
  {
    UnescapeEscape(s);
  }

  /** Two strings with the same `%q` literal are the same string. */
  lemma QuotedInjective(s: string, t: string)
    requires Quoted(s) == Quoted(t)
    ensures s == t
  {
    UnquoteQuoted(s);
    UnquoteQuoted(t);
  }

  /** A control character takes the `\x` form: `%q` of a NUL is `"\x00"`. */
  lemma QuotedNul()
    ensures Quoted([0 as char]) == "\"\\x00\""
  {
  }
}

=== FILE: sorting.dfy ===
/** `sort.Strings`: byte-wise lexicographic order on (ASCII) strings and an
    insertion sort with its sortedness and permutation proofs. */
module Sorting {

  /** `a` sorts before or equal to `b`: a proper prefix comes first, otherwise
      the first differing character decides. */
  predicate StrLe(a: string, b: string)
    decreases |a|
  {
    |a| == 0 || (|b| > 0 && (a[0] < b[0] || (a[0] == b[0] && StrLe(a[1..], b[1..]))))
  }

  lemma {:induction false} StrLeTotal(a: string, b: string)
    ensures StrLe(a, b) || StrLe(b, a)
    decreases |a|
  {
    if |a| > 0 && |b| > 0 && a[0] == b[0] {
      StrLeTotal(a[1..], b[1..]);
    }
  }

  lemma {:induction false} StrLeTrans(a: string, b: string, c: string)
    requires StrLe(a, b) && StrLe(b, c)
    ensures StrLe(a, c)
    decreases |a|
  {
    if |a| > 0 && a[0] == b[0] && b[0] == c[0] {
      StrLeTrans(a[1..], b[1..], c[1..]);
    }
  }

  lemma {:induction false} StrLeAntisym(a: string, b: string)
    requires StrLe(a, b) && StrLe(b, a)
    ensures a == b
    decreases |a|
  {
    if |a| > 0 {
      StrLeAntisym(a[1..], b[1..]);
      assert a == [a[0]] + a[1..];
      assert b == [b[0]] + b[1..];
    }
  }

  predicate Sorted(s: seq<string>) {
    forall i, j :: 0 <= i < j < |s| ==> StrLe(s[i], s[j])
  }

  lemma LowerBoundOfPerm(y: string, t: seq<string>, u: seq<string>, x: string)
    requires multiset(t) == multiset(u) + multiset{x}
    requires forall k :: 0 <= k < |u| ==> StrLe(y, u[k])
    requires StrLe(y, x)
    ensures forall k :: 0 <= k < |t| ==> StrLe(y, t[k])
  {
    forall k | 0 <= k < |t|
      ensures StrLe(y, t[k])
    {
      assert t[k] in multiset(t);
      if t[k] != x {
        assert t[k] in multiset(u);
        var m :| 0 <= m < |u| && u[m] == t[k];
      }
    }
  }

  /** Inserting into a sorted list keeps it sorted and adds exactly `x`. */
  function Insert(x: string, s: seq<string>): (r: seq<string>)
    requires Sorted(s)
    ensures Sorted(r)
    ensures multiset(r) == multiset(s) + multiset{x}
    decreases |s|
  {
    if |s| == 0 then [x]
    else if StrLe(x, s[0]) then
      assert forall k :: 0 <= k < |s| ==> StrLe(x, s[k]) by {
        forall k | 0 <= k < |s| ensures StrLe(x, s[k]) {
          if k > 0 { StrLeTrans(x, s[0], s[k]); }
        }
      }
      assert s == [s[0]] + s[1..];
      [x] + s
    else
      StrLeTotal(x, s[0]);
      var t := Insert(x, s[1..]);
      LowerBoundOfPerm(s[0], t, s[1..], x);
      assert s == [s[0]] + s[1..];
      [s[0]] + t
  }

  /** The elements of `s` in ascending order. */
  function Sort(s: seq<string>): (r: seq<string>)
    ensures Sorted(r)
    ensures multiset(r) == multiset(s)
    ensures |r| == |s|
  {
    if |s| == 0 then []
    else
      assert s == [s[0]] + s[1..];
      Insert(s[0], Sort(s[1..]))
  }
}

=== FILE: text.dfy ===
/** The parts of Go's `strings` package and `bufio.ScanLines` that the backend's
    parsers rely on, over `seq<char>`. Whitespace is the ASCII set Go's
    `unicode.IsSpace` accepts; case mapping is ASCII only. */
module Text {
  import opened Wrappers

  /** Space, `\t`, `\n`, `\v`, `\f` and `\r`. */
  predicate IsSpace(c: char) {
    c == ' ' || ('\t' <= c <= '\r')
  }

  predicate NoSpace(s: string) {
    forall i :: 0 <= i < |s| ==> !IsSpace(s[i])
  }

  predicate HasPrefix(s: string, p: string) {
    |p| <= |s| && s[..|p|] == p
  }

  predicate HasSuffix(s: string, p: string) {
    |p| <= |s| && s[|s| - |p|..] == p
  }

  // ---------------------------------------------------------------------------
  // Trimming

  /** `strings.TrimSuffix`: `s` without `suffix` when it ends with it. */
  function TrimSuffix(s: string, suffix: string): (r: string)
    ensures HasSuffix(s, suffix) ==> r + suffix == s
    ensures !HasSuffix(s, suffix) ==> r == s
  {
    if HasSuffix(s, suffix) then s[..|s| - |suffix|] else s
  }

  function TrimLeft(s: string): (r: string)
    ensures |r| <= |s|
    ensures r == [] || !IsSpace(r[0])
  {
    if |s| > 0 && IsSpace(s[0]) then TrimLeft(s[1..]) else s
  }

  function TrimRight(s: string): (r: string)
    ensures |r| <= |s|
    ensures r == [] || !IsSpace(r[|r| - 1])
  {
    if |s| > 0 && IsSpace(s[|s| - 1]) then TrimRight(s[..|s| - 1]) else s
  }

  /** `TrimLeft` keeps a suffix and cuts only whitespace. */
  lemma {:induction false} TrimLeftCuts(s: string)
    ensures TrimLeft(s) == s[|s| - |TrimLeft(s)|..]
    ensures forall i :: 0 <= i < |s| - |TrimLeft(s)| ==> IsSpace(s[i])
  {
    if |s| > 0 && IsSpace(s[0]) {
      TrimLeftCuts(s[1..]);
      assert forall i :: 1 <= i < |s| ==> s[1..][i - 1] == s[i];
    }
  }

  /** `TrimRight` keeps a prefix and cuts only whitespace. */
  lemma {:induction false} TrimRightCuts(s: string)
    ensures TrimRight(s) == s[..|TrimRight(s)|]
    ensures forall i :: |TrimRight(s)| <= i < |s| ==> IsSpace(s[i])
  {
    if |s| > 0 && IsSpace(s[|s| - 1]) {
      TrimRightCuts(s[..|s| - 1]);
    }
  }

  /** Neither starts nor ends with whitespace. */
  predicate Trimmed(s: string) {
    s == [] || (!IsSpace(s[0]) && !IsSpace(s[|s| - 1]))
  }

  /** `strings.TrimSpace`: the longest slice of `s` that neither starts nor ends
      with whitespace; only whitespace is cut away. */
  function TrimSpace(s: string): (r: string)
    ensures Trimmed(r)
    ensures |r| <= |s|
  {
    TrimRightCuts(TrimLeft(s));
    TrimRight(TrimLeft(s))
  }

  /** `strings.TrimSpace` keeps one slice of `s` and cuts only whitespace on
      either side of it; with `Trimmed`, this pins the result down. */
  lemma TrimSpaceCuts(s: string)
    ensures exists i :: SpaceAround(s, TrimSpace(s), i)
  {
    var l := TrimLeft(s);
    var r := TrimSpace(s);
    TrimLeftCuts(s);
    TrimRightCuts(l);
    var i := |s| - |l|;
    assert r == s[i..i + |r|];
    forall k | i + |r| <= k < |s|
      ensures IsSpace(s[k])
    {
      assert s[k] == l[k - i];
    }
    assert SpaceAround(s, r, i);
  }

  /** `r` is the slice of `s` at `i`, with only whitespace before and after. */
  predicate SpaceAround(s: string, r: string, i: int) {
    && 0 <= i <= |s| - |r|
    && r == s[i..i + |r|]
    && (forall k :: 0 <= k < i ==> IsSpace(s[k]))
    && (forall k :: i + |r| <= k < |s| ==> IsSpace(s[k]))
  }

  lemma TrimLeftId(s: string)
    requires s == [] || !IsSpace(s[0])
    ensures TrimLeft(s) == s
  {
  }

  lemma TrimRightId(s: string)
    requires s == [] || !IsSpace(s[|s| - 1])
    ensures TrimRight(s) == s
  {
  }

  /** A string that neither starts nor ends with whitespace is its own trim. */
  lemma TrimSpaceId(s: string)
    requires Trimmed(s)
    ensures TrimSpace(s) == s
  {
    TrimLeftId(s);
    TrimRightId(s);
  }

  lemma TrimSpaceIdempotent(s: string)
    ensures TrimSpace(TrimSpace(s)) == TrimSpace(s)
  {
    TrimSpaceId(TrimSpace(s));
  }

  /** Trimming only removes characters. */
  lemma TrimSpaceNoNewChars(s: string, c: char)
    ensures c in TrimSpace(s) ==> c in s
  {
    var l := TrimLeft(s);
    TrimLeftCuts(s);
    TrimRightCuts(l);
    if c in TrimRight(l) {
      assert c in l;
    }
  }

  lemma NoSpaceTrimmed(s: string)
    requires NoSpace(s)
    ensures TrimSpace(s) == s
  {
    TrimSpaceId(s);
  }

  // ---------------------------------------------------------------------------
  // strings.Fields

  /** The length of the longest prefix of `s` without whitespace. */
  function WordLen(s: string): (n: nat)
    ensures n <= |s|
    ensures forall i :: 0 <= i < n ==> !IsSpace(s[i])
    ensures n == |s| || IsSpace(s[n])
  {
    if |s| == 0 || IsSpace(s[0]) then 0 else 1 + WordLen(s[1..])
  }

  /** `strings.Fields`: the maximal runs of non-whitespace characters, in order. */
  function Fields(s: string): (r: seq<string>)
    ensures forall i :: 0 <= i < |r| ==> r[i] != "" && NoSpace(r[i])
    decreases |s|
  {
    var t := TrimLeft(s);
    if t == "" then []
    else
      var n := WordLen(t);
      var w := t[..n];
      assert w != "" && NoSpace(w);
      WordCons(w, Fields(t[n..]))
  }

  /** A string that starts with a word: that word, then the fields of the
      rest. */
  lemma FieldsUnfold(s: string)
    requires s != "" && !IsSpace(s[0])
    ensures Fields(s) == [s[..WordLen(s)]] + Fields(s[WordLen(s)..])
  {
    TrimLeftId(s);
  }

  /** Leading whitespace makes no field. */
  lemma FieldsDropSpace(s: string)
    requires s != "" && IsSpace(s[0])
    ensures Fields(s) == Fields(s[1..])
  {
  }

  /** Whitespace separates fields: the fields on either side of a whitespace
      character are the fields of the whole, in order. */
  lemma FieldsAtSpace(a: string, c: char, b: string)
    requires IsSpace(c)
    ensures Fields(a + [c] + b) == Fields(a) + Fields(b)
  {
    assert a + [c] + b == a + ([c] + b);
    FieldsBeforeSpace(a, [c] + b);
    FieldsDropSpace([c] + b);
    assert ([c] + b)[1..] == b;
  }

  /** The fields of a text followed by one that starts with whitespace. */
  lemma {:induction false} FieldsBeforeSpace(a: string, t: string)
    requires t != [] && IsSpace(t[0])
    ensures Fields(a + t) == Fields(a) + Fields(t)
    decreases |a|
  {
    if a == [] {
      assert a + t == t;
      assert Fields(a) == [];
    } else if IsSpace(a[0]) {
      FieldsBeforeSpace(a[1..], t);
      FieldsBeforeSpaceSkip(a, t);
    } else {
      FieldsBeforeSpace(a[WordLen(a)..], t);
      FieldsBeforeSpaceWord(a, t);
    }
  }

  lemma FieldsBeforeSpaceSkip(a: string, t: string)
    requires a != [] && IsSpace(a[0])
    requires Fields(a[1..] + t) == Fields(a[1..]) + Fields(t)
    ensures Fields(a + t) == Fields(a) + Fields(t)
  {
    assert (a + t)[1..] == a[1..] + t;
    FieldsDropSpace(a + t);
    FieldsDropSpace(a);
  }

  lemma FieldsBeforeSpaceWord(a: string, t: string)
    requires a != [] && !IsSpace(a[0]) && t != [] && IsSpace(t[0])
    requires Fields(a[WordLen(a)..] + t) == Fields(a[WordLen(a)..]) + Fields(t)
    ensures Fields(a + t) == Fields(a) + Fields(t)
  {
    var n := WordLen(a);
    CutAt(a, n, t);
    FieldsAfterWord(a, a[..n], a[n..]);
    FieldsAfterWord(a + t, a[..n], a[n..] + t);
    ConcatAssoc([a[..n]], Fields(a[n..]), Fields(t));
  }

  lemma ConcatAssoc<T>(x: seq<T>, y: seq<T>, z: seq<T>)
    ensures x + (y + z) == (x + y) + z
  {
  }

  lemma CutAt(a: string, n: nat, t: string)
    requires n <= |a|
    ensures a == a[..n] + a[n..]
    ensures a + t == a[..n] + (a[n..] + t)
    ensures a[n..] == [] ==> a[n..] + t == t
    ensures a[n..] != [] ==> (a[n..] + t)[0] == a[n]
  {
  }

  /** A word ended by whitespace or by the end of the text is the first
      field. */
  lemma FieldsAfterWord(s: string, w: string, t: string)
    requires s == w + t
    requires w != "" && NoSpace(w)
    requires t == [] || IsSpace(t[0])
    ensures Fields(s) == [w] + Fields(t)
  {
    FieldsUnfold(s);
    WordLenOfSeparated(w, t);
    assert s[..|w|] == w;
    assert s[|w|..] == t;
  }

  /** A word in front of a list of words. */
  function WordCons(w: string, rest: seq<string>): (r: seq<string>)
    requires w != "" && NoSpace(w)
    requires forall i :: 0 <= i < |rest| ==> rest[i] != "" && NoSpace(rest[i])
    ensures r == [w] + rest
    ensures forall i :: 0 <= i < |r| ==> r[i] != "" && NoSpace(r[i])
  {
    [w] + rest
  }

  /** The first field of a non-blank string that does not start with
      whitespace begins at its first character. */
  lemma FieldsHead(t: string)
    requires t != "" && !IsSpace(t[0])
    ensures |Fields(t)| >= 1 && Fields(t)[0][0] == t[0]
  {
    TrimLeftId(t);
  }

  lemma FieldsOfWordOnly(p: string)
    requires p != "" && NoSpace(p)
    ensures Fields(p) == [p]
  {
    TrimLeftId(p);
    WordLenOfSeparated(p, "");
    assert p + "" == p;
    assert p[|p|..] == "";
    assert Fields("") == [];
  }

  lemma {:induction false} WordLenOfSeparated(p: string, rest: string)
    requires NoSpace(p)
    requires rest == [] || IsSpace(rest[0])
    ensures WordLen(p + rest) == |p|
    decreases |p|
  {
    if |p| > 0 {
      assert (p + rest)[1..] == p[1..] + rest;
      WordLenOfSeparated(p[1..], rest);
    }
  }

  lemma {:induction false} FieldsOfSpaced(y: string)
    ensures Fields(" " + y) == Fields(y)
  {
    assert (" " + y)[1..] == y;
    assert TrimLeft(" " + y) == TrimLeft(y);
  }

  lemma {:induction false} FieldsOfWord(p: string, rest: string)
    requires p != "" && NoSpace(p)
    ensures Fields(p + " " + rest) == [p] + Fields(rest)
  {
    var s := p + " " + rest;
    TrimLeftId(s);
    assert s == p + (" " + rest);
    WordLenOfSeparated(p, " " + rest);
    assert s[..|p|] == p;
    assert s[|p|..] == " " + rest;
    FieldsOfSpaced(rest);
  }

  /** Joining non-empty, whitespace-free words with single spaces and splitting
      the result with `Fields` gives the words back. */
  lemma {:induction false} FieldsOfJoin(ps: seq<string>)
    requires forall i :: 0 <= i < |ps| ==> ps[i] != "" && NoSpace(ps[i])
    ensures Fields(Join(ps, " ")) == ps
    decreases |ps|
  {
    if |ps| == 1 {
      FieldsOfWordOnly(ps[0]);
    } else if |ps| > 1 {
      FieldsOfJoin(ps[1..]);
      FieldsOfJoinStep(ps);
    }
  }

  lemma FieldsOfJoinStep(ps: seq<string>)
    requires |ps| > 1 && ps[0] != "" && NoSpace(ps[0])
    requires Fields(Join(ps[1..], " ")) == ps[1..]
    ensures Fields(Join(ps, " ")) == ps
  {
    var rest := Join(ps[1..], " ");
    assert Join(ps, " ") == ps[0] + " " + rest;
    FieldsOfWord(ps[0], rest);
    assert [ps[0]] + ps[1..] == ps;
  }

  // ---------------------------------------------------------------------------
  // strings.Join and strings.Split

  function Join(ps: seq<string>, sep: string): string {
    if |ps| == 0 then ""
    else if |ps| == 1 then ps[0]
    else ps[0] + sep + Join(ps[1..], sep)
  }

  /** A character in neither the pieces nor the separator is not in the join. */
  lemma {:induction false} JoinAvoids(ps: seq<string>, sep: string, c: char)
    requires c !in sep
    requires forall i :: 0 <= i < |ps| ==> c !in ps[i]
    ensures c !in Join(ps, sep)
    decreases |ps|
  {
    if |ps| > 1 {
      JoinAvoids(ps[1..], sep, c);
    }
  }

  lemma NoSpaceConcat(a: string, b: string)
    requires NoSpace(a) && NoSpace(b)
    ensures NoSpace(a + b)
  {
    assert forall i :: |a| <= i < |a + b| ==> (a + b)[i] == b[i - |a|];
  }

  /** Whitespace-free pieces joined by a whitespace-free separator stay free of it. */
  lemma {:induction false} JoinNoSpace(ps: seq<string>, sep: string)
    requires NoSpace(sep)
    requires forall i :: 0 <= i < |ps| ==> NoSpace(ps[i])
    ensures NoSpace(Join(ps, sep))
    decreases |ps|
  {
    if |ps| > 1 {
      JoinNoSpace(ps[1..], sep);
      var j := ps[0] + sep + Join(ps[1..], sep);
      assert forall i :: 0 <= i < |j| ==> !IsSpace(j[i]) by {
        forall i | 0 <= i < |j| ensures !IsSpace(j[i]) {
          if i < |ps[0]| {
          } else if i < |ps[0]| + |sep| {
            assert j[i] == sep[i - |ps[0]|];
          } else {
            assert j[i] == Join(ps[1..], sep)[i - |ps[0]| - |sep|];
          }
        }
      }
    }
  }

  /** A join of non-empty pieces starts with the first piece and ends with the last. */
  lemma {:induction false} JoinEnds(ps: seq<string>, sep: string)
    requires |ps| >= 1
    requires forall i :: 0 <= i < |ps| ==> ps[i] != ""
    ensures |Join(ps, sep)| > 0
    ensures Join(ps, sep)[0] == ps[0][0]
    ensures Join(ps, sep)[|Join(ps, sep)| - 1] == ps[|ps| - 1][|ps[|ps| - 1]| - 1]
    decreases |ps|
  {
    if |ps| > 1 {
      JoinEnds(ps[1..], sep);
      var j := Join(ps, sep);
      assert j == ps[0] + (sep + Join(ps[1..], sep));
    }
  }

  /** `strings.Split(s, string(c))`: the pieces between occurrences of `c`; one
      more piece than there are separators, so `Split("", c) == [""]`. */
  function Split(s: string, c: char): (r: seq<string>)
    ensures |r| >= 1
    ensures forall i :: 0 <= i < |r| ==> c !in r[i]
  {
    if |s| == 0 then [""]
    else if s[0] == c then [""] + Split(s[1..], c)
    else
      var t := Split(s[1..], c);
      [[s[0]] + t[0]] + t[1..]
  }

  lemma {:induction false} SplitPrepend(x: char, s: string, c: char)
    requires x != c
    ensures Split([x] + s, c) == [[x] + Split(s, c)[0]] + Split(s, c)[1..]
  {
    assert ([x] + s)[1..] == s;
  }

  lemma {:induction false} SplitOfPiece(p: string, rest: string, c: char)
    requires c !in p
    ensures Split(p + [c] + rest, c) == [p] + Split(rest, c)
    decreases |p|
  {
    if |p| == 0 {
      assert p + [c] + rest == [c] + rest;
      assert ([c] + rest)[1..] == rest;
    } else {
      assert p + [c] + rest == [p[0]] + (p[1..] + [c] + rest);
      SplitPrepend(p[0], p[1..] + [c] + rest, c);
      SplitOfPiece(p[1..], rest, c);
      assert [p[0]] + p[1..] == p;
    }
  }

  lemma {:induction false} SplitOfSingle(p: string, c: char)
    requires c !in p
    ensures Split(p, c) == [p]
    decreases |p|
  {
    if |p| > 0 {
      SplitPrepend(p[0], p[1..], c);
      SplitOfSingle(p[1..], c);
      assert [p[0]] + p[1..] == p;
    }
  }

  /** Splitting a join on a separator none of the pieces contains gives the
      pieces back. */
  lemma {:induction false} SplitOfJoin(ps: seq<string>, c: char)
    requires |ps| >= 1
    requires forall i :: 0 <= i < |ps| ==> c !in ps[i]
    ensures Split(Join(ps, [c]), c) == ps
    decreases |ps|
  {
    if |ps| == 1 {
      SplitOfSingle(ps[0], c);
    } else {
      SplitOfPiece(ps[0], Join(ps[1..], [c]), c);
      SplitOfJoin(ps[1..], c);
    }
  }

  /** Splitting at a separator splits the text on either side of it. */
  lemma {:induction false} SplitAppend(a: string, c: char, b: string)
    ensures Split(a + [c] + b, c) == Split(a, c) + Split(b, c)
    decreases |a|
  {
    if a == [] {
      assert a + [c] + b == [c] + b;
      assert ([c] + b)[1..] == b;
    } else {
      assert (a + [c] + b)[1..] == a[1..] + [c] + b;
      SplitAppend(a[1..], c, b);
    }
  }

  /** `p` ends `s` and is all of `s` or follows a `c`. */
  predicate EndPiece(s: string, c: char, p: string) {
    |p| <= |s| && s[|s| - |p|..] == p && (|p| == |s| || s[|s| - |p| - 1] == c)
  }

  lemma EndPieceStep(s: string, c: char, q: string)
    requires |s| > 0 && EndPiece(s[1..], c, q)
    requires s[0] == c || |q| < |s| - 1
    ensures EndPiece(s, c, q) && |q| < |s|
  {
    assert s[1..][|s| - 1 - |q|..] == s[|s| - |q|..];
    if |q| < |s| - 1 {
      assert s[1..][|s| - 1 - |q| - 1] == s[|s| - |q| - 1];
    }
  }

  /** The last piece of a split is the text after the last separator: a
      suffix of `s` that is all of `s` or follows a separator, and all of
      `s` only when there is no other piece. */
  lemma {:induction false} SplitLastPiece(s: string, c: char)
    ensures EndPiece(s, c, Split(s, c)[|Split(s, c)| - 1])
    ensures |Split(s, c)| > 1 ==> |Split(s, c)[|Split(s, c)| - 1]| < |s|
    decreases |s|
  {
    if |s| > 0 {
      var t := Split(s[1..], c);
      SplitLastPiece(s[1..], c);
      if s[0] == c || |t| > 1 {
        assert Split(s, c)[|Split(s, c)| - 1] == t[|t| - 1];
        EndPieceStep(s, c, t[|t| - 1]);
      } else {
        JoinOfSplit(s[1..], c);
        assert [s[0]] + s[1..] == s;
        assert Split(s, c) == [s];
      }
    }
  }

  /** Joining the pieces of a split with the separator gives the text back. */
  lemma {:induction false} JoinOfSplit(s: string, c: char)
    ensures Join(Split(s, c), [c]) == s
    decreases |s|
  {
    if |s| > 0 {
      var t := Split(s[1..], c);
      JoinOfSplit(s[1..], c);
      if s[0] == c {
        assert Split(s, c)[1..] == t;
        assert [c] + s[1..] == s;
      } else if |t| == 1 {
        assert [s[0]] + s[1..] == s;
      } else {
        var r := Split(s, c);
        assert r[1..] == t[1..];
        assert Join(t, [c]) == t[0] + [c] + Join(t[1..], [c]);
        assert [s[0]] + s[1..] == s;
      }
    }
  }

  /** A trailing separator adds one empty piece. */
  lemma {:induction false} SplitSnoc(s: string, c: char)
    ensures Split(s + [c], c) == Split(s, c) + [""]
    decreases |s|
  {
    if |s| == 0 {
      assert ([c])[1..] == "";
    } else {
      assert (s + [c])[1..] == s[1..] + [c];
      SplitSnoc(s[1..], c);
    }
  }

  /** Splitting around one separator splits each side on its own. */
  lemma {:induction false} SplitAround(a: string, b: string, c: char)
    ensures Split(a + [c] + b, c) == Split(a, c) + Split(b, c)
    decreases |a|
  {
    if |a| == 0 {
      assert a + [c] + b == [c] + b;
      assert ([c] + b)[1..] == b;
    } else if a[0] == c {
      assert (a + [c] + b)[1..] == a[1..] + [c] + b;
      SplitAround(a[1..], b, c);
    } else {
      assert a + [c] + b == [a[0]] + (a[1..] + [c] + b);
      SplitPrepend(a[0], a[1..] + [c] + b, c);
      SplitAround(a[1..], b, c);
      SplitPrepend(a[0], a[1..], c);
      assert [a[0]] + a[1..] == a;
    }
  }

  /** There is one piece more than there are separators. */
  lemma {:induction false} SplitCount(s: string, c: char)
    ensures |Split(s, c)| == multiset(s)[c] + 1
    decreases |s|
  {
    if |s| > 0 {
      assert s == [s[0]] + s[1..];
      SplitCount(s[1..], c);
    }
  }

  function IndexOf(s: string, c: char): (r: Option<nat>)
    ensures r.Some? ==> r.value < |s| && s[r.value] == c && c !in s[..r.value]
    ensures r.None? ==> c !in s
  {
    if |s| == 0 then None
    else if s[0] == c then Some(0)
    else match IndexOf(s[1..], c)
      case Some(i) => Some(i + 1)
      case None => None
  }

  /** `strings.SplitN(s, string(c), 2)` when it yields two pieces: the text
      before and after the first `c`. */
  function Cut(s: string, c: char): (r: Option<(string, string)>)
    ensures r.None? <==> c !in s
    ensures r.Some? ==> c !in r.value.0 && s == r.value.0 + [c] + r.value.1
  {
    match IndexOf(s, c)
    case Some(i) =>
      assert s == s[..i] + [c] + s[i + 1..];
      Some((s[..i], s[i + 1..]))
    case None => None
  }

  /** The first `c` in `p + [c] + rest` is the one after `p` when `p` has none. */
  lemma {:induction false} IndexOfAfter(p: string, c: char, rest: string)
    requires c !in p
    ensures IndexOf(p + [c] + rest, c) == Some(|p|)
    decreases |p|
  {
    if |p| > 0 {
      assert (p + [c] + rest)[1..] == p[1..] + [c] + rest;
      IndexOfAfter(p[1..], c, rest);
    }
  }

  lemma CutKeyValue(k: string, c: char, v: string)
    requires c !in k
    ensures Cut(k + [c] + v, c) == Some((k, v))
  {
    IndexOfAfter(k, c, v);
    var s := k + [c] + v;
    assert s[..|k|] == k;
    assert s[|k| + 1..] == v;
  }

  // ---------------------------------------------------------------------------
  // bufio.ScanLines

  /** One trailing `\r` is dropped from each scanned line. */
  function DropCR(l: string): string {
    if |l| > 0 && l[|l| - 1] == '\r' then l[..|l| - 1] else l
  }

  /** The lines `bufio.Scanner` yields with its default split function: the
      pieces between `'\n'`s, with no empty piece after a final newline. */
  function ScanLines(s: string): (r: seq<string>)
    ensures forall i :: 0 <= i < |r| ==> '\n' !in r[i]
    decreases |s|
  {
    if |s| == 0 then []
    else match IndexOf(s, '\n')
      case Some(i) => [DropCR(s[..i])] + ScanLines(s[i + 1..])
      case None => [DropCR(s)]
  }

  /** Each line with one trailing `'\r'` dropped. */
  function DropCRs(ls: seq<string>): (r: seq<string>)
    ensures |r| == |ls|
    ensures forall i :: 0 <= i < |ls| ==> r[i] == DropCR(ls[i])
  {
    seq(|ls|, i requires 0 <= i < |ls| => DropCR(ls[i]))
  }

  /** A first line ended by `'\n'` is scanned on its own. */
  lemma ScanLinesCons(l: string, rest: string)
    requires '\n' !in l
    ensures ScanLines(l + "\n" + rest) == [DropCR(l)] + ScanLines(rest)
  {
    var s := l + "\n" + rest;
    assert s == l + ['\n'] + rest;
    IndexOfAfter(l, '\n', rest);
    assert s[..|l|] == l;
    assert s[|l| + 1..] == rest;
  }

  /** Lines each followed by `'\n'`. */
  function Terminated(ls: seq<string>): string {
    if |ls| == 0 then "" else ls[0] + "\n" + Terminated(ls[1..])
  }

  lemma {:induction false} JoinTerminated(ls: seq<string>)
    requires |ls| >= 1
    ensures Join(ls, "\n") + "\n" == Terminated(ls)
    decreases |ls|
  {
    if |ls| > 1 {
      JoinTerminated(ls[1..]);
    }
  }

  /** Scanning newline-terminated lines that carry no `'\n'` and no trailing
      `'\r'` gives the lines back. */
  lemma {:induction false} ScanLinesOfTerminated(ls: seq<string>)
    requires forall i :: 0 <= i < |ls| ==> '\n' !in ls[i] && DropCR(ls[i]) == ls[i]
    ensures ScanLines(Terminated(ls)) == ls
    decreases |ls|
  {
    if |ls| > 0 {
      var s := Terminated(ls);
      assert s == ls[0] + ['\n'] + Terminated(ls[1..]);
      IndexOfAfter(ls[0], '\n', Terminated(ls[1..]));
      assert s[..|ls[0]|] == ls[0];
      assert s[|ls[0]| + 1..] == Terminated(ls[1..]);
      ScanLinesOfTerminated(ls[1..]);
    }
  }

  /** The scanner yields every terminated line, a final line without `'\n'`
      when there is one, and never an empty piece after the last newline;
      each line loses one trailing `'\r'`. */
  lemma {:induction false} ScanLinesOfText(ls: seq<string>, t: string)
    requires forall i :: 0 <= i < |ls| ==> '\n' !in ls[i]
    requires '\n' !in t
    ensures ScanLines(Terminated(ls) + t) == DropCRs(ls) + (if t == "" then [] else [DropCR(t)])
    decreases |ls|
  {
    if |ls| == 0 {
      assert Terminated(ls) + t == t;
      IndexOfNone(t, '\n');
    } else {
      TerminatedCons(ls, t);
      ScanLinesCons(ls[0], Terminated(ls[1..]) + t);
      ScanLinesOfText(ls[1..], t);
      DropCRsCons(ls);
    }
  }

  lemma TerminatedCons(ls: seq<string>, t: string)
    requires |ls| > 0
    ensures Terminated(ls) + t == ls[0] + "\n" + (Terminated(ls[1..]) + t)
  {
  }

  lemma DropCRsCons(ls: seq<string>)
    requires |ls| > 0
    ensures DropCRs(ls) == [DropCR(ls[0])] + DropCRs(ls[1..])
  {
  }

  lemma IndexOfNone(s: string, c: char)
    requires c !in s
    ensures IndexOf(s, c).None?
  {
  }

  // ---------------------------------------------------------------------------
  // ASCII case mapping

  function UpperChar(c: char): char {
    if 'a' <= c <= 'z' then (c as int - 32) as char else c
  }

  function LowerChar(c: char): char {
    if 'A' <= c <= 'Z' then (c as int + 32) as char else c
  }

  /** `strings.ToUpper` on ASCII text. */
  function Upper(s: string): (r: string)
    ensures |r| == |s|
    ensures forall i :: 0 <= i < |s| ==> r[i] == UpperChar(s[i])
  {
    seq(|s|, i requires 0 <= i < |s| => UpperChar(s[i]))
  }

  /** `strings.ToLower` on ASCII text. */
  function Lower(s: string): (r: string)
    ensures |r| == |s|
    ensures forall i :: 0 <= i < |s| ==> r[i] == LowerChar(s[i])
  {
    seq(|s|, i requires 0 <= i < |s| => LowerChar(s[i]))
  }

  predicate NoLowerAscii(s: string) {
    forall i :: 0 <= i < |s| ==> !('a' <= s[i] <= 'z')
  }

  predicate NoUpperAscii(s: string) {
    forall i :: 0 <= i < |s| ==> !('A' <= s[i] <= 'Z')
  }

  lemma UpperId(s: string)
    requires NoLowerAscii(s)
    ensures Upper(s) == s
  {
  }

  lemma LowerId(s: string)
    requires NoUpperAscii(s)
    ensures Lower(s) == s
  {
  }

  lemma UpperIdempotent(s: string)
    ensures Upper(Upper(s)) == Upper(s)
  {
  }

  /** Case mapping never introduces or removes whitespace, commas or `'#'`. */
  lemma UpperKeepsSpaces(s: string)
    ensures NoSpace(s) <==> NoSpace(Upper(s))
    ensures ',' in s <==> ',' in Upper(s)
  {
    if ',' in Upper(s) {
      var i :| 0 <= i < |s| && Upper(s)[i] == ',';
      assert s[i] == ',';
    }
    if ',' in s {
      var i :| 0 <= i < |s| && s[i] == ',';
      assert Upper(s)[i] == ',';
    }
  }
}

=== FILE: wrappers.dfy ===
/** Option and Result values standing for the Go code's nil returns and
    (value, error) pairs, and for TypeScript's optional fields. */
module Wrappers {

  datatype Option<+T> = None | Some(value: T) {

    /** The wrapped value, or `default` when there is none (TypeScript's `??`). */
    function GetOr(default: T): T {
      match this
      case Some(v) => v
      case None => default
    }
  }

  datatype Result<+R, +E> = Success(value: R) | Failure(error: E)

  /** The values `f` yields for `ls`, in order, skipping the lines it rejects. */
  function Collect<T>(ls: seq<string>, f: string -> Option<T>): (r: seq<T>)
    ensures |r| <= |ls|
    ensures forall x :: x in r ==> exists i :: 0 <= i < |ls| && f(ls[i]) == Some(x)
  {
    if |ls| == 0 then []
    else (match f(ls[0]) case Some(x) => [x] case None => []) + Collect(ls[1..], f)
  }

  lemma {:induction false} CollectAppend<T>(a: seq<string>, b: seq<string>, f: string -> Option<T>)
    ensures Collect(a + b, f) == Collect(a, f) + Collect(b, f)
    decreases |a|
  {
    if |a| > 0 {
      assert (a + b)[0] == a[0];
      assert (a + b)[1..] == a[1..] + b;
      CollectAppend(a[1..], b, f);
    } else {
      assert a + b == b;
    }
  }

  lemma {:induction false} CollectNone<T>(ls: seq<string>, f: string -> Option<T>)
    requires forall i :: 0 <= i < |ls| ==> f(ls[i]).None?
    ensures Collect(ls, f) == []
    decreases |ls|
  {
    if |ls| > 0 {
      assert forall i :: 0 <= i < |ls[1..]| ==> ls[1..][i] == ls[i + 1];
      CollectNone(ls[1..], f);
    }
  }
}

/** Raw bytes of files and log lines. */
module Bytes {

  newtype byte = x: int | 0 <= x < 256

  /** The line terminator `'\n'`. */
  const Newline: byte := 10
}
